=== FILE: README.md ===
# salon-booking, modelled in Dafny

This project is a functional model of the logic in the salon-booking web shop's front end.

- **The booking wizard.** It has four steps: Services, Professional, Time and Confirm. The model covers the toggled selection of services, the price total, the guards on each step, Next, Back, the breadcrumbs, and the two ways the wizard can close.
- **The signed API client `apiFetch`.** The model covers the request URL and its query, the JSON body, the merged parameter map, and the key-sorted signature body. It also covers the sign string, the headers, and how the reply is read.
- **The server actions.** Shop details, the category, service and specialist lists, availability and bookings. For customers: login, registration, profile and logout. The model covers the request bodies they build, how they read reply envelopes, their fixed fallback error texts, and how thrown errors become `{ success: false, error }`.
- **`normalizeShopToVenue`.** Turns the API's shop record into the venue record the pages show.
- **The smaller screen state machines:**
  - the compact search bar's month calendar and time choice;
  - the merchant onboarding steps and category cards;
  - the merchant sidebar's active link;
  - the session refresh in the app providers;
  - the venue's service list, reviews and team.

The model is written in Dafny. React state becomes an immutable `State` datatype. Each handler becomes a pure function from state to state, or to an `Outcome` when the wizard closes.

The `Js` module models the JavaScript the code relies on:

- **Values.** JSON-shaped values: integers, strings, arrays and objects.
- **Objects.** A plain object is an insertion-ordered list of properties. Its keys enumerate in the order of section 10.1.11.1 of ECMA-262: array-index keys ascending, then the other keys in insertion order.
- **Reads.** Truthiness and `||`. A property read on null or undefined throws a `TypeError`.
- **Spread.** `{ ...a, ...b }` is modelled.
- **Text.** `String(v)`, plus ASCII case mapping, `includes` and `startsWith`.

Other modules cover the rest:

- **Json.** `JSON.stringify`, following section 25.5.2 of ECMA-262.
- **Decimal.** The decimal numerals that `String(n)` writes.
- **Sorting.** `Array.prototype.sort` as an insertion sort under a strict total order.

Some things become parameters:

- The server reached by `fetch` is a function `Env.server` from request to reply.
- The clock is `nowMs`.
- The MD5 digest is an uninterpreted function `digest: string -> string`.
- The yup URL validator of the onboarding form is a predicate `isUrl`.

Three properties carry the weight of the model:

- **The signature does not depend on key order.** It is the same however the caller ordered the properties of `params` and `data` (`Api.SignatureOrderFree`).
- **The wizard only confirms a complete booking.** Whatever the user clicks, it confirms only on the Confirm step, with at least one service, a professional and a time chosen (`BookingWizard.ConfirmedIsComplete`).
- **At most one sidebar link is highlighted, on any path** (`Sidebar.Highlights`).

Three behaviours of the code are worth knowing before reading the model:

- **The wizard's data.** The wizard in `components/venue/booking/wizard.tsx` fetches nothing and posts nothing. It offers the fixed professionals of `lib/mock-data.ts` and a fixed list of times, and its Confirm button just closes it, so it is modelled that way. `createBooking` and `fetchAvailability` are modelled as server actions of their own.
- **The order of keys in the signature body.** The code calls `Object.keys(...).sort()`, which sorts by UTF-16 code units. But it then rebuilds an object from the sorted keys, and an object enumerates array-index keys first, in numeric order. So `"9"` is written before `"10"`, although `.sort()` puts `"10"` first (`Api.SignatureKeyOrder`, `Api.SignatureKeyOrderExample`).
- **Ids and prices in the wizard.** The wizard's service records come from the API as they are, so an id or a price may be a number or a string. A service opened from its "Book" button is selected by `String(service.id)`, which `includes` never matches against a number id. A string price turns the `reduce` into string concatenation (`BookingWizard.NumericIdExample`, `BookingWizard.StringPriceExample`).

## Model

| member | source | states |
|---|---|---|
| BookingWizard.Init | components/venue/booking/wizard.tsx:19-26 | The wizard opens on step 0, in the category "featured", with no professional, time or date. The service it was opened for is selected, as a string, when its id is non-empty; nothing else is. |
| BookingWizard.SelectedObjects | components/venue/booking/wizard.tsx:30 | The selected service objects are exactly the services whose id is among the selected values, compared as `includes` compares them. Nothing selected gives no objects. |
| BookingWizard.Add | components/venue/booking/wizard.tsx:31 | `acc + price` is text exactly when either side is text, and a number exactly when the total so far is a number and the price reads as one. |
| BookingWizard.TotalAmount | components/venue/booking/wizard.tsx:31 | With nothing selected, the total is the number 0. |
| BookingWizard.TotalIsSumOfSelected | components/venue/booking/wizard.tsx:30-31 | When every selected price is a number, null or a boolean, the total is the number that sums them. |
| BookingWizard.TotalKinds | components/venue/booking/wizard.tsx:30-31 | For any prices: the total is text exactly when a selected price is a string, array or object. Otherwise it is NaN exactly when a selected price is undefined. Otherwise it is the sum, which is not negative when no price is. |
| BookingWizard.TextTotal | components/venue/booking/wizard.tsx:31 | From the first text price on, the total is the total so far written out, followed by every later price written out. |
| BookingWizard.TotalMembersOnly | components/venue/booking/wizard.tsx:30-31 | Whatever the prices, the total depends only on which ids are selected. Their order and any repeats do not matter. |
| BookingWizard.TotalSplit | components/venue/booking/wizard.tsx:30-35 | A selected id adds the prices of its services to the sum, on top of the sum without it. |
| BookingWizard.ToggleTotal | components/venue/booking/wizard.tsx:30-37 | With numeric prices, selecting a service raises the total by its price, and deselecting it lowers the total by the same amount. |
| BookingWizard.TotalText | components/venue/booking/wizard.tsx:345 | For a number total, the summary shows "free" exactly when it is not positive. Otherwise it shows "RM " and then the canonical decimal numeral of the total. |
| BookingWizard.SummaryText | components/venue/booking/wizard.tsx:345 | For any total, the summary shows "free" exactly when the total is not positive as a number. A text total is positive when it reads as a decimal above 0, and is then shown as it is. |
| BookingWizard.BarberExample | lib/mock-data.ts:79-82 | Services 101 (RM 40) and 104 (RM 25) together cost RM 65, and the summary shows "RM 65". |
| BookingWizard.NumericIdExample | components/venue/booking/wizard.tsx:20-31 | A service whose id is the number 5, opened with its id as the string "5" (the store page passes `String(service.id)`), passes the first step with a total of 0 and reads "free". Pressing its card then selects the number 5 too, and the total becomes 40. |
| BookingWizard.StringPriceExample | components/venue/booking/wizard.tsx:31 | The string prices "40" and "25" total the text "04025", which the summary shows as "RM 04025". |
| BookingWizard.DecimalPriceExample | components/venue/booking/wizard.tsx:31 | The string prices "40.00" and "25.00" total "040.0025.00", which is not a number, so the summary reads "free". |
| BookingWizard.Next | components/venue/booking/wizard.tsx:39-46 | Before the last step, Next moves one step on and changes nothing else. On the last step it closes the wizard as confirmed. |
| BookingWizard.Back | components/venue/booking/wizard.tsx:48-54 | After the first step, Back moves one step back and changes nothing else. On the first step it closes the wizard unconfirmed. |
| BookingWizard.NextBackInverse | components/venue/booking/wizard.tsx:39-54 | Back undoes Next, and Next undoes Back, wherever both move. |
| BookingWizard.IsStepValid | components/venue/booking/wizard.tsx:56-61 | The Service step is valid exactly when at least one service is selected. The Professional step is valid exactly when a professional is chosen, and the Time step exactly when a time is chosen. The Confirm step is always valid. |
| BookingWizard.JumpBack | components/venue/booking/wizard.tsx:89 | A breadcrumb jumps only to an earlier step. Any other breadcrumb does nothing. The step stays in range and never grows. |
| BookingWizard.Apply | components/venue/booking/wizard.tsx:33-89 | Before the Confirm step, Continue moves one step on exactly when the step is valid, and an invalid step stays put. The wizard closes confirmed only on a valid last step when Continue is pressed. It closes unconfirmed only on Close, or on Back from step 0. Only the navigation events change the step, and they change nothing else. |
| BookingWizard.ApplyReady | components/venue/booking/wizard.tsx:56-61 | Every event the screen offers keeps the step in 0..3. Each step is reached only with the earlier steps' choices made. |
| BookingWizard.RunReady | components/venue/booking/wizard.tsx:56-61 | The same holds after any sequence of offered events. |
| BookingWizard.ConfirmedIsComplete | components/venue/booking/wizard.tsx:39-61 | After any sequence of offered events, a confirmation happens only on the Confirm step, with a service, a professional and a time chosen. |
| Toggles.Remove | components/venue/booking/wizard.tsx:35 | Filtering removes every copy of the id and keeps every other element. |
| Toggles.Toggle | components/venue/booking/wizard.tsx:33-37 | Toggling flips whether the id is in the list and leaves every other id's membership alone. An absent id is appended at the end. |
| Toggles.RemoveAbsent | components/venue/booking/wizard.tsx:35 | Filtering out an id that is not there gives back the same list. |
| Toggles.RemoveAppend | components/venue/booking/wizard.tsx:35 | Filtering keeps the order of the elements it keeps. |
| Toggles.ToggleTwiceAbsent | components/venue/booking/wizard.tsx:33-37 | Toggling an absent id twice gives back the original list exactly. |
| Toggles.RemoveDistinct | components/venue/booking/wizard.tsx:35 | Filtering a list without duplicates leaves a list without duplicates. |
| Toggles.ToggleDistinct | components/venue/booking/wizard.tsx:33-37 | Toggling keeps a list free of duplicates. |
| Toggles.RemoveMultiset | components/venue/booking/wizard.tsx:35 | Filtering removes all copies of the id and nothing else, counted as a multiset. |
| Toggles.ToggleTwicePresent | components/venue/booking/wizard.tsx:33-37 | Toggling a present id twice gives the same elements, with that id moved to the end. |
| Api.RequestPath | lib/api.ts:16 | The URL text is the base URL, then "/shops/", the shop slug and the endpoint, with nothing between them. |
| Api.EmptyBaseRejected | lib/api.ts:3-16 | With the base URL unset, the URL text starts with "/", which has no scheme, so `new URL` rejects it. |
| Api.QueryOfLookup | lib/api.ts:19-25 | The query holds a key's value as a string exactly when that value is neither undefined nor null. Its keys are a subsequence of the object's keys, in order. |
| Api.QueryParams | lib/api.ts:19-25 | The URL's query carries exactly the params that are neither undefined nor null, as strings, in the object's enumeration order. |
| Api.Timestamp | lib/api.ts:33 | A clock at or after the epoch gives a canonical numeral without a sign. A clock before it gives a negative numeral. |
| Api.TimestampSeconds | lib/api.ts:33 | The timestamp is a canonical decimal numeral. It names the whole number of seconds in the clock value, rounded down. |
| Api.MergedParams | lib/api.ts:38 | Every field of `data` appears in the merged map with its value from `data`. |
| Api.MergedLookup | lib/api.ts:38 | The merged map has each key once. A data field overrides a param of the same name, and every other param is kept. |
| Api.SignatureBody | lib/api.ts:36-48 | The signature body is empty exactly when the merged map has no keys. Otherwise it is a JSON object text, from "{" to "}". |
| Api.SignString | lib/api.ts:51 | The signed text is as long as its four parts together. It starts with the product key, has the secret key after it, and ends with the body. |
| Api.SortedParamsSame | lib/api.ts:41-46 | Rebuilding the map in sorted key order keeps every parameter and its value, each key once. |
| Api.SignatureBodyOrderFree | lib/api.ts:36-48 | Two maps with the same parameters and values give the same signature body, whatever their insertion order. |
| Api.SignatureKeyOrder | lib/api.ts:41-47 | The members of the signature body come in canonical order: array-index keys numerically, then the other keys by code units. |
| Api.SignatureKeyOrderExample | lib/api.ts:41-47 | `.sort()` puts "10" before "9", but the body writes "9" before "10". |
| Api.MergedSame | lib/api.ts:38 | Reordering the properties of params or data gives a merged map with the same parameters and values. |
| Api.SignatureOrderFree | lib/api.ts:36-52 | The signature is independent of the insertion order of the caller's params and data. |
| Api.DefaultHeadersShape | lib/api.ts:55-60 | The default headers name each header once. They carry the product key, the timestamp and the signature. |
| Api.NoAuthorizationDefault | lib/api.ts:55-60 | The default headers carry no Authorization header. |
| Api.RequestHeaders | lib/api.ts:55-66 | A non-empty token always sets `Authorization: Bearer <token>`, whatever the caller's headers say. |
| Api.HeaderLookup | lib/api.ts:55-66 | A header comes from the bearer token if there is one, else from the caller's headers, else from the defaults. |
| Api.HeadersDistinct | lib/api.ts:55-66 | The final headers name each header once. |
| Api.RequestBody | lib/api.ts:28-30 | The request body is the JSON text of `data` when data is given and no non-empty body is. Otherwise it is the caller's body. |
| Api.BuildRequest | lib/api.ts:14-71 | A missing method means GET, and a given one is passed on. The headers name each header once. |
| Api.TokenHeader | lib/api.ts:64-66 | Without caller headers, the request carries `Authorization: Bearer <token>` exactly when a non-empty token is given. |
| Api.SignedHeaders | lib/api.ts:51-62 | Unless the caller overrides them, the request carries the product key and the timestamp. It also carries the digest of product key + secret key + timestamp + signature body. |
| Api.ErrorMessage | lib/api.ts:73-82 | The error message is the JSON body's `message` when that is truthy. Otherwise it is "API Error: " and then the status text. |
| Api.ReadReply | lib/api.ts:73-85 | An OK reply with a JSON body yields that body unchanged. A non-OK reply throws an Error with the chosen message. A network error rethrows its message, and an OK reply whose body is not JSON throws the parse error. |
| Api.ApiFetch | lib/api.ts:14-86 | A URL text that `new URL` rejects throws "Invalid URL" before anything is sent. Once the URL parses, an OK JSON reply returns its body; a non-OK reply throws the chosen error message; a network error throws its message; an OK reply that is not JSON throws the parse error. A normal completion means the URL parsed and the server gave an OK JSON reply. |
| Json.Stringify | lib/api.ts:29 | `JSON.stringify` yields no text exactly for undefined. |
| Json.EncodeObjectSame | lib/api.ts:47 | An object's JSON text depends only on its enumeration order and its values. |
| Decimal.IntToString | lib/api.ts:33 | `toString` of an integer writes a canonical numeral: digits without a leading zero, after a minus sign for a negative number. |
| Decimal.ParseNatToString | lib/api.ts:33 | The numeral `String(n)` writes for a natural number reads back as that number. |
| Sorting.SortDependsOnElementsOnly | lib/api.ts:41 | Sorting distinct keys gives a result that depends only on which keys there are. |
| ActionResults.Run | app/actions/shop.ts:6-17 | A throw, from `apiFetch` or from reading the reply, becomes a failure carrying the Error's message or `String(e)`. Otherwise the reader's result is returned. |
| ActionResults.Perform | app/actions/auth.ts:6-23 | Every outcome is fixed: a URL that does not parse fails with "Invalid URL", a rejected request with the network's message, a non-OK reply with the client's error message, and an OK reply that is not JSON with the parser's message. An OK JSON reply gives what the reader makes of it, and a success always comes from such a reply. |
| ActionResults.SuccessAndData | app/actions/shop.ts:8 | `response.success && response.data` throws only on a null or undefined reply. It is truthy exactly when both fields are, and its value is then `data`. |
| ActionResults.FailureText | app/actions/auth.ts:16-17 | The error text is `message` when truthy, else `error.message` when truthy, else the fixed fallback. |
| AuthActions.ReadAccount | app/actions/auth.ts:12-17 | Login and registration succeed with `data` exactly when `success` and `data` are both truthy. Otherwise they fail with the error text, which falls back to "Login failed" or "Registration failed". |
| AuthActions.ReadCustomerInfo | app/actions/auth.ts:54-57 | The profile fetch succeeds with `data` when `success` and `data` are both truthy. Otherwise it fails with "Failed to fetch customer info". |
| AuthActions.ReadLogout | app/actions/auth.ts:73-76 | Logout succeeds on `success` alone and carries no data. Otherwise it fails with "Logout failed". |
| AuthActions.LoginCustomer | app/actions/auth.ts:5-24 | Login fails with "Invalid URL" when the URL does not parse, and with the client's message when the request fails or the reply is not OK or not JSON. On an OK JSON reply it succeeds exactly when `success` and `data` are both truthy, with `data`; otherwise it fails with the reply's message, or "Login failed". A null reply fails with the TypeError of reading `success`. |
| AuthActions.RegisterCustomer | app/actions/auth.ts:26-45 | Registration fails with "Invalid URL" when the URL does not parse, and with the client's message when the request fails or the reply is not OK or not JSON. On an OK JSON reply it succeeds exactly when `success` and `data` are both truthy, with `data`; otherwise it fails with the reply's message, or "Registration failed". A null reply fails with the TypeError of reading `success`. |
| AuthActions.FetchCustomerInfo | app/actions/auth.ts:47-64 | The profile fetch fails with "Invalid URL" when the URL does not parse, and with the client's message when the request fails or the reply is not OK or not JSON. On an OK JSON reply it succeeds exactly when `success` and `data` are both truthy, with `data`; otherwise it fails with "Failed to fetch customer info". A null reply fails with the TypeError of reading `success`. |
| AuthActions.LogoutCustomer | app/actions/auth.ts:66-83 | Logout fails with "Invalid URL" when the URL does not parse, and with the client's message when the request fails or the reply is not OK or not JSON. On an OK JSON reply it succeeds exactly when `success` is truthy, with no data; otherwise it fails with "Logout failed". A null reply fails with the TypeError of reading `success`. |
| AuthActions.AccountPayloadSent | app/actions/auth.ts:7-10 | Login and registration post exactly the JSON text of the caller's payload. |
| AuthActions.TokenSent | app/actions/auth.ts:49-52 | The profile and logout requests carry `Authorization: Bearer <token>` exactly when the token is non-empty. |
| AuthActions.SuccessWithoutData | app/actions/auth.ts:12-17 | A reply of `{ success: true }` with no data fails a login but completes a logout. |
| ShopActions.ReadDetails | app/actions/shop.ts:7-11 | Shop details succeed with `data` as it is, exactly when `success` and `data` are both truthy. Otherwise they fail with "Invalid response format". |
| ShopActions.ReadList | app/actions/shop.ts:22-30 | The list fetchers succeed when `success` and `data` are both truthy. They return `data.data` when it is an array, else `data`. Otherwise they fail with "Invalid response format". |
| ShopActions.ReadBooking | app/actions/shop.ts:152-157 | A booking succeeds on `success` alone, with `data` even if it is missing. Otherwise the error text falls back to "Failed to create booking". |
| ShopActions.FetchShopDetails | app/actions/shop.ts:5-18 | The shop fetch fails with "Invalid URL" when the URL does not parse, and with the client's message when the request fails or the reply is not OK or not JSON. On an OK JSON reply it succeeds exactly when `success` and `data` are both truthy, with `data` as it is; otherwise it fails with "Invalid response format". A null reply fails with the TypeError of reading `success`. |
| ShopActions.ListAction | app/actions/shop.ts:20-37 | A list fetch's outcome for every reply, as for the five list fetchers below. |
| ShopActions.FetchCategories | app/actions/shop.ts:20-37 | The category fetch fails with "Invalid URL" when the URL does not parse, and with the client's message when the request fails or the reply is not OK or not JSON. On an OK JSON reply it succeeds exactly when `success` and `data` are both truthy, with `data.data` when that is an array and `data` otherwise; otherwise it fails with "Invalid response format". A null reply fails with the TypeError of reading `success`. |
| ShopActions.FetchServices | app/actions/shop.ts:39-57 | The service fetch fails with "Invalid URL" when the URL does not parse, and with the client's message when the request fails or the reply is not OK or not JSON. On an OK JSON reply it succeeds exactly when `success` and `data` are both truthy, with `data.data` when that is an array and `data` otherwise; otherwise it fails with "Invalid response format". A null reply fails with the TypeError of reading `success`. |
| ShopActions.FetchAllSpecialists | app/actions/shop.ts:59-76 | The specialist fetch fails with "Invalid URL" when the URL does not parse, and with the client's message when the request fails or the reply is not OK or not JSON. On an OK JSON reply it succeeds exactly when `success` and `data` are both truthy, with `data.data` when that is an array and `data` otherwise; otherwise it fails with "Invalid response format". A null reply fails with the TypeError of reading `success`. |
| ShopActions.FetchServiceSpecialists | app/actions/shop.ts:78-102 | The specialists-for-a-service fetch fails with "Invalid URL" when the URL does not parse, and with the client's message when the request fails or the reply is not OK or not JSON. On an OK JSON reply it succeeds exactly when `success` and `data` are both truthy, with `data.data` when that is an array and `data` otherwise; otherwise it fails with "Invalid response format". A null reply fails with the TypeError of reading `success`. |
| ShopActions.FetchAvailability | app/actions/shop.ts:104-129 | The availability fetch fails with "Invalid URL" when the URL does not parse, and with the client's message when the request fails or the reply is not OK or not JSON. On an OK JSON reply it succeeds exactly when `success` and `data` are both truthy, with `data.data` when that is an array and `data` otherwise; otherwise it fails with "Invalid response format". A null reply fails with the TypeError of reading `success`. |
| ShopActions.CreateBooking | app/actions/shop.ts:143-164 | The booking fails with "Invalid URL" when the URL does not parse, and with the client's message when the request fails or the reply is not OK or not JSON. On an OK JSON reply it succeeds exactly when `success` is truthy, with `data`; otherwise it fails with the reply's message, or "Failed to create booking". A null reply fails with the TypeError of reading `success`. |
| ShopActions.ListEnvelopes | app/actions/shop.ts:23-28 | A flat list and a paginated envelope around the same list read alike. |
| ShopActions.ReadersDiffer | app/actions/shop.ts:8-11 | Shop details are not unwrapped. A booking reply without data succeeds where a list reply without data fails. |
| ShopActions.ServicesQuery | app/actions/shop.ts:41 | The services request has a `category` query exactly when a non-empty category is given. |
| ShopActions.SpecialistsData | app/actions/shop.ts:80-83 | The specialists body always has `service_id`. It has `gender` exactly when a gender is given that is neither empty nor "Any", and no other key. |
| ShopActions.AvailabilityData | app/actions/shop.ts:106-110 | The availability body is exactly `service_id`, `specialist_id` and `date`, in that order, with the given values. |
| ShopActions.PayloadField | app/actions/shop.ts:131-141 | A payload has a field exactly when it is one of the seven required ones, or `notes` or `email` and given. |
| ShopActions.PayloadObjectCarries | app/actions/shop.ts:131-141 | Some object carries every payload, one field per key with the payload's value. |
| ShopActions.BookingKeys | app/actions/shop.ts:131-141 | Any object that carries a payload has as its keys the seven required names and the given optional ones, in whatever order the caller wrote them. |
| ShopActions.OptionalKeysPresent | app/actions/shop.ts:139-140 | `notes` and `email` are in the booking object exactly when they are given. |
| ShopActions.BookingDataCopies | app/actions/shop.ts:145 | The spread copy of the caller's object carries the same payload: the same fields, each once, with the same values. |
| ShopActions.NullReply | app/actions/shop.ts:12-17 | A null reply is caught as the TypeError of reading `success`, and comes back as a failure. |
| Normalize.DayLabel | lib/normalize.ts:14 | The day label has the same length as the key. Its first character is upper-cased and the rest are unchanged. |
| Normalize.DayLabelIdempotent | lib/normalize.ts:14 | Capitalising a label twice changes nothing more. |
| Normalize.HoursText | lib/normalize.ts:15 | Reading a null entry throws. Otherwise the text is "Closed" exactly when `is_closed` is truthy, and else the text is `open - close`. |
| Normalize.RangeIsNotClosed | lib/normalize.ts:15 | No `open - close` text equals "Closed". |
| Normalize.OpeningHoursOf | lib/normalize.ts:13-16 | There is one line per working-hours entry, in order, each built from that entry. It throws only when some entry is null or undefined. |
| Normalize.NormalizeShopToVenue | lib/normalize.ts:1-21 | The function throws exactly on a null shop or a null working-hours entry. Otherwise it copies id, name, address and image, and sets rating 5, 0 reviews and category "all". The status is "Open" exactly when there are working hours. There are 1 or 2 images, ending with the logo. The description, flag, phone and map link take their defaults. |
| Normalize.OpeningHoursLines | lib/normalize.ts:13-16 | Line i of the table names the i-th working-hours key, capitalised. It reads "Closed" exactly when that entry is closed. |
| SearchBar.FullYear | components/layout/compact-search-bar.tsx:9-10 | The `Date` constructor reads the years 0 to 99 as 1900 to 1999, and any other year as itself. |
| SearchBar.MakeDay | components/layout/compact-search-bar.tsx:9-10 | A real date of a month in 0..11 falls within its year. |
| SearchBar.YearLength | components/layout/compact-search-bar.tsx:9 | Consecutive years start 365 or 366 days apart, by the Gregorian leap rule. |
| SearchBar.MonthLengthBetweenStarts | components/layout/compact-search-bar.tsx:9 | Consecutive months start the month's length apart, across the turn of the year too. |
| SearchBar.DaysInMonth | components/layout/compact-search-bar.tsx:9 | A month has between 28 and 31 days. |
| SearchBar.DaysInMonthIsLastDate | components/layout/compact-search-bar.tsx:9 | Day 0 of the next month is the last day of this one. Days 1 to `daysInMonth` fill the month exactly. |
| SearchBar.FebruaryExamples | components/layout/compact-search-bar.tsx:9 | February has 29 days in 2024 and 2000, and 28 in 2023 and 1900. The year 0 shows 28 days, because it is read as 1900. |
| SearchBar.WeekDay | components/layout/compact-search-bar.tsx:10 | `getDay` gives a weekday from 0 (Sunday) to 6. |
| SearchBar.FirstDay | components/layout/compact-search-bar.tsx:10 | The first day of a month is a weekday from 0 (Sunday) to 6. |
| SearchBar.WeekdayExamples | components/layout/compact-search-bar.tsx:10 | 1 January 2024 was a Monday, and 1 March 2024 a Friday. |
| SearchBar.Label | components/layout/compact-search-bar.tsx:179 | Every time choice has one of the five fixed labels. |
| SearchBar.LabelsName | components/layout/compact-search-bar.tsx:179-182 | Two choices have the same label exactly when they are the same choice. |
| SearchBar.Init | components/layout/compact-search-bar.tsx:17-21 | The picker opens on the current month and year, with today selected and "Any time". |
| SearchBar.PrevMonth | components/layout/compact-search-bar.tsx:26-33 | The previous month is one month earlier: January goes to December of the year before. The month stays in 0..11, and the selection is kept. |
| SearchBar.NextMonth | components/layout/compact-search-bar.tsx:35-42 | The next month is one month later: December goes to January of the year after. The month stays in 0..11, and the selection is kept. |
| SearchBar.PrevNextInverse | components/layout/compact-search-bar.tsx:26-42 | Previous then next, and next then previous, both return to the same month. |
| SearchBar.NextMonthStartsNext | components/layout/compact-search-bar.tsx:35-42 | The page after a month starts on the day after that month ends. The two exceptions are the turns at which the constructor's 1900 offset for years 0 to 99 starts or stops. |
| SearchBar.DateClick | components/layout/compact-search-bar.tsx:44-47 | Clicking day d selects the date d - 1 days after the first of the month on show. That date lies within that month, and the month on show is kept. |
| SearchBar.PickSlot | components/layout/compact-search-bar.tsx:182 | Picking a time choice records it and changes nothing else. |
| SearchBar.RenderCalendar | components/layout/compact-search-bar.tsx:49-81 | The grid is `firstDay` blanks followed by one button for each day of the month. A button is marked exactly when its date is the selected one. |
| SearchBar.ClickMarksOneDay | components/layout/compact-search-bar.tsx:44-68 | After a click on a day, that day's button is the only one marked in the month. |
| SearchBar.Visible | components/layout/compact-search-bar.tsx:95 | The bar is hidden on the home page "/" and shown on every page below it. |
| Onboarding.Init | app/merchant/onboarding/page.tsx:44-57 | The form opens on step 1 with no categories. |
| Onboarding.StepFieldsValid | app/merchant/onboarding/page.tsx:61-68 | Only the first two steps pass `handleNext`'s check: the first with a business name, the second with a category. |
| Onboarding.FormValid | app/merchant/onboarding/page.tsx:10-27 | A form that passes the whole schema passes each step's check. |
| Onboarding.Next | app/merchant/onboarding/page.tsx:61-73 | Next moves exactly one step on, and only when the current step's fields validate and the step is before the last. Otherwise nothing changes, and the form is never touched. |
| Onboarding.NextStaysOnLast | app/merchant/onboarding/page.tsx:62-70 | On the last step, Next never moves, because no validation branch applies there. |
| Onboarding.Back | app/merchant/onboarding/page.tsx:75-77 | Back moves one step back, but never before step 1, and keeps the form. |
| Onboarding.BackUndoesNext | app/merchant/onboarding/page.tsx:61-77 | Back undoes a Next that moved. |
| Onboarding.ToggleCategory | app/merchant/onboarding/page.tsx:183-187 | A card flips whether its category is selected. The other categories, the other fields and the step are unchanged. |
| Onboarding.ButtonsOf | app/merchant/onboarding/page.tsx:272-306 | Back is shown exactly after step 1. Continue is shown exactly when Submit is not, and Submit exactly on step 3. |
| Onboarding.Submit | app/merchant/onboarding/page.tsx:79-88 | Submitting goes to "/merchant" exactly when the whole schema validates. |
| Onboarding.Apply | app/merchant/onboarding/page.tsx:61-77 | Every action keeps the step within 1..3. Editing keeps the step and the categories, and Continue and Back keep the form. |
| Onboarding.RunValid | app/merchant/onboarding/page.tsx:44-77 | The step stays within 1..3 whatever the user does. |
| Onboarding.ApplyAdvances | app/merchant/onboarding/page.tsx:61-73 | The step grows only through Continue on a step whose fields validate, and then by one. |
| Sidebar.IsActive | components/merchant/layout/Sidebar.tsx:37-40 | An active link's href is a prefix of the path. |
| Sidebar.HrefsApart | components/merchant/layout/Sidebar.tsx:7-13 | No link other than the dashboard is a prefix of another link, or of the dashboard's path. |
| Sidebar.ActiveUnique | components/merchant/layout/Sidebar.tsx:7-40 | No path makes two links active. |
| Sidebar.Highlights | components/merchant/layout/Sidebar.tsx:36-40 | The dashboard is highlighted exactly on "/merchant". Every other link is highlighted exactly when its href is a prefix of the path. At most one link is highlighted. |
| Sidebar.SubpathExamples | components/merchant/layout/Sidebar.tsx:37-40 | "/merchant/bookings" does not highlight the dashboard. "/merchant/bookings-x" highlights Bookings and "/merchant/clients/7" highlights Clients. "/merchant/calendar" does not highlight Clients. |
| Providers.ShouldRefresh | components/providers/index.tsx:24 | The refresh runs only for a signed-in session that has a stored user. |
| Providers.Merge | components/providers/index.tsx:30-36 | The merged user keeps the stored token and role. |
| Providers.ProfileUpdates | components/providers/index.tsx:32-35 | The refresh overwrites exactly the fields id, name, contact and email, each once. |
| Providers.MergeLookup | components/providers/index.tsx:30-36 | A field of the merged user comes from the update when it is one of the four profile fields. Otherwise it comes from the stored user. |
| Providers.MergeKeepsOthers | components/providers/index.tsx:30-36 | The merged user names each field once. Every field other than the four, the token and the role among them, is as it was. |
| Providers.MergeProfile | components/providers/index.tsx:32-35 | The id becomes `String` of the server's id if truthy, else of the old id. Name, contact and email take the server's value when truthy, and otherwise keep the old one. |
| Providers.Reaction | components/providers/index.tsx:27-43 | A success with truthy data sets the merged user. A failure logs out exactly when its message contains "unauthenticated" in any letter case. Anything else leaves the session alone. |
| Providers.Refresh | components/providers/index.tsx:24-43 | The session changes only when the refresh condition holds. Then it ends exactly on a failed profile fetch whose message says "unauthenticated", and gets a new user exactly on a successful fetch with truthy data; that user is the stored one merged with the data. |
| Providers.RefreshRequest | components/providers/index.tsx:24-26 | The refresh asks for "/customers/me" with GET and, for a token that is not an array, the header `Authorization: Bearer <token>`. |
| Providers.MergeKeepsRefresh | components/providers/index.tsx:24-36 | After a merge, the condition that started the refresh still holds. |
| Providers.ReactionKeepsSession | components/providers/index.tsx:24-42 | Unless it logs out, the refresh leaves a well-formed user for which the refresh condition still holds. |
| Providers.UnauthenticatedAnyCase | components/providers/index.tsx:40 | Whether the session ends does not depend on the letter case of the message. |
| Collapsible.Displayed | components/venue/review-list.tsx:19 | The shown items are a prefix of the list. The prefix is the whole list when expanded, and the first `limit` items (or all, if fewer) when collapsed. |
| Collapsible.CollapsedHides | components/venue/team-list.tsx:23-29 | Collapsing hides something exactly when the list is longer than the limit. |
| Collapsible.Switch | components/venue/team-list.tsx:31-34 | The See all / See less switch flips the expanded flag; the reviews' header switch is the same. |
| Collapsible.SwitchLabel | components/venue/team-list.tsx:37 | The switch reads "See less" exactly when expanded and "See all" exactly when collapsed, in the team list and in the reviews' header alike. |
| Collapsible.LimitMonotone | components/venue/team-list.tsx:23 | A larger limit shows the smaller limit's items, and possibly more. |
| ServiceList.Rows | components/venue/service-list.tsx:79-80 | The rows are exactly the services in the active category, or every service under "all", kept in their original order. |
| ServiceList.RowsAppend | components/venue/service-list.tsx:79-80 | Filtering a concatenation filters each part and keeps them in order. |
| ServiceList.RowsAll | components/venue/service-list.tsx:80 | Under "all" every service is a row, in order. |
| ServiceList.MatchCount | components/venue/service-list.tsx:110 | The count is 0 exactly when no service has exactly the active category. |
| ServiceList.EmptyStateIffNoRows | components/venue/service-list.tsx:79-112 | For a real category, the empty-state message shows exactly when there are no rows. |
| ServiceList.NoMatch | components/venue/service-list.tsx:79-112 | When no service is in a real category, there are no rows and the message shows. |
| ServiceList.FeaturedRows | components/venue/service-list.tsx:16-80 | The initial pill "featured" lists the two featured services, in order. |
| ServiceList.ComboIsEmpty | components/venue/service-list.tsx:9-112 | The "combo" pill shows no rows and the empty-state message. |
| ServiceList.AllShowsRowsAndMessage | components/venue/service-list.tsx:79-112 | Under "all" the list would show every service and the empty-state message together. |
| ServiceList.CartLineFields | components/venue/service-list.tsx:103 | `{ ...service, quantity: 1 }` has quantity 1, every other field of the service with its value, and no other field, each once. |
| ServiceList.Book | components/venue/service-list.tsx:103 | The cart line of a listed service has its id and price, quantity 1, and the service object's other fields. |
| ReviewList.Shown | components/venue/review-list.tsx:18-19 | The reviews shown are a prefix of the reviews. There are two when collapsed, and all of them when expanded. |
| ReviewList.AfterPress | components/venue/review-list.tsx:25-80 | The header switch flips the expanded flag. "Read more reviews" sets it. |
| ReviewList.ReadMoreWhileHidden | components/venue/review-list.tsx:76-82 | "Read more reviews" is shown exactly when some review is hidden. |
| ReviewList.ReadMoreIdempotent | components/venue/review-list.tsx:78 | Pressing "Read more reviews" twice is the same as pressing it once. Afterwards every review is shown and the button is gone. |
| ReviewList.SwitchTwice | components/venue/review-list.tsx:26-29 | Two presses of the header switch give back the list as it was. |
| ReviewList.Stars | components/venue/review-list.tsx:65 | A review shows exactly `rating` stars. |
| TeamList.Shown | components/venue/team-list.tsx:20-23 | The members shown are a prefix of the team: the first `min(4, n)` when collapsed, and all of them when expanded. |
| TeamList.SwitchExactlyWhenHiding | components/venue/team-list.tsx:23-29 | The switch exists exactly when collapsing hides a member. |
| TeamList.ShippedTeam | components/venue/team-list.tsx:8-29 | The shipped team of eight has the switch, and shows its first four members at first. |

## Left out

- **Rendering.** JSX, class names, animations, and the popover open flag `isTimeOpen` with its outside-click handler. They decide only what is drawn.
- **Routing.** Routing and `usePathname`. The pathname is a parameter, and a navigation is returned as a value (`Onboarding.Submit`).
- **The network.** It is the parameter `Env.server`, which returns a reply or a rejection. Timeouts, retries and races between requests are not modelled.
- **URL encoding.** The percent-encoding of the query string by `URL` and `searchParams` is not modelled: the query is the list of appended key/value pairs.
- **MD5.** The digest is an uninterpreted function. Only what it is applied to is modelled.
- **Floating point.** Numbers are integers: prices are whole ringgit, and the venue's rating 5.0 is the integer 5. `JSON.stringify` of non-integral numbers is not modelled.
- **Unicode.** Letter case is ASCII only, in `toLowerCase` and in the day-name capitalisation. Strings are sequences of code points, not UTF-16 code units.
- **Prototype properties.** A read sees an object's own properties, and the `length` and indices of strings and arrays. Names inherited from `Object.prototype` are not modelled.
- **The clock and locale.** `Date.now`, `new Date()` and the locale formatting in the search bar are parameters (`nowMs`, today, the current month) or left out. So are the wizard's date strip, which shows seven days from today, and the search bar's Today and Tomorrow buttons.
- **Time zones.** Dates are day numbers in the proleptic Gregorian calendar of section 21.4.1 of ECMA-262, without time zones. The TimeClip range limit is not modelled.
- **Global stores.** The user store is a plain `Session` record, and the store's `logout` is modelled as clearing the session. The cart store is not modelled: `ServiceList.Book` returns the line it would be given.
- **yup.** The schema is written out as predicates. Its URL rule is the parameter `isUrl`, and empty fields are the empty string.
- **Side effects and static markup.** `alert`, `console.log` and the simulated delay before the onboarding redirect are left out. So is the static review summary.
- **Scripts and helpers.** The codemod and test scripts at the repository root are not part of this model. Neither are `lib/fetcher.ts` and the pure-markup components.
- **Header names.** Header names are compared exactly. The case-insensitive merging that `fetch` applies to headers is not modelled.
- **Unreadable replies.** A reply whose body is not JSON carries the parser's error text as given data. The JSON parser itself is not modelled.
- **ReviewList.Stars:** a rating is a natural number here. The `RangeError` that `Array(n)` throws for a non-integral rating is not modelled.
- **ServiceList.AllShowsRowsAndMessage:** no pill sets the category "all", so this case cannot be reached from the screen. It is stated about the filter alone.
- **SearchBar.NextMonthStartsNext:** stated with two exceptions. At the turns from year -1 to 0 and from 99 to 100, the constructor's offset of 1900 for two-digit years starts or stops.
- **BookingWizard.Service:** an id that is an array or an object is compared by its contents here, not by identity as `includes` compares it.
- **BookingWizard.SummaryText:** a text total counts as a number only when it is digits with at most one point. Exponents, `0x`/`0b`/`0o` prefixes, signs and surrounding white space are read as NaN.
- **Api.ApiFetch:** URL parsing beyond the first letter of the scheme is the parameter `parsesUrl`, and path normalisation is left to the server parameter.
- **Providers.RefreshRequest:** the stored token is handed on as its `String` text, so the header is promised only for a token that is not an array. The code hands on the value itself, and `apiFetch` tests `if (token)` on it: a truthy array whose text is empty, such as `[]`, gets `Authorization: Bearer ` there, and no header in the model.
- **Providers.Refresh:** for a stored token that is an array with empty text, the profile request of the model lacks the `Authorization: Bearer ` header that the code sends, so the reply it is promised on may differ from the code's.
- **BookingWizard.SelectedObjects:** a service record is never null or undefined here. The code would throw a TypeError when it reads `s.id` of such a record.
- **Decimal.IntToString:** the exponent form that `String(n)` uses from 10^21 on is not modelled, and the model keeps every integer exact, where a double above 2^53 would print its rounded value.

=== FILE: action_results.dfy ===
/** What the server actions (app/actions/shop.ts, app/actions/auth.ts) have in
    common: every one wraps its `apiFetch` call in a `try`, reads the reply,
    and answers `{ success, data }` or `{ success: false, error }`; nothing
    it throws escapes. */
module ActionResults {
  import opened Wrappers
  import opened Js
  import Api

  /** `{ success: true, data? }` or `{ success: false, error }`. */
  datatype ActionResult = Succeeded(data: Option<Value>) | Failed(error: string)

  /** The `catch` block: `error instanceof Error ? error.message : String(error)`. */
  function CaughtText(e: Exception): string {
    match e
    case ErrorObject(m) => m
    case Thrown(v) => ToJsString(v)
  }

  /** The `try` block: the `apiFetch` call, then the reading of its reply.
      A throw from either becomes a failed result carrying its message. */
  function Run(response: Completion<Value>, read: Value -> Completion<ActionResult>): (r: ActionResult)
    ensures response.Throw? ==> r == Failed(CaughtText(response.exception))
    ensures response.Normal? && read(response.value).Normal? ==> r == read(response.value).value
    ensures response.Normal? && read(response.value).Throw? ==> r == Failed(CaughtText(read(response.value).exception))
  {
    match response
    case Throw(e) => Failed(CaughtText(e))
    case Normal(v) =>
      match read(v)
      case Throw(e) => Failed(CaughtText(e))
      case Normal(result) => result
  }

  /** The endpoint and options an action hands to `apiFetch`. */
  datatype Call = Call(endpoint: string, opts: Api.FetchOptions)

  /** The request an action hands to the server. */
  function Request(env: Api.Env, call: Call): Api.HttpRequest {
    Api.BuildRequest(env.cfg, call.endpoint, call.opts, env.nowMs, env.digest)
  }

  /** The request was built, sent, and answered OK with a JSON body. */
  predicate Delivered(env: Api.Env, call: Call) {
    && Api.UrlParses(env, Api.RequestPath(env.cfg, call.endpoint))
    && var reply := env.server(Request(env, call));
       reply.Reply? && reply.ok && reply.body.JsonBody?
  }

  /** The JSON body of a delivered request's reply. */
  function Answer(env: Api.Env, call: Call): Value
    requires Delivered(env, call)
  {
    env.server(Request(env, call)).body.value
  }

  /** What every action promises of its result, for every reply: an
      unparsable URL fails with "Invalid URL"; a rejected request fails with
      the network's message; a non-OK reply fails with the message chosen
      from it; an OK reply that is not JSON fails with the parser's message;
      an OK JSON reply is what the reader makes of it. So a success is what
      the reader made of an OK reply to the action's own request. */
  predicate Promised(env: Api.Env, call: Call, read: Value -> Completion<ActionResult>, r: ActionResult) {
    var parses := Api.UrlParses(env, Api.RequestPath(env.cfg, call.endpoint));
    var reply := env.server(Request(env, call));
    && (!parses ==> r == Failed(Api.InvalidUrl))
    && (parses && reply.NetworkError? ==> r == Failed(reply.message))
    && (parses && reply.Reply? && !reply.ok ==> r == Failed(Api.ErrorMessage(reply.statusText, reply.body)))
    && (parses && reply.Reply? && reply.ok && reply.body.NotJson? ==> r == Failed(reply.body.parseError))
    && (Delivered(env, call) ==> r == Run(Normal(Answer(env, call)), read))
    && (r.Succeeded? ==> Delivered(env, call) && read(Answer(env, call)) == Normal(r))
  }

  /** Runs an action: the call, then the reading of its reply. A request
      that never reaches an OK JSON reply fails with the message of the
      Error `apiFetch` threw: the URL parser's, the network's, the one
      chosen from the reply, or the JSON parser's. */
  function Perform(env: Api.Env, call: Call, read: Value -> Completion<ActionResult>): (r: ActionResult)
    ensures Promised(env, call, read, r)
  {
    Run(Api.ApiFetch(env, call.endpoint, call.opts), read)
  }

  /** `response[key]` when reading it cannot throw, undefined otherwise. */
  function Field(response: Value, key: string): Value {
    GetOptional(response, key)
  }

  /** A reply object whose `success` and `data` are both truthy. */
  predicate Accepted(response: Value) {
    !Nullish(response) && Truthy(Field(response, "success")) && Truthy(Field(response, "data"))
  }

  /** A reply object whose `success` is truthy. */
  predicate SuccessFlag(response: Value) {
    !Nullish(response) && Truthy(Field(response, "success"))
  }

  /** `response.success && response.data` */
  function SuccessAndData(response: Value): (c: Completion<Value>)
    ensures c.Throw? <==> Nullish(response)
    ensures c.Normal? && Truthy(c.value) ==> c.value == Field(response, "data")
    ensures c.Normal? ==> (Truthy(c.value) <==> Truthy(Field(response, "success")) && Truthy(Field(response, "data")))
  {
    var success :- Get(response, "success");
    if !Truthy(success) then Normal(success) else Get(response, "data")
  }

  /** `response.message || response.error?.message || fallback`, converted
      with `String`: the first of the three that is truthy. */
  function FailureText(response: Value, fallback: string): (t: string)
    requires !Nullish(response)
    ensures Truthy(Field(response, "message")) ==> t == ToJsString(Field(response, "message"))
    ensures !Truthy(Field(response, "message")) && Truthy(Field(Field(response, "error"), "message")) ==>
      t == ToJsString(Field(Field(response, "error"), "message"))
    ensures !Truthy(Field(response, "message")) && !Truthy(Field(Field(response, "error"), "message")) ==>
      t == fallback
  {
    var message := Get(response, "message").value;
    var nested := GetOptional(Get(response, "error").value, "message");
    ToJsString(Or(message, Or(nested, Str(fallback))))
  }
}

=== FILE: api.dfy ===
/** The signed request helper `apiFetch` (lib/api.ts): builds the request URL,
    the MD5-signed headers and the JSON body, hands the request to the network,
    and turns the reply into a value or an error. The clock, the MD5 digest and
    the network are parameters. */
module Api {
  import opened Wrappers
  import opened Sorting
  import opened Js
  import Json
  import Decimal

  /** The four environment settings, each "" when unset. */
  datatype Config = Config(baseUrl: string, shopSlug: string, productKey: string, secretKey: string)

  /** The options a caller passes: `params`, `data` and `token` are taken out,
      the rest (the method, `headers`, `body`) is passed on to `fetch`. */
  datatype FetchOptions = FetchOptions(
    httpMethod: Option<string>,
    params: Option<Entries<Value>>,
    data: Option<Entries<Value>>,
    token: Option<string>,
    headers: Option<Entries<string>>,
    body: Option<string>)

  const NoOptions := FetchOptions(None, None, None, None, None, None)

  /** A request URL: the path and the query pairs in the order they were appended. */
  datatype Url = Url(path: string, query: Entries<string>)

  datatype HttpRequest = HttpRequest(url: Url, httpMethod: string, headers: Entries<string>, body: Option<string>)

  /** An object argument is a well-formed object: no key twice. */
  predicate WellFormed(o: Option<Entries<Value>>) {
    o.Some? ==> DistinctKeys(o.value)
  }

  // ---------------------------------------------------------------------------
  // URL

  /** The text handed to `new URL`. The request carries it as it is: how the
      parser normalises a path is part of what the server parameter does
      with the request. */
  function RequestPath(cfg: Config, endpoint: string): (p: string)
    ensures cfg.baseUrl <= p && |p| == |cfg.baseUrl| + 7 + |cfg.shopSlug| + |endpoint|
    ensures p[|cfg.baseUrl|..|cfg.baseUrl| + 7] == "/shops/"
    ensures p[|cfg.baseUrl| + 7..|p| - |endpoint|] == cfg.shopSlug && p[|p| - |endpoint|..] == endpoint
  {
    cfg.baseUrl + "/shops/" + cfg.shopSlug + endpoint
  }

  /** The text with its leading C0 controls and spaces removed, as the URL
      Standard's basic URL parser first does. */
  function TrimLeading(s: string): (t: string)
    ensures |t| <= |s| && t == s[|s| - |t|..]
    ensures |t| > 0 ==> t[0] > ' '
  {
    if |s| > 0 && s[0] <= ' ' then TrimLeading(s[1..]) else s
  }

  /** A text parsed without a base URL must start with a scheme, and a
      scheme starts with an ASCII letter. */
  predicate SchemeStart(s: string) {
    var t := TrimLeading(s);
    |t| > 0 && (('a' <= t[0] <= 'z') || ('A' <= t[0] <= 'Z'))
  }

  /** Whether `new URL(text)` succeeds: the scheme's first letter, and the
      rest of the parser, which is the parameter `parsesUrl`. */
  predicate UrlParses(env: Env, text: string) {
    SchemeStart(text) && env.parsesUrl(text)
  }

  /** The message of the TypeError `new URL` throws for a text it rejects. */
  const InvalidUrl := "Invalid URL"

  /** With the base URL unset, the text starts with "/shops/": no scheme, so
      `new URL` throws whatever the parser parameter says. */
  lemma EmptyBaseRejected(env: Env, endpoint: string)
    requires env.cfg.baseUrl == ""
    ensures !UrlParses(env, RequestPath(env.cfg, endpoint))
  {
    var text := RequestPath(env.cfg, endpoint);
    assert text[0] == '/';
  }

  /** The query pairs appended for `params`, in its enumeration order. */
  function QueryPairs(params: Option<Entries<Value>>): Entries<string> {
    if params.Some? then QueryOf(OwnEntries(params.value)) else []
  }

  /** Skips undefined and null values; the rest are appended as strings. */
  function QueryOf(es: Entries<Value>): Entries<string> {
    if |es| == 0 then []
    else if Nullish(es[0].1) then QueryOf(es[1..])
    else [(es[0].0, ToJsString(es[0].1))] + QueryOf(es[1..])
  }

  /** What the query says about one key. */
  function QueryValue(v: Option<Value>): Option<string> {
    if v.None? || Nullish(v.value) then None else Some(ToJsString(v.value))
  }

  /** `a` keeps some of the elements of `b`, in their order. */
  predicate Subsequence<T(==)>(a: seq<T>, b: seq<T>) {
    if |a| == 0 then true
    else if |b| == 0 then false
    else (a[0] == b[0] && Subsequence(a[1..], b[1..])) || Subsequence(a, b[1..])
  }

  lemma {:induction false} QueryOfLookup(es: Entries<Value>, k: string)
    requires DistinctKeys(es)
    ensures Lookup(QueryOf(es), k) == QueryValue(Lookup(es, k))
    ensures Subsequence(Keys(QueryOf(es)), Keys(es))
  {
    if |es| > 0 {
      var rest := es[1..];
      assert Keys(rest) == Keys(es)[1..];
      assert DistinctKeys(rest);
      QueryOfLookup(rest, k);
      if es[0].0 == k {
        assert k !in Keys(rest);
        assert Lookup(QueryOf(rest), k).None?;
      }
      if !Nullish(es[0].1) {
        var q := [(es[0].0, ToJsString(es[0].1))] + QueryOf(rest);
        assert q[1..] == QueryOf(rest);
        assert Keys(q)[1..] == Keys(QueryOf(rest));
      } else {
        SubsequenceSkip(Keys(QueryOf(rest)), Keys(es));
      }
    }
  }

  lemma SubsequenceSkip<T>(a: seq<T>, b: seq<T>)
    requires |b| > 0 && Subsequence(a, b[1..])
    ensures Subsequence(a, b)
  {
  }

  /** The query carries exactly the params whose value is neither undefined nor
      null, each as its string conversion, in the params' enumeration order. */
  lemma QueryParams(params: Entries<Value>, k: string)
    requires DistinctKeys(params)
    ensures Lookup(QueryPairs(Some(params)), k) == QueryValue(Lookup(params, k))
    ensures Subsequence(Keys(QueryPairs(Some(params))), OwnKeys(Keys(params)))
  {
    OwnEntriesSame(params);
    QueryOfLookup(OwnEntries(params), k);
  }

  // ---------------------------------------------------------------------------
  // Signature

  /** `Math.floor(Date.now() / 1000).toString()` */
  function Timestamp(nowMs: int): (t: string)
    ensures nowMs >= 0 ==> Decimal.IsCanonical(t)
    ensures nowMs < 0 ==> |t| >= 2 && t[0] == '-'
  {
    Decimal.IntToString(nowMs / 1000)
  }

  /** The timestamp is the whole number of seconds in `nowMs`, rounded down. */
  lemma TimestampSeconds(nowMs: int)
    requires nowMs >= 0
    ensures Decimal.IsCanonical(Timestamp(nowMs))
    ensures Decimal.Parse(Timestamp(nowMs)) * 1000 <= nowMs < (Decimal.Parse(Timestamp(nowMs)) + 1) * 1000
  {
    Decimal.ParseNatToString(nowMs / 1000);
  }

  /** `{ ...params, ...data }` */
  function MergedParams(params: Option<Entries<Value>>, data: Option<Entries<Value>>): (r: Entries<Value>)
    ensures WellFormed(params) && WellFormed(data) && data.Some? ==>
      forall k :: k in Keys(data.value) ==> Lookup(r, k) == Lookup(data.value, k)
  {
    var a, b := params.GetOr([]), data.GetOr([]);
    if WellFormed(params) && WellFormed(data) then SpreadLookup(a, b); Spread(a, b) else Spread(a, b)
  }

  /** A data field overrides a query parameter of the same name. */
  lemma MergedLookup(params: Option<Entries<Value>>, data: Option<Entries<Value>>, k: string)
    requires WellFormed(params) && WellFormed(data)
    ensures DistinctKeys(MergedParams(params, data))
    ensures Lookup(MergedParams(params, data), k) ==
      if data.Some? && k in Keys(data.value) then Lookup(data.value, k)
      else if params.Some? then Lookup(params.value, k)
      else None
  {
    SpreadLookup(params.GetOr([]), data.GetOr([]));
  }

  /** The keys in the order `.sort()` leaves them. */
  function SortedKeys(merged: Entries<Value>): seq<string> {
    Sort(Keys(merged), LexLess)
  }

  /** The object rebuilt by assigning its keys in sorted order. */
  function SortedParams(merged: Entries<Value>): Entries<Value> {
    var ks := SortedKeys(merged);
    MultisetMembers(ks, Keys(merged));
    EntriesAt(merged, ks)
  }

  /** The signed body: empty for no parameters, otherwise the JSON text of
      the parameters rebuilt in sorted key order. */
  function SignatureBody(merged: Entries<Value>): (b: string)
    ensures b == "" <==> |merged| == 0
    ensures |merged| > 0 ==> b[0] == '{' && b[|b| - 1] == '}'
  {
    if |Keys(merged)| == 0 then ""
    else
      Json.EncodeObj(SortedParams(merged));
      Json.Encode(Obj(SortedParams(merged)))
  }

  /** The text that is digested: product key, secret key, timestamp and
      body, in that order and without separators. */
  function SignString(cfg: Config, timestamp: string, body: string): (s: string)
    ensures |s| == |cfg.productKey| + |cfg.secretKey| + |timestamp| + |body|
    ensures cfg.productKey <= s && s[|s| - |body|..] == body
    ensures s[|cfg.productKey|..|cfg.productKey| + |cfg.secretKey|] == cfg.secretKey
  {
    cfg.productKey + cfg.secretKey + timestamp + body
  }

  /** Rebuilding in sorted order keeps every parameter and its value. */
  lemma SortedParamsSame(merged: Entries<Value>)
    requires DistinctKeys(merged)
    ensures Keys(SortedParams(merged)) == SortedKeys(merged)
    ensures DistinctKeys(SortedParams(merged))
    ensures SameProperties(SortedParams(merged), merged)
  {
    var ks := SortedKeys(merged);
    var r := SortedParams(merged);
    LexOrder();
    SortSorted(Keys(merged), LexLess);
    SortedDistinct(ks, LexLess);
    forall k ensures Lookup(r, k) == Lookup(merged, k) {
      MultisetMembers(ks, Keys(merged));
      if k in Keys(r) {
        var i :| 0 <= i < |r| && Keys(r)[i] == k;
        LookupDistinct(r, i);
      }
    }
  }

  /** The signed body depends on the parameters and their values only, not
      on the order in which they were written. */
  lemma SignatureBodyOrderFree(a: Entries<Value>, b: Entries<Value>)
    requires DistinctKeys(a) && DistinctKeys(b)
    requires SameProperties(a, b)
    ensures SignatureBody(a) == SignatureBody(b)
  {
    SortedParamsEqual(a, b);
    assert |Keys(a)| == |SortedKeys(a)| == |SortedKeys(b)| == |Keys(b)|;
  }

  lemma SortedKeysEqual(a: Entries<Value>, b: Entries<Value>)
    requires DistinctKeys(a) && DistinctKeys(b)
    requires SameProperties(a, b)
    ensures SortedKeys(a) == SortedKeys(b)
  {
    forall k ensures k in Keys(a) <==> k in Keys(b) {
      assert Lookup(a, k) == Lookup(b, k);
    }
    LexOrder();
    SortDependsOnElementsOnly(Keys(a), Keys(b), LexLess);
  }

  lemma SortedParamsEqual(a: Entries<Value>, b: Entries<Value>)
    requires DistinctKeys(a) && DistinctKeys(b)
    requires SameProperties(a, b)
    ensures SortedParams(a) == SortedParams(b)
  {
    SortedKeysEqual(a, b);
    SortedParamsSame(a);
    SortedParamsSame(b);
    var ks := SortedKeys(a);
    var ra := SortedParams(a);
    var rb := SortedParams(b);
    assert |ra| == |rb|;
    forall i | 0 <= i < |ks| ensures ra[i] == rb[i] {
      LookupDistinct(ra, i);
      LookupDistinct(rb, i);
      assert Keys(ra)[i] == ra[i].0 && Keys(rb)[i] == rb[i].0;
      assert Lookup(a, ra[i].0) == Lookup(b, ra[i].0);
    }
  }

  /** The members of the signed body appear with the array-index keys first,
      in numeric order, then every other key in code-unit order: `.sort()`
      compares "10" before "9", but the rebuilt object enumerates 9 first. */
  lemma SignatureKeyOrder(merged: Entries<Value>)
    requires DistinctKeys(merged)
    ensures OwnKeys(Keys(SortedParams(merged))) == Sort(Keys(merged), CanonicalLess)
  {
    var ks := Keys(merged);
    var lex := SortedKeys(merged);
    SortedParamsSame(merged);
    LexOrder();
    CanonicalOrder();
    SortSorted(ks, LexLess);
    SortedDistinct(lex, LexLess);
    MultisetMembers(lex, ks);
    OwnKeysOfLexSorted(lex);
    var canon := Sort(ks, CanonicalLess);
    SortSorted(ks, CanonicalLess);
    MultisetMembers(canon, ks);
    SortedUnique(OwnKeys(lex), canon, CanonicalLess);
  }

  /** Enumerating a code-unit-sorted key list yields a canonically sorted one. */
  lemma OwnKeysOfLexSorted(lex: seq<string>)
    requires StrictlySorted(lex, LexLess) && Distinct(lex)
    ensures StrictlySorted(OwnKeys(lex), CanonicalLess)
  {
    CanonicalOrder();
    var idx := Sort(IndexKeys(lex), CanonicalLess);
    var named := NamedKeys(lex);
    SortSorted(IndexKeys(lex), CanonicalLess);
    MultisetMembers(idx, IndexKeys(lex));
    NamedKeysSorted(lex, LexLess);
    NamedCanonical(named);
    assert OwnKeys(lex) == idx + named;
    forall x, y | x in idx && y in named ensures CanonicalLess(x, y) {
      assert x in IndexKeys(lex);
    }
    SortedConcat(idx, named, CanonicalLess);
  }

  /** Among keys that are not array indices the two orders agree. */
  lemma NamedCanonical(named: seq<string>)
    requires StrictlySorted(named, LexLess)
    requires forall k :: k in named ==> !IsArrayIndex(k)
    ensures StrictlySorted(named, CanonicalLess)
  {
    forall i, j | 0 <= i < j < |named| ensures CanonicalLess(named[i], named[j]) {
      assert LexLess(named[i], named[j]);
      assert !IsArrayIndex(named[i]) && !IsArrayIndex(named[j]);
    }
  }

  lemma SortedConcat<T>(a: seq<T>, b: seq<T>, less: (T, T) -> bool)
    requires StrictlySorted(a, less) && StrictlySorted(b, less)
    requires forall x, y :: x in a && y in b ==> less(x, y)
    ensures StrictlySorted(a + b, less)
  {
    var s := a + b;
    forall i, j | 0 <= i < j < |s| ensures less(s[i], s[j]) {
      if j < |a| {
        assert s[i] == a[i] && s[j] == a[j];
      } else if i >= |a| {
        assert s[i] == b[i - |a|] && s[j] == b[j - |a|];
      } else {
        assert s[i] == a[i] && s[j] == b[j - |a|];
        assert s[i] in a && s[j] in b;
      }
    }
  }

  /** `.sort()` puts "10" before "9", yet the body writes "9" first. */
  lemma SignatureKeyOrderExample()
    ensures Sort(["9", "10"], LexLess) == ["10", "9"]
    ensures Sort(["9", "10"], CanonicalLess) == ["9", "10"]
  {
    NineAndTen();
    SortPair("9", "10", LexLess);
    SortPair("9", "10", CanonicalLess);
  }

  lemma NineAndTen()
    ensures LexLess("10", "9")
    ensures CanonicalLess("9", "10") && !CanonicalLess("10", "9")
  {
    var nine, ten := "9", "10";
    assert ten[0] < nine[0];
    assert Decimal.Parse(nine) == 9 by {
      assert nine[..0] == "";
    }
    assert Decimal.Parse(ten) == 10 by {
      assert ten[..1] == "1" && "1"[..0] == "";
    }
  }

  lemma SortPair<T>(x: T, y: T, less: (T, T) -> bool)
    ensures Sort([x, y], less) == if less(y, x) then [y, x] else [x, y]
  {
    assert [x, y][1..] == [y];
    assert Sort([y], less) == [y] by {
      assert [y][1..] == [];
    }
  }

  // ---------------------------------------------------------------------------
  // Headers

  function DefaultHeaders(cfg: Config, timestamp: string, signature: string): Entries<string> {
    [ ("Accept", "application/json"),
      ("Content-Type", "application/json"),
      ("X-Product-Key", cfg.productKey),
      ("X-Timestamp", timestamp),
      ("X-Signature", signature) ]
  }

  /** `if (token)`: a token counts when it is given and non-empty. */
  predicate HasToken(token: Option<string>) {
    token.Some? && token.value != ""
  }

  /** The defaults, then the caller's headers over them, then the bearer token. */
  function RequestHeaders(defaults: Entries<string>, caller: Option<Entries<string>>, token: Option<string>): (h: Entries<string>)
    ensures HasToken(token) ==> Lookup(h, "Authorization") == Some("Bearer " + token.value)
  {
    var merged := PutAll(defaults, OwnEntries(caller.GetOr([])));
    if HasToken(token) then
      PutLookup(merged, "Authorization", "Bearer " + token.value, "Authorization");
      Put(merged, "Authorization", "Bearer " + token.value)
    else merged
  }

  /** A header comes from the token when there is one, else from the caller,
      else from the defaults. */
  lemma HeaderLookup(defaults: Entries<string>, caller: Option<Entries<string>>, token: Option<string>, k: string)
    requires caller.Some? ==> DistinctKeys(caller.value)
    ensures Lookup(RequestHeaders(defaults, caller, token), k) ==
      if k == "Authorization" && HasToken(token) then Some("Bearer " + token.value)
      else if caller.Some? && k in Keys(caller.value) then Lookup(caller.value, k)
      else Lookup(defaults, k)
  {
    var c := caller.GetOr([]);
    OwnEntriesSame(c);
    var merged := PutAll(defaults, OwnEntries(c));
    PutAllLookup(defaults, OwnEntries(c), k);
    if HasToken(token) {
      PutLookup(merged, "Authorization", "Bearer " + token.value, k);
    }
  }

  const DefaultHeaderNames: seq<string> := ["Accept", "Content-Type", "X-Product-Key", "X-Timestamp", "X-Signature"]

  lemma DefaultHeaderNamesDistinct()
    ensures Distinct(DefaultHeaderNames)
  {
    var names := DefaultHeaderNames;
    assert |names[0]| == 6 && |names[1]| == 12 && |names[2]| == 13;
    assert |names[3]| == 11 && |names[4]| == 11 && names[3][2] != names[4][2];
  }

  /** The five default headers, each once, each with its value. */
  lemma DefaultHeadersShape(cfg: Config, timestamp: string, signature: string)
    ensures DistinctKeys(DefaultHeaders(cfg, timestamp, signature))
    ensures Lookup(DefaultHeaders(cfg, timestamp, signature), "X-Product-Key") == Some(cfg.productKey)
    ensures Lookup(DefaultHeaders(cfg, timestamp, signature), "X-Timestamp") == Some(timestamp)
    ensures Lookup(DefaultHeaders(cfg, timestamp, signature), "X-Signature") == Some(signature)
  {
    var d := DefaultHeaders(cfg, timestamp, signature);
    assert Keys(d) == DefaultHeaderNames by {
      assert d[1..][1..][1..][1..][1..] == [];
    }
    DefaultHeaderNamesDistinct();
    LookupDistinct(d, 2);
    LookupDistinct(d, 3);
    LookupDistinct(d, 4);
  }

  /** The defaults carry no Authorization header. */
  lemma NoAuthorizationDefault(cfg: Config, timestamp: string, signature: string)
    ensures Lookup(DefaultHeaders(cfg, timestamp, signature), "Authorization") == None
  {
    var d := DefaultHeaders(cfg, timestamp, signature);
    assert Keys(d) == DefaultHeaderNames by {
      assert d[1..][1..][1..][1..][1..] == [];
    }
    forall i | 0 <= i < 5 ensures DefaultHeaderNames[i] != "Authorization" {
      assert |DefaultHeaderNames[i]| != 13 || DefaultHeaderNames[i][0] != 'A';
    }
  }

  /** No header name is written twice. */
  lemma HeadersDistinct(cfg: Config, timestamp: string, signature: string, caller: Option<Entries<string>>, token: Option<string>)
    ensures DistinctKeys(RequestHeaders(DefaultHeaders(cfg, timestamp, signature), caller, token))
  {
    var d := DefaultHeaders(cfg, timestamp, signature);
    DefaultHeadersShape(cfg, timestamp, signature);
    var merged := PutAll(d, OwnEntries(caller.GetOr([])));
    PutAllDistinct(d, OwnEntries(caller.GetOr([])));
    if HasToken(token) {
      PutDistinct(merged, "Authorization", "Bearer " + token.value);
    }
  }

  // ---------------------------------------------------------------------------
  // The request

  /** `init.body` becomes the JSON text of `data` unless a non-empty body was given. */
  function RequestBody(opts: FetchOptions): (b: Option<string>)
    ensures opts.data.Some? && (opts.body.None? || opts.body.value == "") ==>
      b == Json.Stringify(Obj(opts.data.value))
    ensures opts.data.None? || (opts.body.Some? && opts.body.value != "") ==> b == opts.body
  {
    if opts.data.Some? && (opts.body.None? || opts.body.value == "") then
      Some(Json.Encode(Obj(opts.data.value)))
    else opts.body
  }

  function Signature(cfg: Config, opts: FetchOptions, nowMs: int, digest: string -> string): string {
    digest(SignString(cfg, Timestamp(nowMs), SignatureBody(MergedParams(opts.params, opts.data))))
  }

  /** Everything `apiFetch` hands to `fetch`; a missing method means GET. */
  function BuildRequest(cfg: Config, endpoint: string, opts: FetchOptions, nowMs: int, digest: string -> string): (r: HttpRequest)
    ensures opts.httpMethod.None? ==> r.httpMethod == "GET"
    ensures opts.httpMethod.Some? ==> r.httpMethod == opts.httpMethod.value
    ensures DistinctKeys(r.headers)
  {
    var ts := Timestamp(nowMs);
    var sig := Signature(cfg, opts, nowMs, digest);
    HeadersDistinct(cfg, ts, sig, opts.headers, opts.token);
    HttpRequest(
      Url(RequestPath(cfg, endpoint), QueryPairs(opts.params)),
      opts.httpMethod.GetOr("GET"),
      RequestHeaders(DefaultHeaders(cfg, ts, sig), opts.headers, opts.token),
      RequestBody(opts))
  }

  /** Without caller headers, the request is authorized exactly when a
      non-empty token is given, and then with that bearer token. */
  lemma TokenHeader(cfg: Config, endpoint: string, opts: FetchOptions, nowMs: int, digest: string -> string)
    requires opts.headers.None?
    ensures Lookup(BuildRequest(cfg, endpoint, opts, nowMs, digest).headers, "Authorization")
      == if HasToken(opts.token) then Some("Bearer " + opts.token.value) else None
  {
    var sig := Signature(cfg, opts, nowMs, digest);
    HeaderLookup(DefaultHeaders(cfg, Timestamp(nowMs), sig), opts.headers, opts.token, "Authorization");
    NoAuthorizationDefault(cfg, Timestamp(nowMs), sig);
  }

  /** Unless the caller overrides them, the request carries the product key,
      the timestamp, and the digest of key, secret, timestamp and signed body. */
  lemma SignedHeaders(cfg: Config, endpoint: string, opts: FetchOptions, nowMs: int, digest: string -> string)
    requires opts.headers.Some? ==> DistinctKeys(opts.headers.value)
    requires opts.headers.Some? ==> forall k :: k in Keys(opts.headers.value) ==> k !in ["X-Product-Key", "X-Timestamp", "X-Signature"]
    ensures var h := BuildRequest(cfg, endpoint, opts, nowMs, digest).headers;
      && Lookup(h, "X-Product-Key") == Some(cfg.productKey)
      && Lookup(h, "X-Timestamp") == Some(Timestamp(nowMs))
      && Lookup(h, "X-Signature") == Some(digest(cfg.productKey + cfg.secretKey + Timestamp(nowMs)
           + SignatureBody(MergedParams(opts.params, opts.data))))
  {
    var sig := Signature(cfg, opts, nowMs, digest);
    var d := DefaultHeaders(cfg, Timestamp(nowMs), sig);
    var h := RequestHeaders(d, opts.headers, opts.token);
    assert BuildRequest(cfg, endpoint, opts, nowMs, digest).headers == h;
    HeaderLookup(d, opts.headers, opts.token, "X-Product-Key");
    HeaderLookup(d, opts.headers, opts.token, "X-Timestamp");
    HeaderLookup(d, opts.headers, opts.token, "X-Signature");
    DefaultHeadersShape(cfg, Timestamp(nowMs), sig);
  }

  /** `{ ...params, ...data }` for two option sets whose params and data hold
      the same properties. */
  lemma MergedSame(o1: FetchOptions, o2: FetchOptions)
    requires WellFormed(o1.params) && WellFormed(o1.data)
    requires WellFormed(o2.params) && WellFormed(o2.data)
    requires o1.params.Some? <==> o2.params.Some?
    requires o1.data.Some? <==> o2.data.Some?
    requires o1.params.Some? ==> SameProperties(o1.params.value, o2.params.value)
    requires o1.data.Some? ==> SameProperties(o1.data.value, o2.data.value)
    ensures DistinctKeys(MergedParams(o1.params, o1.data))
    ensures DistinctKeys(MergedParams(o2.params, o2.data))
    ensures SameProperties(MergedParams(o1.params, o1.data), MergedParams(o2.params, o2.data))
  {
    forall k ensures Lookup(MergedParams(o1.params, o1.data), k) == Lookup(MergedParams(o2.params, o2.data), k) {
      MergedLookup(o1.params, o1.data, k);
      MergedLookup(o2.params, o2.data, k);
      if o1.data.Some? {
        assert Lookup(o1.data.value, k) == Lookup(o2.data.value, k);
      }
      if o1.params.Some? {
        assert Lookup(o1.params.value, k) == Lookup(o2.params.value, k);
      }
    }
    MergedLookup(o1.params, o1.data, "");
    MergedLookup(o2.params, o2.data, "");
  }

  /** Reordering the properties of `params` or `data` leaves the signature unchanged. */
  lemma SignatureOrderFree(cfg: Config, o1: FetchOptions, o2: FetchOptions, nowMs: int, digest: string -> string)
    requires WellFormed(o1.params) && WellFormed(o1.data)
    requires WellFormed(o2.params) && WellFormed(o2.data)
    requires o1.params.Some? <==> o2.params.Some?
    requires o1.data.Some? <==> o2.data.Some?
    requires o1.params.Some? ==> SameProperties(o1.params.value, o2.params.value)
    requires o1.data.Some? ==> SameProperties(o1.data.value, o2.data.value)
    ensures Signature(cfg, o1, nowMs, digest) == Signature(cfg, o2, nowMs, digest)
  {
    MergedSame(o1, o2);
    SignatureBodyOrderFree(MergedParams(o1.params, o1.data), MergedParams(o2.params, o2.data));
  }

  // ---------------------------------------------------------------------------
  // The reply

  datatype ReplyBody = JsonBody(value: Value) | NotJson(parseError: string)

  /** What `fetch` resolves to, or the error it rejects with. */
  datatype Reply = NetworkError(message: string) | Reply(ok: bool, statusText: string, body: ReplyBody)

  /** `errorData.message || errorMessage`: the body's truthy `message` when
      there is one, otherwise "API Error: " and the status text. Reading
      `message` off a null body throws, and the throw is swallowed. */
  function ErrorMessage(statusText: string, body: ReplyBody): (m: string)
    ensures if body.JsonBody? && !Nullish(body.value) && Truthy(GetOptional(body.value, "message"))
      then m == ToJsString(GetOptional(body.value, "message"))
      else m == "API Error: " + statusText
  {
    var fallback := "API Error: " + statusText;
    match body
    case NotJson(_) => fallback
    case JsonBody(v) =>
      match Get(v, "message")
      case Throw(_) => fallback
      case Normal(m) => if Truthy(m) then ToJsString(m) else fallback
  }

  /** Only an OK reply with a JSON body yields a value, and it is that body;
      a failed reply always throws an Error carrying its message. */
  function ReadReply(reply: Reply): (c: Completion<Value>)
    ensures c.Normal? <==> reply.Reply? && reply.ok && reply.body.JsonBody?
    ensures c.Normal? ==> c.value == reply.body.value
    ensures reply.Reply? && !reply.ok ==> c == Throw(ErrorObject(ErrorMessage(reply.statusText, reply.body)))
    ensures reply.NetworkError? ==> c == Throw(ErrorObject(reply.message))
    ensures reply.Reply? && reply.ok && reply.body.NotJson? ==> c == Throw(ErrorObject(reply.body.parseError))
  {
    match reply
    case NetworkError(m) => Throw(ErrorObject(m))
    case Reply(ok, statusText, body) =>
      if !ok then Throw(ErrorObject(ErrorMessage(statusText, body)))
      else match body
        case JsonBody(v) => Normal(v)
        case NotJson(e) => Throw(ErrorObject(e))
  }

  /** What `apiFetch` depends on beyond its arguments: the configuration,
      the clock, the MD5 digest, the URL parser and the server. */
  datatype Env = Env(
    cfg: Config,
    nowMs: int,
    digest: string -> string,
    parsesUrl: string -> bool,
    server: HttpRequest -> Reply)

  /** `apiFetch(endpoint, opts)`: `new URL` throws before anything is signed
      or sent when the text is not an absolute URL; otherwise the request
      goes to the server and the reply is read. A value comes back only from
      an OK reply with a JSON body, and it is that body. */
  function ApiFetch(env: Env, endpoint: string, opts: FetchOptions): (c: Completion<Value>)
    ensures !UrlParses(env, RequestPath(env.cfg, endpoint)) ==> c == Throw(ErrorObject(InvalidUrl))
    ensures c.Normal? ==>
      && UrlParses(env, RequestPath(env.cfg, endpoint))
      && var reply := env.server(BuildRequest(env.cfg, endpoint, opts, env.nowMs, env.digest));
         reply.Reply? && reply.ok && reply.body == JsonBody(c.value)
    ensures UrlParses(env, RequestPath(env.cfg, endpoint)) ==>
      var reply := env.server(BuildRequest(env.cfg, endpoint, opts, env.nowMs, env.digest));
      reply.Reply? && reply.ok && reply.body.JsonBody? ==> c == Normal(reply.body.value)
    ensures UrlParses(env, RequestPath(env.cfg, endpoint)) ==>
      var reply := env.server(BuildRequest(env.cfg, endpoint, opts, env.nowMs, env.digest));
      reply.Reply? && !reply.ok ==> c == Throw(ErrorObject(ErrorMessage(reply.statusText, reply.body)))
    ensures UrlParses(env, RequestPath(env.cfg, endpoint)) ==>
      var reply := env.server(BuildRequest(env.cfg, endpoint, opts, env.nowMs, env.digest));
      reply.NetworkError? ==> c == Throw(ErrorObject(reply.message))
    ensures UrlParses(env, RequestPath(env.cfg, endpoint)) ==>
      var reply := env.server(BuildRequest(env.cfg, endpoint, opts, env.nowMs, env.digest));
      reply.Reply? && reply.ok && reply.body.NotJson? ==> c == Throw(ErrorObject(reply.body.parseError))
  {
    if !UrlParses(env, RequestPath(env.cfg, endpoint)) then Throw(ErrorObject(InvalidUrl))
    else ReadReply(env.server(BuildRequest(env.cfg, endpoint, opts, env.nowMs, env.digest)))
  }
}

=== FILE: auth_actions.dfy ===
/** The customer account server actions (app/actions/auth.ts). */
module AuthActions {
  import opened Wrappers
  import opened Js
  import Api
  import Json
  import opened ActionResults

  const LoginFailed := "Login failed"
  const RegistrationFailed := "Registration failed"
  const CustomerInfoFailed := "Failed to fetch customer info"
  const LogoutFailed := "Logout failed"

  /** Login and registration: both `success` and `data` must be truthy;
      otherwise the error text is the first truthy of `message`,
      `error.message` and `fallback`. */
  function ReadAccount(response: Value, fallback: string): (c: Completion<ActionResult>)
    ensures c.Throw? <==> Nullish(response)
    ensures c.Normal? && Truthy(Field(response, "success")) && Truthy(Field(response, "data")) ==>
      c.value == Succeeded(Some(Field(response, "data")))
    ensures c.Normal? && !(Truthy(Field(response, "success")) && Truthy(Field(response, "data"))) ==>
      c.value == Failed(FailureText(response, fallback))
  {
    var both :- SuccessAndData(response);
    if Truthy(both) then Normal(Succeeded(Some(both)))
    else Normal(Failed(FailureText(response, fallback)))
  }

  function ReadLogin(response: Value): Completion<ActionResult> {
    ReadAccount(response, LoginFailed)
  }

  function ReadRegistration(response: Value): Completion<ActionResult> {
    ReadAccount(response, RegistrationFailed)
  }

  /** `fetchCustomerInfo`: success and data, else one fixed text. */
  function ReadCustomerInfo(response: Value): (c: Completion<ActionResult>)
    ensures c.Throw? <==> Nullish(response)
    ensures c.Normal? && Truthy(Field(response, "success")) && Truthy(Field(response, "data")) ==>
      c.value == Succeeded(Some(Field(response, "data")))
    ensures c.Normal? && !(Truthy(Field(response, "success")) && Truthy(Field(response, "data"))) ==>
      c.value == Failed(CustomerInfoFailed)
  {
    var both :- SuccessAndData(response);
    if Truthy(both) then Normal(Succeeded(Some(both))) else Normal(Failed(CustomerInfoFailed))
  }

  /** `logoutCustomer`: `success` alone, and no data on success. */
  function ReadLogout(response: Value): (c: Completion<ActionResult>)
    ensures c.Throw? <==> Nullish(response)
    ensures c.Normal? ==> c.value == if Truthy(Field(response, "success")) then Succeeded(None) else Failed(LogoutFailed)
  {
    var success :- Get(response, "success");
    if Truthy(success) then Normal(Succeeded(None)) else Normal(Failed(LogoutFailed))
  }

  /** The caller's payload is posted as it is. */
  function LoginCall(payload: Entries<Value>): Call {
    Call("/customers/login", Api.NoOptions.(httpMethod := Some("POST"), data := Some(payload)))
  }

  function RegisterCall(payload: Entries<Value>): Call {
    Call("/customers/register", Api.NoOptions.(httpMethod := Some("POST"), data := Some(payload)))
  }

  function CustomerInfoCall(token: string): Call {
    Call("/customers/me", Api.NoOptions.(httpMethod := Some("GET"), token := Some(token)))
  }

  function LogoutCall(token: string): Call {
    Call("/customers/logout", Api.NoOptions.(httpMethod := Some("POST"), token := Some(token)))
  }

  function LoginCustomer(env: Api.Env, payload: Entries<Value>): (r: ActionResult)
    ensures Promised(env, LoginCall(payload), ReadLogin, r)
    ensures Delivered(env, LoginCall(payload)) ==> (r.Succeeded? <==> Accepted(Answer(env, LoginCall(payload))))
    ensures r.Succeeded? ==> Delivered(env, LoginCall(payload)) && r.data == Some(Field(Answer(env, LoginCall(payload)), "data"))
    ensures Delivered(env, LoginCall(payload)) && !Nullish(Answer(env, LoginCall(payload))) && !Accepted(Answer(env, LoginCall(payload))) ==>
      r == Failed(FailureText(Answer(env, LoginCall(payload)), LoginFailed))
  {
    Perform(env, LoginCall(payload), ReadLogin)
  }

  function RegisterCustomer(env: Api.Env, payload: Entries<Value>): (r: ActionResult)
    ensures Promised(env, RegisterCall(payload), ReadRegistration, r)
    ensures Delivered(env, RegisterCall(payload)) ==> (r.Succeeded? <==> Accepted(Answer(env, RegisterCall(payload))))
    ensures r.Succeeded? ==> Delivered(env, RegisterCall(payload)) && r.data == Some(Field(Answer(env, RegisterCall(payload)), "data"))
    ensures Delivered(env, RegisterCall(payload)) && !Nullish(Answer(env, RegisterCall(payload))) && !Accepted(Answer(env, RegisterCall(payload))) ==>
      r == Failed(FailureText(Answer(env, RegisterCall(payload)), RegistrationFailed))
  {
    Perform(env, RegisterCall(payload), ReadRegistration)
  }

  function FetchCustomerInfo(env: Api.Env, token: string): (r: ActionResult)
    ensures Promised(env, CustomerInfoCall(token), ReadCustomerInfo, r)
    ensures Delivered(env, CustomerInfoCall(token)) ==> (r.Succeeded? <==> Accepted(Answer(env, CustomerInfoCall(token))))
    ensures r.Succeeded? ==> Delivered(env, CustomerInfoCall(token)) && r.data == Some(Field(Answer(env, CustomerInfoCall(token)), "data"))
    ensures Delivered(env, CustomerInfoCall(token)) && !Nullish(Answer(env, CustomerInfoCall(token))) && !Accepted(Answer(env, CustomerInfoCall(token))) ==>
      r == Failed(CustomerInfoFailed)
  {
    Perform(env, CustomerInfoCall(token), ReadCustomerInfo)
  }

  function LogoutCustomer(env: Api.Env, token: string): (r: ActionResult)
    ensures Promised(env, LogoutCall(token), ReadLogout, r)
    ensures Delivered(env, LogoutCall(token)) ==> (r.Succeeded? <==> SuccessFlag(Answer(env, LogoutCall(token))))
    ensures r.Succeeded? ==> Delivered(env, LogoutCall(token)) && r.data == None
    ensures Delivered(env, LogoutCall(token)) && !Nullish(Answer(env, LogoutCall(token))) && !SuccessFlag(Answer(env, LogoutCall(token))) ==>
      r == Failed(LogoutFailed)
  {
    Perform(env, LogoutCall(token), ReadLogout)
  }

  /** Login and registration send the caller's payload as the JSON body,
      and sign it. */
  lemma AccountPayloadSent(env: Api.Env, payload: Entries<Value>)
    ensures Api.BuildRequest(env.cfg, LoginCall(payload).endpoint, LoginCall(payload).opts, env.nowMs, env.digest).body
      == Json.Stringify(Obj(payload))
    ensures Api.BuildRequest(env.cfg, RegisterCall(payload).endpoint, RegisterCall(payload).opts, env.nowMs, env.digest).body
      == Json.Stringify(Obj(payload))
  {
  }

  /** The customer-info and logout requests carry the bearer token whenever
      it is non-empty, and no Authorization header otherwise. */
  lemma TokenSent(env: Api.Env, token: string)
    ensures var h := Api.BuildRequest(env.cfg, CustomerInfoCall(token).endpoint, CustomerInfoCall(token).opts, env.nowMs, env.digest).headers;
      Lookup(h, "Authorization") == if token != "" then Some("Bearer " + token) else None
    ensures var h := Api.BuildRequest(env.cfg, LogoutCall(token).endpoint, LogoutCall(token).opts, env.nowMs, env.digest).headers;
      Lookup(h, "Authorization") == if token != "" then Some("Bearer " + token) else None
  {
    Api.TokenHeader(env.cfg, CustomerInfoCall(token).endpoint, CustomerInfoCall(token).opts, env.nowMs, env.digest);
    Api.TokenHeader(env.cfg, LogoutCall(token).endpoint, LogoutCall(token).opts, env.nowMs, env.digest);
  }

  /** A success without data is a failed login, yet a successful logout. */
  lemma SuccessWithoutData()
    ensures ReadLogin(Obj([("success", Bool(true))])) == Normal(Failed(LoginFailed))
    ensures ReadLogout(Obj([("success", Bool(true))])) == Normal(Succeeded(None))
  {
    var bare: Entries<Value> := [("success", Bool(true))];
    assert Lookup(bare, "data") == None && Lookup(bare, "message") == None && Lookup(bare, "error") == None by {
      assert bare[1..] == [];
    }
  }
}

=== FILE: collapsible.dfy ===
/** The expand/collapse rule two venue lists share
    (components/venue/review-list.tsx, components/venue/team-list.tsx):
    collapsed, a list shows its first few items; expanded, all of them. A
    See all / See less switch flips between the two. */
module Collapsible {
  import opened Js

  /** `isExpanded ? items : items.slice(0, limit)` */
  function Displayed<T>(items: seq<T>, expanded: bool, limit: nat): (r: seq<T>)
    ensures r <= items
    ensures |r| == if expanded || |items| <= limit then |items| else limit
  {
    if expanded then items else Prefix(items, limit)
  }

  /** Collapsing hides something exactly when the list is longer than the limit. */
  lemma CollapsedHides<T>(items: seq<T>, limit: nat)
    ensures Displayed(items, false, limit) == Displayed(items, true, limit) <==> |items| <= limit
  {
  }

  /** The See all / See less switch flips the flag. */
  function Switch(expanded: bool): (r: bool)
    ensures r != expanded
  {
    !expanded
  }

  /** The switch reads "See less" exactly when the list is expanded. */
  function SwitchLabel(expanded: bool): (text: string)
    ensures text == "See less" <==> expanded
    ensures text == "See all" <==> !expanded
  {
    if expanded then "See less" else "See all"
  }

  /** A longer limit shows the shorter one's items and possibly more. */
  lemma {:induction false} LimitMonotone<T>(items: seq<T>, a: nat, b: nat)
    requires a <= b
    ensures Displayed(items, false, a) <= Displayed(items, false, b)
  {
    var short, long := Displayed(items, false, a), Displayed(items, false, b);
    assert short <= items && long <= items;
    assert |short| <= |long|;
    assert forall i :: 0 <= i < |short| ==> short[i] == items[i] == long[i];
  }
}

=== FILE: decimal.dfy ===
/** Decimal numerals of integers, as `Number.prototype.toString` writes them
    for integral values (section 6.1.6.1.20 of ECMA-262, Number::toString). */
module Decimal {

  predicate IsDigit(c: char) {
    '0' <= c <= '9'
  }

  predicate AllDigits(s: string) {
    forall i :: 0 <= i < |s| ==> IsDigit(s[i])
  }

  /** A numeral without sign and without a leading zero: the only form
      toString produces for a non-negative integer. */
  predicate IsCanonical(s: string) {
    && |s| >= 1
    && AllDigits(s)
    && (s[0] == '0' ==> |s| == 1)
  }

  function DigitChar(d: nat): (c: char)
    requires d < 10
    ensures IsDigit(c)
  {
    ('0' as int + d) as char
  }

  function DigitValue(c: char): (d: nat)
    requires IsDigit(c)
    ensures d < 10
    ensures DigitChar(d) == c
  {
    c as int - '0' as int
  }

  function NatToString(n: nat): (s: string)
    ensures IsCanonical(s)
    ensures n < 10 <==> |s| == 1
  {
    if n < 10 then [DigitChar(n)]
    else NatToString(n / 10) + [DigitChar(n % 10)]
  }

  /** `String(i)` for an integer `i`. Number::toString writes this numeral
      only while |i| < 10^21, and a double holds every integer only up to
      2^53; the model's integers are unbounded and keep this form for all. */
  function IntToString(i: int): (s: string)
    ensures i >= 0 ==> IsCanonical(s)
    ensures i < 0 ==> |s| >= 2 && s[0] == '-' && IsCanonical(s[1..])
  {
    if i < 0 then "-" + NatToString(-i) else NatToString(i)
  }

  /** The value of a string of decimal digits. */
  function Parse(s: string): nat
    requires AllDigits(s)
  {
    if |s| == 0 then 0
    else Parse(s[..|s| - 1]) * 10 + DigitValue(s[|s| - 1])
  }

  /** Parsing a written numeral gives back the number. */
  lemma {:induction false} ParseNatToString(n: nat)
    ensures Parse(NatToString(n)) == n
  {
    if n >= 10 {
      var s := NatToString(n);
      assert s[..|s| - 1] == NatToString(n / 10);
      ParseNatToString(n / 10);
    }
  }

  lemma {:induction false} ParsePositive(s: string)
    requires IsCanonical(s) && s[0] != '0'
    ensures Parse(s) >= 1
  {
    if |s| > 1 {
      var p := s[..|s| - 1];
      assert p[0] == s[0];
      ParsePositive(p);
    }
  }

  /** Writing the value of a canonical numeral gives back the numeral. */
  lemma {:induction false} NatToStringParse(s: string)
    requires IsCanonical(s)
    ensures NatToString(Parse(s)) == s
  {
    if |s| > 1 {
      var p := s[..|s| - 1];
      assert p[0] == s[0];
      ParsePositive(p);
      NatToStringParse(p);
      assert s == p + [s[|s| - 1]];
    }
  }

  /** Distinct canonical numerals denote distinct numbers. */
  lemma ParseInjective(a: string, b: string)
    requires IsCanonical(a) && IsCanonical(b)
    requires Parse(a) == Parse(b)
    ensures a == b
  {
    NatToStringParse(a);
    NatToStringParse(b);
  }
}

=== FILE: js.dfy ===
/** The slice of JavaScript semantics the application code relies on:
    JSON-shaped values, truthiness, property reads, `String(v)`, plain
    objects as insertion-ordered property lists with the enumeration order
    of section 10.1.11.1 of ECMA-262 (OrdinaryOwnPropertyKeys), object spread,
    and the few `String.prototype` methods the components call. */
module Js {
  import opened Wrappers
  import opened Sorting
  import Decimal

  /** A JSON-shaped value. Numbers are integers: floating point is not modelled. */
  datatype Value =
    | Undefined
    | Null
    | Bool(b: bool)
    | Num(n: int)
    | Str(s: string)
    | Arr(items: seq<Value>)
    | Obj(fields: Entries<Value>)

  /** A plain object: its own properties in insertion order. Objects built by
      the code always have distinct keys (`DistinctKeys`). */
  type Entries<V> = seq<(string, V)>

  // ---------------------------------------------------------------------------
  // Thrown values

  /** What a `throw` carries: an `Error` instance (with its message) or any other value. */
  datatype Exception = ErrorObject(message: string) | Thrown(value: Value)

  /** The completion of an evaluation that may throw. */
  datatype Completion<+T> = Normal(value: T) | Throw(exception: Exception) {

    predicate IsFailure() {
      Throw?
    }

    function PropagateFailure<U>(): Completion<U>
      requires Throw?
    {
      Throw(exception)
    }

    function Extract(): T
      requires Normal?
    {
      value
    }
  }

  // ---------------------------------------------------------------------------
  // Truthiness and property reads

  /** ToBoolean (section 7.1.2 of ECMA-262). */
  predicate Truthy(v: Value) {
    match v
    case Undefined => false
    case Null => false
    case Bool(b) => b
    case Num(n) => n != 0
    case Str(s) => s != ""
    case Arr(_) => true
    case Obj(_) => true
  }

  predicate Nullish(v: Value) {
    v.Undefined? || v.Null?
  }

  /** `a || b` */
  function Or(a: Value, b: Value): (r: Value)
    ensures Truthy(a) ==> r == a
    ensures !Truthy(a) ==> r == b
  {
    if Truthy(a) then a else b
  }

  /** An array index (section 6.1.7 of ECMA-262): the canonical numeral of an
      integer below 2^32 - 1. */
  predicate IsArrayIndex(k: string) {
    Decimal.IsCanonical(k) && Decimal.Parse(k) < 0xFFFF_FFFF
  }

  /** The TypeError V8 raises for a property read on undefined or null. */
  function ReadError(base: string, key: string): Exception {
    ErrorObject("Cannot read properties of " + base + " (reading '" + key + "')")
  }

  /** `v[key]` for a key that does not name an Object.prototype member.
      Reading from undefined or null throws; strings and arrays answer
      `length` and their indices; other primitives have no such property. */
  function Get(v: Value, key: string): (c: Completion<Value>)
    ensures c.Throw? <==> Nullish(v)
    ensures v.Obj? ==> c == Normal(Lookup(v.fields, key).GetOr(Undefined))
  {
    match v
    case Undefined => Throw(ReadError("undefined", key))
    case Null => Throw(ReadError("null", key))
    case Obj(fields) => Normal(Lookup(fields, key).GetOr(Undefined))
    case Arr(items) =>
      if key == "length" then Normal(Num(|items|))
      else if IsArrayIndex(key) && Decimal.Parse(key) < |items| then Normal(items[Decimal.Parse(key)])
      else Normal(Undefined)
    case Str(s) =>
      if key == "length" then Normal(Num(|s|))
      else if IsArrayIndex(key) && Decimal.Parse(key) < |s| then Normal(Str([s[Decimal.Parse(key)]]))
      else Normal(Undefined)
    case _ => Normal(Undefined)
  }

  /** `v?.[key]`: undefined instead of a throw when `v` is undefined or null. */
  function GetOptional(v: Value, key: string): (r: Value)
    ensures Nullish(v) ==> r == Undefined
    ensures !Nullish(v) ==> Get(v, key) == Normal(r)
  {
    if Nullish(v) then Undefined else Get(v, key).value
  }

  // ---------------------------------------------------------------------------
  // String conversion

  /** `String(v)` (section 7.1.17 of ECMA-262); an array joins its elements
      with "," and writes undefined and null elements as "". */
  function ToJsString(v: Value): string
  {
    match v
    case Undefined => "undefined"
    case Null => "null"
    case Bool(b) => if b then "true" else "false"
    case Num(n) => Decimal.IntToString(n)
    case Str(s) => s
    case Arr(items) => JoinItems(items)
    case Obj(_) => "[object Object]"
  }

  function JoinItems(items: seq<Value>): string
  {
    if |items| == 0 then ""
    else
      var head := if Nullish(items[0]) then "" else ToJsString(items[0]);
      if |items| == 1 then head else head + "," + JoinItems(items[1..])
  }

  // ---------------------------------------------------------------------------
  // Plain objects

  function Keys<V>(e: Entries<V>): (ks: seq<string>)
    ensures |ks| == |e|
    ensures forall i :: 0 <= i < |e| ==> ks[i] == e[i].0
  {
    if |e| == 0 then [] else [e[0].0] + Keys(e[1..])
  }

  predicate DistinctKeys<V>(e: Entries<V>) {
    Distinct(Keys(e))
  }

  /** The value of own property `k`, if there is one. */
  function Lookup<V>(e: Entries<V>, k: string): (r: Option<V>)
    ensures r.Some? <==> k in Keys(e)
    ensures r.Some? ==> (k, r.value) in e
  {
    if |e| == 0 then None
    else
      assert Keys(e) == [e[0].0] + Keys(e[1..]);
      if e[0].0 == k then Some(e[0].1) else Lookup(e[1..], k)
  }

  lemma {:induction false} KeysAppend<V>(a: Entries<V>, b: Entries<V>)
    ensures Keys(a + b) == Keys(a) + Keys(b)
  {
    var l, r := Keys(a + b), Keys(a) + Keys(b);
    assert |l| == |r|;
    forall i | 0 <= i < |l| ensures l[i] == r[i] {
      if i < |a| { assert (a + b)[i] == a[i]; } else { assert (a + b)[i] == b[i - |a|]; }
    }
  }

  lemma LookupDistinct<V>(e: Entries<V>, i: int)
    requires DistinctKeys(e)
    requires 0 <= i < |e|
    ensures Lookup(e, e[i].0) == Some(e[i].1)
  {
    if i > 0 {
      assert Keys(e[1..]) == Keys(e)[1..];
      LookupDistinct(e[1..], i - 1);
    }
  }

  /** Two objects with the same own properties and values. */
  ghost predicate SameProperties<V>(a: Entries<V>, b: Entries<V>) {
    forall k :: Lookup(a, k) == Lookup(b, k)
  }

  /** `o[k] = v`: an existing property keeps its place, a new one goes last. */
  function Put<V>(e: Entries<V>, k: string, v: V): Entries<V> {
    if |e| == 0 then [(k, v)]
    else if e[0].0 == k then [(k, v)] + e[1..]
    else [e[0]] + Put(e[1..], k, v)
  }

  lemma {:induction false} PutKeys<V>(e: Entries<V>, k: string, v: V)
    ensures Keys(Put(e, k, v)) == if k in Keys(e) then Keys(e) else Keys(e) + [k]
  {
    if |e| > 0 {
      var r := Put(e, k, v);
      if e[0].0 == k {
        assert k in Keys(e) by { assert Keys(e)[0] == k; }
        assert Keys(r) == Keys(e) by {
          assert |Keys(r)| == |Keys(e)|;
          forall i | 0 <= i < |e| ensures Keys(r)[i] == Keys(e)[i] {
            assert r[i].0 == e[i].0;
          }
        }
      } else {
        var t := Put(e[1..], k, v);
        PutKeys(e[1..], k, v);
        assert Keys(r) == [e[0].0] + Keys(t) by {
          assert r == [e[0]] + t;
          KeysCons(e[0], t);
        }
        assert Keys(e) == [e[0].0] + Keys(e[1..]) by {
          assert e == [e[0]] + e[1..];
          KeysCons(e[0], e[1..]);
        }
      }
    }
  }

  lemma KeysCons<V>(x: (string, V), e: Entries<V>)
    ensures Keys([x] + e) == [x.0] + Keys(e)
  {
  }

  lemma {:induction false} PutLookup<V>(e: Entries<V>, k: string, v: V, k': string)
    ensures Lookup(Put(e, k, v), k') == if k' == k then Some(v) else Lookup(e, k')
  {
    if |e| > 0 {
      var r := Put(e, k, v);
      if e[0].0 == k {
        assert r[1..] == e[1..];
      } else {
        PutLookup(e[1..], k, v, k');
        assert r[1..] == Put(e[1..], k, v);
      }
    }
  }

  lemma PutDistinct<V>(e: Entries<V>, k: string, v: V)
    requires DistinctKeys(e)
    ensures DistinctKeys(Put(e, k, v))
  {
    PutKeys(e, k, v);
  }

  /** Assigns every entry of `es` in turn. */
  function PutAll<V>(a: Entries<V>, es: Entries<V>): Entries<V>
    decreases es
  {
    if |es| == 0 then a else PutAll(Put(a, es[0].0, es[0].1), es[1..])
  }

  lemma {:induction false} PutAllDistinct<V>(a: Entries<V>, es: Entries<V>)
    requires DistinctKeys(a)
    ensures DistinctKeys(PutAll(a, es))
    decreases es
  {
    if |es| > 0 {
      PutDistinct(a, es[0].0, es[0].1);
      PutAllDistinct(Put(a, es[0].0, es[0].1), es[1..]);
    }
  }

  /** The last assignment to a key decides its value; untouched keys keep theirs. */
  lemma {:induction false} PutAllLookup<V>(a: Entries<V>, es: Entries<V>, k: string)
    requires DistinctKeys(es)
    ensures Lookup(PutAll(a, es), k) == if k in Keys(es) then Lookup(es, k) else Lookup(a, k)
    decreases es
  {
    if |es| > 0 {
      assert Keys(es) == [es[0].0] + Keys(es[1..]);
      assert DistinctKeys(es[1..]) by {
        assert Keys(es[1..]) == Keys(es)[1..];
      }
      PutLookup(a, es[0].0, es[0].1, k);
      PutAllLookup(Put(a, es[0].0, es[0].1), es[1..], k);
      if es[0].0 == k {
        assert k !in Keys(es[1..]);
      }
    }
  }

  /** Keys that are array indices, in their original order. */
  function IndexKeys(ks: seq<string>): (r: seq<string>)
    ensures forall k :: k in r <==> k in ks && IsArrayIndex(k)
    ensures Distinct(ks) ==> Distinct(r)
  {
    if |ks| == 0 then []
    else
      var rest := IndexKeys(ks[1..]);
      assert forall k :: k in ks <==> k == ks[0] || k in ks[1..];
      if IsArrayIndex(ks[0]) then [ks[0]] + rest else rest
  }

  /** Keys that are not array indices, in their original order. */
  function NamedKeys(ks: seq<string>): (r: seq<string>)
    ensures forall k :: k in r <==> k in ks && !IsArrayIndex(k)
    ensures Distinct(ks) ==> Distinct(r)
  {
    if |ks| == 0 then []
    else
      var rest := NamedKeys(ks[1..]);
      assert forall k :: k in ks <==> k == ks[0] || k in ks[1..];
      if IsArrayIndex(ks[0]) then rest else [ks[0]] + rest
  }

  // ---------------------------------------------------------------------------
  // Orders on keys

  /** `a < b` on strings: the order `Array.prototype.sort` uses by default. */
  predicate LexLess(a: string, b: string)
  {
    |b| > 0 && (|a| == 0 || a[0] < b[0] || (a[0] == b[0] && LexLess(a[1..], b[1..])))
  }

  lemma {:induction false} LexIrreflexive(a: string)
    ensures !LexLess(a, a)
  {
    if |a| > 0 { LexIrreflexive(a[1..]); }
  }

  lemma {:induction false} LexTransitive(a: string, b: string, c: string)
    requires LexLess(a, b) && LexLess(b, c)
    ensures LexLess(a, c)
  {
    if |a| > 0 && a[0] == b[0] && b[0] == c[0] {
      LexTransitive(a[1..], b[1..], c[1..]);
    }
  }

  lemma {:induction false} LexConnected(a: string, b: string)
    requires a != b
    ensures LexLess(a, b) || LexLess(b, a)
  {
    if |a| > 0 && |b| > 0 && a[0] == b[0] {
      assert a == [a[0]] + a[1..];
      assert b == [b[0]] + b[1..];
      LexConnected(a[1..], b[1..]);
    }
  }

  lemma LexOrder()
    ensures StrictTotalOrder(LexLess)
  {
    forall a ensures !LexLess(a, a) { LexIrreflexive(a); }
    forall a, b, c | LexLess(a, b) && LexLess(b, c) ensures LexLess(a, c) {
      LexTransitive(a, b, c);
    }
    forall a, b | a != b ensures LexLess(a, b) || LexLess(b, a) { LexConnected(a, b); }
  }

  /** The order in which an object's own keys enumerate once they are sorted:
      array indices first by numeric value, then the other keys by `LexLess`. */
  predicate CanonicalLess(a: string, b: string) {
    if IsArrayIndex(a) then !IsArrayIndex(b) || Decimal.Parse(a) < Decimal.Parse(b)
    else !IsArrayIndex(b) && LexLess(a, b)
  }

  lemma CanonicalOrder()
    ensures StrictTotalOrder(CanonicalLess)
  {
    LexOrder();
    forall a, b | a != b ensures CanonicalLess(a, b) || CanonicalLess(b, a) {
      if IsArrayIndex(a) && IsArrayIndex(b) && Decimal.Parse(a) == Decimal.Parse(b) {
        Decimal.ParseInjective(a, b);
      }
    }
  }

  /** Keeping the non-index keys of a strictly sorted sequence keeps it sorted. */
  lemma {:induction false} NamedKeysSorted(ks: seq<string>, less: (string, string) -> bool)
    requires StrictlySorted(ks, less)
    ensures StrictlySorted(NamedKeys(ks), less)
  {
    if |ks| > 0 {
      NamedKeysSorted(ks[1..], less);
      var rest := NamedKeys(ks[1..]);
      forall k | k in rest ensures less(ks[0], k) {
        var i :| 0 <= i < |ks[1..]| && ks[1..][i] == k;
        assert ks[i + 1] == k;
      }
    }
  }

  /** Own keys in enumeration order: array indices ascending, then the other
      keys in insertion order (OrdinaryOwnPropertyKeys). */
  function OwnKeys(ks: seq<string>): (r: seq<string>)
    ensures forall k :: k in r <==> k in ks
    ensures Distinct(ks) ==> Distinct(r)
  {
    var idx := IndexKeys(ks);
    var sorted := Sort(idx, CanonicalLess);
    MultisetMembers(sorted, idx);
    if Distinct(ks) then
      CanonicalOrder();
      SortSorted(idx, CanonicalLess);
      SortedDistinct(sorted, CanonicalLess);
      sorted + NamedKeys(ks)
    else
      sorted + NamedKeys(ks)
  }

  /** The entries of `e` for the keys `ks`, in that order. */
  function EntriesAt<V>(e: Entries<V>, ks: seq<string>): (r: Entries<V>)
    requires forall k :: k in ks ==> k in Keys(e)
    ensures Keys(r) == ks
    ensures forall i :: 0 <= i < |r| ==> Lookup(e, ks[i]) == Some(r[i].1)
  {
    if |ks| == 0 then [] else [(ks[0], Lookup(e, ks[0]).value)] + EntriesAt(e, ks[1..])
  }

  /** `Object.entries(o)`: own properties in enumeration order. */
  function OwnEntries<V>(e: Entries<V>): (r: Entries<V>)
    ensures Keys(r) == OwnKeys(Keys(e))
  {
    EntriesAt(e, OwnKeys(Keys(e)))
  }

  lemma OwnEntriesSame<V>(e: Entries<V>)
    requires DistinctKeys(e)
    ensures DistinctKeys(OwnEntries(e))
    ensures SameProperties(OwnEntries(e), e)
  {
    var r := OwnEntries(e);
    forall k ensures Lookup(r, k) == Lookup(e, k) {
      if k in Keys(r) {
        var i :| 0 <= i < |r| && Keys(r)[i] == k;
        LookupDistinct(r, i);
      }
    }
  }

  /** `{...a, ...b}`: a fresh object receiving a's own properties, then b's. */
  function Spread<V>(a: Entries<V>, b: Entries<V>): (r: Entries<V>)
  {
    PutAll(PutAll([], OwnEntries(a)), OwnEntries(b))
  }

  /** A later source wins on a shared key; a key of neither is absent. */
  lemma SpreadLookup<V>(a: Entries<V>, b: Entries<V>)
    requires DistinctKeys(a) && DistinctKeys(b)
    ensures DistinctKeys(Spread(a, b))
    ensures forall k :: Lookup(Spread(a, b), k) == if k in Keys(b) then Lookup(b, k) else Lookup(a, k)
  {
    OwnEntriesSame(a);
    OwnEntriesSame(b);
    var first := PutAll([], OwnEntries(a));
    PutAllDistinct([], OwnEntries(a));
    PutAllDistinct(first, OwnEntries(b));
    forall k ensures Lookup(Spread(a, b), k) == if k in Keys(b) then Lookup(b, k) else Lookup(a, k) {
      PutAllLookup(first, OwnEntries(b), k);
      PutAllLookup([], OwnEntries(a), k);
    }
  }

  // ---------------------------------------------------------------------------
  // String.prototype methods

  /** `s.slice(0, n)` for a non-negative `n`. */
  function Prefix<T>(s: seq<T>, n: nat): (r: seq<T>)
    ensures |r| == if n < |s| then n else |s|
    ensures r <= s
  {
    if n < |s| then s[..n] else s
  }

  /** Case mapping restricted to the ASCII letters. */
  function UpperChar(c: char): char {
    if 'a' <= c <= 'z' then (c as int - 32) as char else c
  }

  function LowerChar(c: char): char {
    if 'A' <= c <= 'Z' then (c as int + 32) as char else c
  }

  function ToLowerCase(s: string): (r: string)
    ensures |r| == |s|
    ensures forall i :: 0 <= i < |s| ==> r[i] == LowerChar(s[i])
  {
    if |s| == 0 then "" else [LowerChar(s[0])] + ToLowerCase(s[1..])
  }

  /** `s.includes(sub)` */
  predicate Includes(s: string, sub: string) {
    sub <= s || (|s| > 0 && Includes(s[1..], sub))
  }

  /** `s.startsWith(p)` */
  predicate StartsWith(s: string, p: string) {
    p <= s
  }
}

=== FILE: json.dfy ===
/** `JSON.stringify` on JSON-shaped values (section 25.5.2 of ECMA-262):
    object members follow the object's own enumeration order, members whose
    value is undefined are left out, undefined array elements write as null. */
module Json {
  import opened Wrappers
  import opened Js
  import Decimal

  function HexDigit(d: nat): char
    requires d < 16
  {
    if d < 10 then ('0' as int + d) as char else ('a' as int + d - 10) as char
  }

  /** One character of QuoteJSONString (section 25.5.2.3 of ECMA-262). */
  function EscapeChar(c: char): string {
    if c == '"' then "\\\""
    else if c == '\\' then "\\\\"
    else if c as int == 0x08 then "\\b"
    else if c as int == 0x09 then "\\t"
    else if c as int == 0x0A then "\\n"
    else if c as int == 0x0C then "\\f"
    else if c as int == 0x0D then "\\r"
    else if c as int < 0x20 then "\\u00" + [HexDigit(c as int / 16), HexDigit(c as int % 16)]
    else [c]
  }

  function Quote(s: string): (r: string)
    ensures |r| >= 2 && r[0] == '"' && r[|r| - 1] == '"'
  {
    "\"" + EscapeAll(s) + "\""
  }

  function EscapeAll(s: string): string {
    if |s| == 0 then "" else EscapeChar(s[0]) + EscapeAll(s[1..])
  }

  function Join(parts: seq<string>): string {
    if |parts| == 0 then ""
    else if |parts| == 1 then parts[0]
    else parts[0] + "," + Join(parts[1..])
  }

  /** The text of a value that is not undefined. */
  function Encode(v: Value): (r: string)
    requires v != Undefined
    decreases v
  {
    match v
    case Null => "null"
    case Bool(b) => if b then "true" else "false"
    case Num(n) => Decimal.IntToString(n)
    case Str(s) => Quote(s)
    case Arr(items) => "[" + Join(ItemTexts(items)) + "]"
    case Obj(fields) => EncodeObject(fields)
  }

  /** Members in the object's own enumeration order. */
  function EncodeObject(fields: Entries<Value>): (r: string)
    ensures |r| >= 2 && r[0] == '{' && r[|r| - 1] == '}'
    decreases fields, 1
  {
    ObjectText(OwnEntries(MemberTexts(fields)))
  }

  /** The braces around the member list. */
  function ObjectText(ms: Entries<Option<string>>): string {
    "{" + Join(Members(ms)) + "}"
  }

  function ItemTexts(items: seq<Value>): (r: seq<string>)
    ensures |r| == |items|
    decreases items
  {
    if |items| == 0 then []
    else [if items[0] == Undefined then "null" else Encode(items[0])] + ItemTexts(items[1..])
  }

  /** Each property with the text of its value, or None when the value is undefined. */
  function MemberTexts(fields: Entries<Value>): (r: Entries<Option<string>>)
    ensures Keys(r) == Keys(fields)
    decreases fields, 0
  {
    if |fields| == 0 then []
    else
      var f := fields[0];
      assert f in fields;
      assert f.1 < f;
      var rest := MemberTexts(fields[1..]);
      var text := if f.1 == Undefined then None else Some(Encode(f.1));
      assert Keys([(f.0, text)] + rest) == [f.0] + Keys(rest);
      [(f.0, text)] + rest
  }

  function Text(v: Value): Option<string>
  {
    if v == Undefined then None else Some(Encode(v))
  }

  /** `"key":text` for every member that has a text, in order. */
  function Members(ms: Entries<Option<string>>): seq<string> {
    if |ms| == 0 then []
    else
      match ms[0].1
      case None => Members(ms[1..])
      case Some(t) => [Quote(ms[0].0) + ":" + t] + Members(ms[1..])
  }

  /** `JSON.stringify(v)`: no text at all for undefined. */
  function Stringify(v: Value): (r: Option<string>)
    ensures r.None? <==> v == Undefined
  {
    Text(v)
  }

  lemma MemberTextsLookup(fields: Entries<Value>, k: string)
    ensures Lookup(MemberTexts(fields), k).Some? <==> Lookup(fields, k).Some?
    ensures Lookup(fields, k).Some? ==> Lookup(MemberTexts(fields), k).value == Text(Lookup(fields, k).value)
  {
    if |fields| > 0 {
      MemberTextsLookup(fields[1..], k);
    }
  }

  lemma OwnMemberTextsSame(a: Entries<Value>, b: Entries<Value>)
    requires OwnKeys(Keys(a)) == OwnKeys(Keys(b))
    requires SameProperties(a, b)
    ensures OwnEntries(MemberTexts(a)) == OwnEntries(MemberTexts(b))
  {
    var ta := MemberTexts(a);
    var tb := MemberTexts(b);
    var ks := OwnKeys(Keys(a));
    var ma := OwnEntries(ta);
    var mb := OwnEntries(tb);
    assert Keys(ma) == ks && Keys(mb) == ks;
    forall i | 0 <= i < |ks| ensures ma[i] == mb[i] {
      var k := ks[i];
      MemberTextsLookup(a, k);
      MemberTextsLookup(b, k);
      assert Lookup(a, k) == Lookup(b, k);
      assert Lookup(ta, k) == Lookup(tb, k);
    }
  }

  /** An object's text depends only on its enumeration order and its values:
      two objects enumerating the same keys with the same values write alike. */
  lemma EncodeObjectSame(a: Entries<Value>, b: Entries<Value>)
    requires OwnKeys(Keys(a)) == OwnKeys(Keys(b))
    requires SameProperties(a, b)
    ensures Encode(Obj(a)) == Encode(Obj(b))
  {
    OwnMemberTextsSame(a, b);
    EncodeObjectCongruent(a, b);
  }

  lemma EncodeObjectCongruent(a: Entries<Value>, b: Entries<Value>)
    requires OwnEntries(MemberTexts(a)) == OwnEntries(MemberTexts(b))
    ensures Encode(Obj(a)) == Encode(Obj(b))
  {
    EncodeObj(a);
    EncodeObj(b);
  }

  lemma EncodeObj(a: Entries<Value>)
    ensures Encode(Obj(a)) == EncodeObject(a)
  {
  }
}

=== FILE: normalize.dfy ===
/** `normalizeShopToVenue` (lib/normalize.ts): the shop record the API
    returns, reshaped into the venue record the store pages render. */
module Normalize {
  import opened Wrappers
  import opened Js
  import Decimal

  const Welcome := "Welcome to our shop"

  /** One line of the opening-hours table. */
  datatype OpeningHours = OpeningHours(day: string, hours: string)

  /** The venue record. Fields copied from the shop keep the shop's value,
      whatever its type; `rating` is the number 5.0, held as the integer 5. */
  datatype Venue = Venue(
    id: Value,
    name: Value,
    address: Value,
    rating: int,
    reviews: int,
    status: string,
    image: Value,
    images: seq<Value>,
    categoryId: string,
    description: Value,
    openingHours: seq<OpeningHours>,
    disableBookingCalendar: Value,
    phone: Value,
    googleMapUrl: Value)

  // ---------------------------------------------------------------------------
  // Object.entries

  /** The entries of an array-like value whose first element has index `start`. */
  function IndexedEntries(items: seq<Value>, start: nat): (es: Entries<Value>)
    ensures |es| == |items|
    ensures forall i :: 0 <= i < |items| ==> es[i] == (Decimal.NatToString(start + i), items[i])
  {
    if |items| == 0 then [] else [(Decimal.NatToString(start), items[0])] + IndexedEntries(items[1..], start + 1)
  }

  /** The characters of a string, each as a one-character string. */
  function Characters(s: string): (cs: seq<Value>)
    ensures |cs| == |s|
    ensures forall i :: 0 <= i < |s| ==> cs[i] == Str([s[i]])
  {
    if |s| == 0 then [] else [Str([s[0]])] + Characters(s[1..])
  }

  /** `Object.entries(v)` for a truthy `v`: an object's own enumerable
      properties in enumeration order, an array's or a string's indices,
      nothing for a number or a boolean. */
  function ObjectEntries(v: Value): Entries<Value> {
    match v
    case Obj(fields) => OwnEntries(fields)
    case Arr(items) => IndexedEntries(items, 0)
    case Str(s) => IndexedEntries(Characters(s), 0)
    case _ => []
  }

  // ---------------------------------------------------------------------------
  // Opening hours

  /** `day.charAt(0).toUpperCase() + day.slice(1)` */
  function DayLabel(day: string): (r: string)
    ensures |r| == |day|
    ensures |day| > 0 ==> r[0] == UpperChar(day[0]) && r[1..] == day[1..]
  {
    if |day| == 0 then "" else [UpperChar(day[0])] + day[1..]
  }

  /** Only the first character changes, so labelling twice changes nothing more. */
  lemma DayLabelIdempotent(day: string)
    ensures DayLabel(DayLabel(day)) == DayLabel(day)
  {
    if |day| > 0 {
      var once := DayLabel(day);
      assert DayLabel(once) == [UpperChar(once[0])] + once[1..];
      assert UpperChar(UpperChar(day[0])) == UpperChar(day[0]);
    }
  }

  /** `hours.is_closed ? "Closed" : `${hours.open} - ${hours.close}``; reading
      `is_closed` from undefined or null hours throws. */
  function HoursText(hours: Value): (c: Completion<string>)
    ensures c.Throw? <==> Nullish(hours)
    ensures c.Normal? ==> (c.value == "Closed" <==> Truthy(GetOptional(hours, "is_closed")))
    ensures c.Normal? && !Truthy(GetOptional(hours, "is_closed")) ==>
      c.value == ToJsString(GetOptional(hours, "open")) + " - " + ToJsString(GetOptional(hours, "close"))
  {
    var closed :- Get(hours, "is_closed");
    if Truthy(closed) then Normal("Closed")
    else
      var range := ToJsString(GetOptional(hours, "open")) + " - " + ToJsString(GetOptional(hours, "close"));
      RangeIsNotClosed(ToJsString(GetOptional(hours, "open")), ToJsString(GetOptional(hours, "close")));
      Normal(range)
  }

  /** An `open - close` text always differs from "Closed". */
  lemma RangeIsNotClosed(open: string, close: string)
    ensures open + " - " + close != "Closed"
  {
    var t := open + " - " + close;
    assert t[|open|] == ' ';
    if |t| == 6 {
      assert "Closed"[|open|] != ' ';
    }
  }

  predicate SomeHoursMissing(entries: Entries<Value>) {
    exists i :: 0 <= i < |entries| && Nullish(entries[i].1)
  }

  /** `Object.entries(working_hours).map(...)`: one line per entry, in order;
      the first entry with missing hours throws. */
  function OpeningHoursOf(entries: Entries<Value>): (c: Completion<seq<OpeningHours>>)
    ensures c.Throw? <==> SomeHoursMissing(entries)
    ensures c.Normal? ==> |c.value| == |entries|
    ensures c.Normal? ==> forall i :: 0 <= i < |entries| ==>
      c.value[i].day == DayLabel(entries[i].0) && HoursText(entries[i].1) == Normal(c.value[i].hours)
  {
    if |entries| == 0 then Normal([])
    else
      var hours :- HoursText(entries[0].1);
      var rest :- OpeningHoursOf(entries[1..]);
      assert forall i :: 1 <= i < |entries| ==> entries[i] == entries[1..][i - 1];
      Normal([OpeningHours(DayLabel(entries[0].0), hours)] + rest)
  }

  // ---------------------------------------------------------------------------
  // The venue

  /** `normalizeShopToVenue(shopData)`. It throws when the shop itself is
      undefined or null, and when some opening-hours entry is. */
  function NormalizeShopToVenue(shop: Value): (c: Completion<Venue>)
    ensures c.Throw? <==>
      || Nullish(shop)
      || (Truthy(GetOptional(shop, "working_hours")) && SomeHoursMissing(ObjectEntries(GetOptional(shop, "working_hours"))))
    ensures c.Normal? ==>
      && c.value.id == GetOptional(shop, "slug")
      && c.value.name == GetOptional(shop, "name")
      && c.value.address == GetOptional(shop, "address")
      && c.value.image == GetOptional(shop, "logo")
      && c.value.rating == 5 && c.value.reviews == 0 && c.value.categoryId == "all"
    ensures c.Normal? ==>
      && (c.value.status == "Open" <==> Truthy(GetOptional(shop, "working_hours")))
      && (c.value.status == "Open" || c.value.status == "Closed")
      && (c.value.status == "Closed" ==> c.value.openingHours == [])
    ensures c.Normal? ==>
      && 1 <= |c.value.images| <= 2
      && c.value.images[|c.value.images| - 1] == GetOptional(shop, "logo")
      && (|c.value.images| == 2 <==> Truthy(GetOptional(shop, "banner")))
      && (|c.value.images| == 2 ==> c.value.images[0] == GetOptional(GetOptional(shop, "banner"), "image"))
    ensures c.Normal? ==>
      && (!Truthy(GetOptional(GetOptional(shop, "banner"), "description")) ==> c.value.description == Str(Welcome))
      && (Truthy(GetOptional(GetOptional(shop, "banner"), "description")) ==> c.value.description == GetOptional(GetOptional(shop, "banner"), "description"))
      && (!Truthy(GetOptional(shop, "disable_booking_calendar")) ==> c.value.disableBookingCalendar == Bool(false))
      && (Truthy(GetOptional(shop, "disable_booking_calendar")) ==> c.value.disableBookingCalendar == GetOptional(shop, "disable_booking_calendar"))
      && (!Truthy(GetOptional(shop, "phone")) ==> c.value.phone == Str(""))
      && (Truthy(GetOptional(shop, "phone")) ==> c.value.phone == GetOptional(shop, "phone"))
      && (!Truthy(GetOptional(shop, "google_map_url")) ==> c.value.googleMapUrl == Str(""))
      && (Truthy(GetOptional(shop, "google_map_url")) ==> c.value.googleMapUrl == GetOptional(shop, "google_map_url"))
  {
    var slug :- Get(shop, "slug");
    var hoursField := GetOptional(shop, "working_hours");
    var banner := GetOptional(shop, "banner");
    var logo := GetOptional(shop, "logo");
    var openingHours :- if Truthy(hoursField) then OpeningHoursOf(ObjectEntries(hoursField)) else Normal([]);
    Normal(Venue(
      id := slug,
      name := GetOptional(shop, "name"),
      address := GetOptional(shop, "address"),
      rating := 5,
      reviews := 0,
      status := if Truthy(hoursField) then "Open" else "Closed",
      image := logo,
      images := if Truthy(banner) then [GetOptional(banner, "image"), logo] else [logo],
      categoryId := "all",
      description := Or(GetOptional(banner, "description"), Str(Welcome)),
      openingHours := openingHours,
      disableBookingCalendar := Or(GetOptional(shop, "disable_booking_calendar"), Bool(false)),
      phone := Or(GetOptional(shop, "phone"), Str("")),
      googleMapUrl := Or(GetOptional(shop, "google_map_url"), Str(""))))
  }

  /** The table has one line per working-hours entry, in order: the day name
      capitalised and the hours "Closed" exactly for closed days. */
  lemma OpeningHoursLines(shop: Value, i: int)
    requires !Nullish(shop) && Truthy(GetOptional(shop, "working_hours"))
    requires !SomeHoursMissing(ObjectEntries(GetOptional(shop, "working_hours")))
    requires 0 <= i < |ObjectEntries(GetOptional(shop, "working_hours"))|
    ensures var v := NormalizeShopToVenue(shop).value;
      var e := ObjectEntries(GetOptional(shop, "working_hours"))[i];
      && |v.openingHours| == |ObjectEntries(GetOptional(shop, "working_hours"))|
      && v.openingHours[i].day == DayLabel(e.0)
      && (v.openingHours[i].hours == "Closed" <==> Truthy(GetOptional(e.1, "is_closed")))
  {
    var e := ObjectEntries(GetOptional(shop, "working_hours"))[i];
    assert HoursText(e.1).Normal?;
  }
}

=== FILE: onboarding.dfy ===
/** The merchant onboarding form (app/merchant/onboarding/page.tsx): three
    steps (business, categories, location) over one form. The form rules
    are the yup schema's; whether a text is a URL is a parameter. */
module Onboarding {
  import opened Wrappers
  import opened Toggles

  const TotalSteps := 3

  /** The category cards, in the order shown. */
  const CategoryIds: seq<string> := ["hair", "nails", "spa", "massage", "barber", "makeup", "skincare", "tattoo"]

  /** The form's fields; a field not filled in yet is empty. */
  datatype Form = Form(
    businessName: string,
    website: string,
    categories: seq<string>,
    address: string,
    city: string,
    state: string,
    zip: string)

  datatype State = State(step: int, form: Form)

  predicate Valid(s: State) {
    1 <= s.step <= TotalSteps
  }

  /** The first step with an empty form and no categories. */
  function Init(): (s: State)
    ensures Valid(s) && s.step == 1 && s.form.categories == []
  {
    State(1, Form("", "", [], "", "", "", ""))
  }

  // ---------------------------------------------------------------------------
  // The schema

  /** Step 1: a business name is required; a website is optional, and a
      given one must be a URL. */
  predicate BusinessValid(f: Form, isUrl: string -> bool) {
    f.businessName != "" && (f.website == "" || isUrl(f.website))
  }

  /** Step 2: at least one category. */
  predicate CategoriesValid(f: Form) {
    |f.categories| >= 1
  }

  /** Step 3: every location field is required. */
  predicate LocationValid(f: Form) {
    f.address != "" && f.city != "" && f.state != "" && f.zip != ""
  }

  /** The whole schema, which submitting checks. */
  predicate FormValid(f: Form, isUrl: string -> bool)
    ensures FormValid(f, isUrl) ==> forall step :: 1 <= step <= 2 ==> StepFieldsValid(State(step, f), isUrl)
  {
    BusinessValid(f, isUrl) && CategoriesValid(f) && LocationValid(f)
  }

  /** The check `handleNext` runs: the current step's fields, and nothing
      on the last step, which has no branch of its own. */
  predicate StepFieldsValid(s: State, isUrl: string -> bool)
    ensures StepFieldsValid(s, isUrl) ==> s.step == 1 || s.step == 2
    ensures StepFieldsValid(s, isUrl) && s.step == 1 ==> s.form.businessName != ""
    ensures StepFieldsValid(s, isUrl) && s.step == 2 ==> |s.form.categories| >= 1
  {
    if s.step == 1 then BusinessValid(s.form, isUrl)
    else if s.step == 2 then CategoriesValid(s.form)
    else false
  }

  // ---------------------------------------------------------------------------
  // Navigation

  /** `handleNext`: one step on, capped at the last, when the step's fields
      validate. */
  function Next(s: State, isUrl: string -> bool): (r: State)
    ensures r.form == s.form
    ensures Valid(s) ==> Valid(r)
    ensures r.step == s.step + 1 <==> StepFieldsValid(s, isUrl) && s.step < TotalSteps
    ensures r.step != s.step + 1 ==> r == s
  {
    if StepFieldsValid(s, isUrl) then s.(step := if s.step + 1 < TotalSteps then s.step + 1 else TotalSteps) else s
  }

  /** On the last step, Next never moves. */
  lemma NextStaysOnLast(s: State, isUrl: string -> bool)
    requires s.step == TotalSteps
    ensures Next(s, isUrl) == s
  {
  }

  /** `handleBack`: one step back, never before the first. */
  function Back(s: State): (r: State)
    ensures r.form == s.form
    ensures Valid(s) ==> Valid(r)
    ensures s.step > 1 ==> r.step == s.step - 1
    ensures s.step <= 1 ==> r.step == 1
  {
    s.(step := if s.step - 1 > 1 then s.step - 1 else 1)
  }

  /** Back undoes a Next that moved. */
  lemma BackUndoesNext(s: State, isUrl: string -> bool)
    requires Valid(s)
    requires Next(s, isUrl) != s
    ensures Back(Next(s, isUrl)) == s
  {
  }

  /** A category card: a selected category is removed, any other appended. */
  function ToggleCategory(s: State, id: string): (r: State)
    ensures r.step == s.step
    ensures id in r.form.categories <==> id !in s.form.categories
    ensures forall c :: c != id ==> (c in r.form.categories <==> c in s.form.categories)
    ensures r.form == s.form.(categories := r.form.categories)
  {
    s.(form := s.form.(categories := Toggle(s.form.categories, id)))
  }

  /** The buttons: Back after the first step; Continue before the last,
      Complete Setup on it. */
  datatype Buttons = Buttons(back: bool, forward: bool, submit: bool)

  function ButtonsOf(s: State): (b: Buttons)
    ensures b.back <==> s.step > 1
    ensures b.forward <==> !b.submit
    ensures Valid(s) ==> (b.submit <==> s.step == TotalSteps)
  {
    Buttons(s.step > 1, s.step < TotalSteps, !(s.step < TotalSteps))
  }

  /** Submitting: a valid form goes on to the merchant dashboard; an invalid
      one stays. */
  function Submit(s: State, isUrl: string -> bool): (destination: Option<string>)
    ensures destination.Some? <==> FormValid(s.form, isUrl)
    ensures destination.Some? ==> destination.value == "/merchant"
  {
    if FormValid(s.form, isUrl) then Some("/merchant") else None
  }

  /** What the user can do: edit the fields, toggle a card, press Continue
      or Back. */
  datatype Event = Edit(form: Form) | ToggleCard(id: string) | Continue | GoBack

  function Apply(s: State, e: Event, isUrl: string -> bool): (r: State)
    ensures Valid(s) ==> Valid(r)
    ensures e.Edit? ==> r.step == s.step && r.form.categories == s.form.categories
    ensures e.Continue? || e.GoBack? ==> r.form == s.form
  {
    match e
    case Edit(f) => s.(form := f.(categories := s.form.categories))
    case ToggleCard(id) => ToggleCategory(s, id)
    case Continue => Next(s, isUrl)
    case GoBack => Back(s)
  }

  function Run(s: State, events: seq<Event>, isUrl: string -> bool): State
    decreases |events|
  {
    if |events| == 0 then s else Run(Apply(s, events[0], isUrl), events[1..], isUrl)
  }

  /** Whatever the user does, the step stays between 1 and 3, and it moves
      past a step only when that step's fields validate. */
  lemma {:induction false} RunValid(s: State, events: seq<Event>, isUrl: string -> bool)
    requires Valid(s)
    ensures Valid(Run(s, events, isUrl))
    decreases |events|
  {
    if |events| > 0 {
      var t := Apply(s, events[0], isUrl);
      assert Valid(t);
      RunValid(t, events[1..], isUrl);
    }
  }

  /** The step only grows through Continue on a validating step. */
  lemma ApplyAdvances(s: State, e: Event, isUrl: string -> bool)
    requires Valid(s)
    ensures Apply(s, e, isUrl).step > s.step ==> e == Continue && StepFieldsValid(s, isUrl)
    ensures Apply(s, e, isUrl).step <= s.step + 1
  {
  }
}

=== FILE: providers.dfy ===
/** The session refresh in the app's providers (components/providers/index.tsx):
    when a signed-in customer has a token, their profile is fetched again and
    merged into the stored user, or the session ends when the server says
    the token is no longer accepted. The user store is a plain record here:
    no user, or a user object. */
module Providers {
  import opened Wrappers
  import opened Js
  import opened ActionResults
  import Api
  import AuthActions

  /** The stored session: the user object (if any) and the flag. */
  datatype Session = Session(user: Option<Entries<Value>>, isAuthenticated: bool)

  function UserValue(user: Option<Entries<Value>>): Value {
    if user.Some? then Obj(user.value) else Null
  }

  /** The effect's condition: signed in, a truthy `user?.token`, and the role
      "customer". */
  predicate ShouldRefresh(s: Session)
    ensures ShouldRefresh(s) ==> s.user.Some? && s.isAuthenticated
  {
    && s.isAuthenticated
    && Truthy(GetOptional(UserValue(s.user), "token"))
    && GetOptional(UserValue(s.user), "role") == Str("customer")
  }

  /** The four fields the refresh overwrites. */
  predicate IsProfileField(k: string) {
    k == "id" || k == "name" || k == "contact" || k == "email"
  }

  /** The properties written after the spread, in the order written:
      `id: String(d.id || user.id)`, then `name`, `contact` and `email`,
      each `d.x || user.x`. */
  function ProfileUpdates(user: Entries<Value>, d: Value): (es: Entries<Value>)
    ensures DistinctKeys(es)
    ensures forall k :: k in Keys(es) <==> IsProfileField(k)
  {
    var u := Obj(user);
    var es := [
      ("id", Str(ToJsString(Or(GetOptional(d, "id"), GetOptional(u, "id"))))),
      ("name", Or(GetOptional(d, "name"), GetOptional(u, "name"))),
      ("contact", Or(GetOptional(d, "contact"), GetOptional(u, "contact"))),
      ("email", Or(GetOptional(d, "email"), GetOptional(u, "email")))];
    assert Keys(es) == ["id", "name", "contact", "email"];
    assert DistinctKeys(es) by {
      forall i, j | 0 <= i < j < 4 ensures Keys(es)[i] != Keys(es)[j] {
        assert |Keys(es)[i]| != |Keys(es)[j]|;
      }
    }
    es
  }

  /** `{ ...user, id: ..., name: ..., contact: ..., email: ... }` */
  function Merge(user: Entries<Value>, d: Value): (r: Entries<Value>)
    ensures DistinctKeys(user) ==> Lookup(r, "token") == Lookup(user, "token")
    ensures DistinctKeys(user) ==> Lookup(r, "role") == Lookup(user, "role")
  {
    if DistinctKeys(user) then
      KeptByMerge(user, d, "token");
      KeptByMerge(user, d, "role");
      PutAll(PutAll([], OwnEntries(user)), ProfileUpdates(user, d))
    else PutAll(PutAll([], OwnEntries(user)), ProfileUpdates(user, d))
  }

  /** A field other than the four is copied by the spread and not written after it. */
  lemma KeptByMerge(user: Entries<Value>, d: Value, k: string)
    requires DistinctKeys(user) && !IsProfileField(k)
    ensures Lookup(PutAll(PutAll([], OwnEntries(user)), ProfileUpdates(user, d)), k) == Lookup(user, k)
  {
    var es := ProfileUpdates(user, d);
    assert k !in Keys(es);
    OwnEntriesSame(user);
    PutAllLookup(PutAll([], OwnEntries(user)), es, k);
    PutAllLookup([], OwnEntries(user), k);
  }

  /** A property of the merged user comes from the updates when it is a
      profile field and from the stored user otherwise. */
  lemma MergeLookup(user: Entries<Value>, d: Value, k: string)
    requires DistinctKeys(user)
    ensures Lookup(Merge(user, d), k) == if IsProfileField(k) then Lookup(ProfileUpdates(user, d), k) else Lookup(user, k)
  {
    OwnEntriesSame(user);
    PutAllLookup(PutAll([], OwnEntries(user)), ProfileUpdates(user, d), k);
    PutAllLookup([], OwnEntries(user), k);
  }

  /** The merged user is again an object with distinct keys, and every field
      other than the four, the token and the role among them, is as it was. */
  lemma MergeKeepsOthers(user: Entries<Value>, d: Value)
    requires DistinctKeys(user)
    ensures DistinctKeys(Merge(user, d))
    ensures forall k :: !IsProfileField(k) ==> Lookup(Merge(user, d), k) == Lookup(user, k)
  {
    OwnEntriesSame(user);
    PutAllDistinct([], OwnEntries(user));
    PutAllDistinct(PutAll([], OwnEntries(user)), ProfileUpdates(user, d));
    forall k | !IsProfileField(k) ensures Lookup(Merge(user, d), k) == Lookup(user, k) {
      MergeLookup(user, d, k);
    }
  }

  /** The profile fields take the server's value when it is truthy and keep
      the stored one otherwise; the id becomes a string either way. */
  lemma MergeProfile(user: Entries<Value>, d: Value)
    requires DistinctKeys(user)
    ensures Lookup(Merge(user, d), "id") == Some(Str(ToJsString(Or(GetOptional(d, "id"), GetOptional(Obj(user), "id")))))
    ensures Lookup(Merge(user, d), "name") == Some(Or(GetOptional(d, "name"), GetOptional(Obj(user), "name")))
    ensures Lookup(Merge(user, d), "contact") == Some(Or(GetOptional(d, "contact"), GetOptional(Obj(user), "contact")))
    ensures Lookup(Merge(user, d), "email") == Some(Or(GetOptional(d, "email"), GetOptional(Obj(user), "email")))
  {
    var es := ProfileUpdates(user, d);
    MergeLookup(user, d, "id");
    MergeLookup(user, d, "name");
    MergeLookup(user, d, "contact");
    MergeLookup(user, d, "email");
    LookupDistinct(es, 0);
    LookupDistinct(es, 1);
    LookupDistinct(es, 2);
    LookupDistinct(es, 3);
  }

  /** What the refresh does to the session. */
  datatype Effect = Keep | SetUser(user: Entries<Value>) | Logout

  /** `res.error?.toLowerCase().includes("unauthenticated")` */
  predicate Unauthenticated(error: string) {
    Includes(ToLowerCase(error), "unauthenticated")
  }

  /** The reaction to `fetchCustomerInfo`: a success with truthy data merges
      it into the user; a failure logs out only when the message mentions
      "unauthenticated" in any case; anything else leaves the session be. */
  function Reaction(user: Entries<Value>, res: ActionResult): (e: Effect)
    ensures e.SetUser? <==> res.Succeeded? && res.data.Some? && Truthy(res.data.value)
    ensures e.SetUser? ==> e.user == Merge(user, res.data.value)
    ensures e.Logout? <==> res.Failed? && Unauthenticated(res.error)
    ensures e == Keep <==> (res.Succeeded? && (res.data.None? || !Truthy(res.data.value))) || (res.Failed? && !Unauthenticated(res.error))
  {
    match res
    case Succeeded(data) => if data.Some? && Truthy(data.value) then SetUser(Merge(user, data.value)) else Keep
    case Failed(error) => if Unauthenticated(error) then Logout else Keep
  }

  /** The stored token as `fetchCustomerInfo(user.token!)` passes it on. */
  function TokenText(user: Entries<Value>): string {
    ToJsString(GetOptional(Obj(user), "token"))
  }

  /** The effect on a session. Only a session meeting the condition is
      touched. For such a session it logs out exactly on an
      "unauthenticated" failure of the profile fetch, and sets a new user
      exactly on a success with truthy data: the stored user merged with
      the fetched profile. */
  function Refresh(env: Api.Env, s: Session): (e: Effect)
    ensures e != Keep ==> ShouldRefresh(s) && s.user.Some?
    ensures e.Logout? ==>
      && s.user.Some?
      && var res := AuthActions.FetchCustomerInfo(env, TokenText(s.user.value));
         res.Failed? && Unauthenticated(res.error)
    ensures e.SetUser? ==>
      && s.user.Some?
      && var res := AuthActions.FetchCustomerInfo(env, TokenText(s.user.value));
         res.Succeeded? && res.data.Some? && Truthy(res.data.value) && e.user == Merge(s.user.value, res.data.value)
    ensures ShouldRefresh(s) ==>
      && s.user.Some?
      && var res := AuthActions.FetchCustomerInfo(env, TokenText(s.user.value));
      && (e.Logout? <==> res.Failed? && Unauthenticated(res.error))
      && (e.SetUser? <==> res.Succeeded? && res.data.Some? && Truthy(res.data.value))
  {
    if ShouldRefresh(s) then
      Reaction(s.user.value, AuthActions.FetchCustomerInfo(env, TokenText(s.user.value)))
    else Keep
  }

  /** A truthy value other than an array never writes as the empty string. */
  lemma TruthyText(v: Value)
    requires Truthy(v) && !v.Arr?
    ensures ToJsString(v) != ""
  {
    if v.Obj? {
      assert ToJsString(v)[0] == '[';
    }
  }

  /** The refresh asks for "/customers/me" with GET, and sends the stored
      token as the bearer. */
  lemma RefreshRequest(env: Api.Env, s: Session)
    requires ShouldRefresh(s)
    ensures s.user.Some?
    ensures var token := GetOptional(Obj(s.user.value), "token");
      var request := Request(env, AuthActions.CustomerInfoCall(TokenText(s.user.value)));
      && request.url.path == Api.RequestPath(env.cfg, "/customers/me")
      && request.httpMethod == "GET"
      && (!token.Arr? ==> Lookup(request.headers, "Authorization") == Some("Bearer " + ToJsString(token)))
  {
    var token := GetOptional(Obj(s.user.value), "token");
    AuthActions.TokenSent(env, TokenText(s.user.value));
    if !token.Arr? {
      TruthyText(token);
    }
  }

  /** The session after the effect. */
  function Apply(s: Session, e: Effect): Session {
    match e
    case Keep => s
    case SetUser(u) => s.(user := Some(u))
    case Logout => Session(None, false)
  }

  /** A merge keeps the token and the role, so the condition that started
      the refresh still holds for the merged user. */
  lemma MergeKeepsRefresh(s: Session, d: Value)
    requires ShouldRefresh(s)
    requires DistinctKeys(s.user.value)
    ensures ShouldRefresh(s.(user := Some(Merge(s.user.value, d))))
  {
    var u := s.user.value;
    var m := Merge(u, d);
    SessionFieldsKept();
    MergeKeeps(u, d, "token");
    MergeKeeps(u, d, "role");
    SameRead(m, u, "token");
    SameRead(m, u, "role");
    assert UserValue(Some(m)) == Obj(m) && UserValue(s.user) == Obj(u);
  }

  lemma SessionFieldsKept()
    ensures !IsProfileField("token") && !IsProfileField("role")
  {
    assert "token"[0] == 't' && "role"[0] == 'r';
    assert "email"[0] == 'e' && "name"[0] == 'n';
  }

  lemma MergeKeeps(user: Entries<Value>, d: Value, k: string)
    requires DistinctKeys(user)
    requires !IsProfileField(k)
    ensures Lookup(Merge(user, d), k) == Lookup(user, k)
  {
    MergeLookup(user, d, k);
  }

  /** Objects with the same property give the same read. */
  lemma SameRead(a: Entries<Value>, b: Entries<Value>, k: string)
    requires Lookup(a, k) == Lookup(b, k)
    ensures GetOptional(Obj(a), k) == GetOptional(Obj(b), k)
  {
  }

  /** Unless it logs out, the reaction leaves a user object with distinct
      keys for which the refresh condition still holds. */
  lemma ReactionKeepsSession(s: Session, res: ActionResult)
    requires ShouldRefresh(s)
    requires DistinctKeys(s.user.value)
    requires Reaction(s.user.value, res) != Logout
    ensures ShouldRefresh(Apply(s, Reaction(s.user.value, res)))
    ensures DistinctKeys(Apply(s, Reaction(s.user.value, res)).user.value)
  {
    if res.Succeeded? && res.data.Some? && Truthy(res.data.value) {
      MergeKeepsOthers(s.user.value, res.data.value);
      MergeKeepsRefresh(s, res.data.value);
    }
  }

  /** Whether the session ends does not depend on the message's letter case. */
  lemma UnauthenticatedAnyCase(error: string)
    ensures Unauthenticated(ToLowerCase(error)) == Unauthenticated(error)
  {
    var low := ToLowerCase(error);
    assert ToLowerCase(low) == low by {
      forall i | 0 <= i < |low| ensures ToLowerCase(low)[i] == low[i] {
        assert low[i] == LowerChar(error[i]);
      }
    }
  }
}

=== FILE: review_list.dfy ===
/** The venue's reviews (components/venue/review-list.tsx): two reviews
    until the list is expanded, a See all / See less switch in the header,
    and a "Read more reviews" button under a collapsed list. */
module ReviewList {
  import Collapsible

  datatype Review = Review(id: int, user: string, date: string, rating: nat, text: string)

  /** The reviews, in order; only their count and ratings matter here. */
  const AllReviews: seq<Review> := [
    Review(1, "John D.", "2 days ago", 5, "Best haircut I've had in years! Detailed and professional."),
    Review(2, "Michael S.", "1 week ago", 5, "Great vibes and excellent service. Highly recommend."),
    Review(3, "Sarah L.", "2 weeks ago", 4, "Good cut but had to wait 15 mins past my appointment time."),
    Review(4, "David K.", "3 weeks ago", 5, "Amazing beard trim. The hot towel treatment is a must."),
    Review(5, "Emily R.", "1 month ago", 5, "My son loves getting his hair cut here. Very kid friendly."),
    Review(6, "Chris P.", "1 month ago", 5, "Consistent quality every time. Been coming here for a year.")]

  /** How many reviews a collapsed list shows. */
  const CollapsedCount := 2

  /** The list starts collapsed. */
  const InitiallyExpanded := false

  /** The reviews on screen: the first two in order, or all of them. */
  function Shown(expanded: bool): (r: seq<Review>)
    ensures r <= AllReviews
    ensures expanded ==> r == AllReviews
    ensures !expanded ==> |r| == CollapsedCount
  {
    Collapsible.Displayed(AllReviews, expanded, CollapsedCount)
  }

  /** What the user can press. */
  datatype Press = HeaderSwitch | ReadMore

  /** The header switch flips the flag; "Read more reviews" sets it. */
  function AfterPress(expanded: bool, p: Press): (r: bool)
    ensures p == HeaderSwitch ==> r != expanded
    ensures p == ReadMore ==> r
  {
    match p
    case HeaderSwitch => Collapsible.Switch(expanded)
    case ReadMore => true
  }

  /** "Read more reviews" is shown exactly while reviews are hidden. */
  predicate ShowsReadMore(expanded: bool) {
    !expanded
  }

  lemma ReadMoreWhileHidden(expanded: bool)
    ensures ShowsReadMore(expanded) <==> |Shown(expanded)| < |AllReviews|
  {
  }

  /** Pressing "Read more reviews" again changes nothing, and afterwards every
      review is shown and the button is gone. */
  lemma ReadMoreIdempotent(expanded: bool)
    ensures AfterPress(AfterPress(expanded, ReadMore), ReadMore) == AfterPress(expanded, ReadMore)
    ensures Shown(AfterPress(expanded, ReadMore)) == AllReviews
    ensures !ShowsReadMore(AfterPress(expanded, ReadMore))
  {
  }

  /** Two presses of the header switch give back the list as it was. */
  lemma SwitchTwice(expanded: bool)
    ensures AfterPress(AfterPress(expanded, HeaderSwitch), HeaderSwitch) == expanded
  {
  }

  /** The stars under a review: `[...Array(review.rating)]`, one per point. */
  function Stars(rating: nat): (stars: seq<()>)
    ensures |stars| == rating
  {
    if rating == 0 then [] else [()] + Stars(rating - 1)
  }
}

=== FILE: search_bar.dfy ===
/** The compact search bar's date picker and time choice
    (components/layout/compact-search-bar.tsx). Dates are day numbers as
    section 21.4.1 of ECMA-262 counts them (day 0 is 1 January 1970) in the
    proleptic Gregorian calendar; a `Date` built from a year, a month and a
    day is the day number `MakeDay` gives. */
module SearchBar {

  // ---------------------------------------------------------------------------
  // Day numbers (section 21.4.1 of ECMA-262)

  /** InLeapYear: the Gregorian leap rule. */
  predicate IsLeapYear(y: int) {
    y % 4 == 0 && (y % 100 != 0 || y % 400 == 0)
  }

  function DaysInYear(y: int): (n: int)
    ensures n == 365 || n == 366
    ensures n == 366 <==> IsLeapYear(y)
  {
    if IsLeapYear(y) then 366 else 365
  }

  /** DayFromYear: the day number of 1 January of year `y`. Dafny's `/` on
      a positive divisor is the floor division the standard uses. */
  function DayFromYear(y: int): int {
    365 * (y - 1970) + (y - 1969) / 4 - (y - 1901) / 100 + (y - 1601) / 400
  }

  /** The days of month `m` (0 = January) of year `y`. */
  function MonthLength(y: int, m: int): (n: int)
    requires 0 <= m < 12
    ensures 28 <= n <= 31
  {
    if m == 1 then (if IsLeapYear(y) then 29 else 28)
    else if m == 3 || m == 5 || m == 8 || m == 10 then 30
    else 31
  }

  /** The day of the year on which month `m` starts (the table of MonthFromTime). */
  function MonthStart(y: int, m: int): int
    requires 0 <= m < 12
  {
    var leap := if IsLeapYear(y) then 1 else 0;
    if m == 0 then 0
    else if m == 1 then 31
    else [59, 90, 120, 151, 181, 212, 243, 273, 304, 334][m - 2] + leap
  }

  /** MakeDay(year, month, date): a month outside 0..11 moves into the
      neighbouring years, and a date outside the month into its neighbours. */
  function MakeDay(year: int, month: int, date: int): (r: int)
    ensures 0 <= month < 12 && 1 <= date <= MonthLength(year, month) ==>
      DayFromYear(year) <= r < DayFromYear(year) + DaysInYear(year)
  {
    var y := year + month / 12;
    var m := month % 12;
    DayFromYear(y) + MonthStart(y, m) + date - 1
  }

  /** WeekDay: 0 is Sunday; 1 January 1970 was a Thursday. */
  function WeekDay(day: int): (w: int)
    ensures 0 <= w < 7
  {
    (day + 4) % 7
  }

  /** The `Date` constructor reads a year from 0 to 99 as 1900 to 1999
      (MakeFullYear in section 21.4.2.1 of ECMA-262). */
  function FullYear(year: int): (y: int)
    ensures 0 <= year <= 99 ==> y == 1900 + year
    ensures !(0 <= year <= 99) ==> y == year
  {
    if 0 <= year <= 99 then 1900 + year else year
  }

  // Floor division by 4, 100 and 400 steps up by one exactly where the
  // next number is a multiple; shifting by a multiple keeps the remainder.

  lemma Step4(a: int)
    ensures (a + 1) / 4 - a / 4 == if (a + 1) % 4 == 0 then 1 else 0
  {
  }

  lemma Step100(a: int)
    ensures (a + 1) / 100 - a / 100 == if (a + 1) % 100 == 0 then 1 else 0
  {
  }

  lemma Step400(a: int)
    ensures (a + 1) / 400 - a / 400 == if (a + 1) % 400 == 0 then 1 else 0
  {
  }

  lemma Shift4(y: int)
    ensures (y - 1968) % 4 == y % 4
  {
  }

  lemma Shift100(y: int)
    ensures (y - 1900) % 100 == y % 100
  {
  }

  lemma Shift400(y: int)
    ensures (y - 1600) % 400 == y % 400
  {
  }

  lemma Multiple4(m: int)
    ensures (4 * m) % 4 == 0
  {
  }

  lemma Multiple100(m: int)
    ensures (100 * m) % 100 == 0
  {
  }

  /** Every fourth century is a century, and every century a fourth year. */
  lemma Divisibility(y: int)
    ensures y % 400 == 0 ==> y % 100 == 0
    ensures y % 100 == 0 ==> y % 4 == 0
  {
    if y % 400 == 0 {
      assert y == 100 * (4 * (y / 400));
      Multiple100(4 * (y / 400));
    }
    if y % 100 == 0 {
      assert y == 4 * (25 * (y / 100));
      Multiple4(25 * (y / 100));
    }
  }

  /** Consecutive years start DaysInYear apart. */
  lemma YearLength(y: int)
    ensures DayFromYear(y + 1) - DayFromYear(y) == DaysInYear(y)
  {
    var a, b, c := y - 1969, y - 1901, y - 1601;
    Step4(a);
    Step100(b);
    Step400(c);
    Shift4(y);
    Shift100(y);
    Shift400(y);
    Divisibility(y);
    assert a + 1 == y - 1968 && b + 1 == y - 1900 && c + 1 == y - 1600;
    var d := DayFromYear(y + 1) - DayFromYear(y);
    assert d == 365 + ((a + 1) / 4 - a / 4) - ((b + 1) / 100 - b / 100) + ((c + 1) / 400 - c / 400);
  }

  /** Consecutive months start MonthLength apart, across the turn of the
      year too. */
  lemma MonthLengthBetweenStarts(year: int, month: int)
    ensures MakeDay(year, month + 1, 1) - MakeDay(year, month, 1) == MonthLength(year + month / 12, month % 12)
  {
    var y, m := year + month / 12, month % 12;
    if m == 11 {
      assert (month + 1) / 12 == month / 12 + 1 && (month + 1) % 12 == 0;
      YearLength(y);
    } else {
      assert (month + 1) / 12 == month / 12 && (month + 1) % 12 == m + 1;
    }
  }

  // ---------------------------------------------------------------------------
  // The calendar

  /** `daysInMonth(year, month)`, that is `new Date(year, month + 1, 0).getDate()`:
      the length of the month, with the leap rule, for the year the
      constructor reads. */
  function DaysInMonth(year: int, month: int): (n: int)
    ensures 28 <= n <= 31
  {
    MonthLength(FullYear(year) + month / 12, month % 12)
  }

  /** Day 0 of the next month is day `DaysInMonth` of this one, and the
      month's days 1 to `DaysInMonth` fill exactly the gap to the next month:
      so `getDate` of that day is `DaysInMonth`. */
  lemma DaysInMonthIsLastDate(year: int, month: int)
    ensures MakeDay(FullYear(year), month + 1, 0) == MakeDay(FullYear(year), month, DaysInMonth(year, month))
    ensures MakeDay(FullYear(year), month, 1) + DaysInMonth(year, month) == MakeDay(FullYear(year), month + 1, 1)
  {
    MonthLengthBetweenStarts(FullYear(year), month);
  }

  /** February 2024 has 29 days, 2023 and 1900 have 28; the year 0 is read
      as 1900, so its February shows 28 days although 0 is a leap year. */
  lemma FebruaryExamples()
    ensures DaysInMonth(2024, 1) == 29 && DaysInMonth(2023, 1) == 28
    ensures DaysInMonth(1900, 1) == 28 && DaysInMonth(2000, 1) == 29
    ensures IsLeapYear(0) && DaysInMonth(0, 1) == 28
  {
  }

  /** `firstDayOfMonth(year, month)`: the weekday of the month's first day. */
  function FirstDay(year: int, month: int): (w: int)
    ensures 0 <= w < 7
  {
    WeekDay(MakeDay(FullYear(year), month, 1))
  }

  /** 1 January 2024 was a Monday and 1 March 2024 a Friday. */
  lemma WeekdayExamples()
    ensures FirstDay(2024, 0) == 1
    ensures FirstDay(2024, 2) == 5
  {
    assert 0 / 12 == 0 && 0 % 12 == 0;
    assert 2 / 12 == 0 && 2 % 12 == 2;
    assert DayFromYear(2024) == 19723 by {
      assert 55 / 4 == 13 && 123 / 100 == 1 && 423 / 400 == 1;
    }
    assert IsLeapYear(2024) by {
      assert 2024 % 4 == 0 && 2024 % 100 == 24;
    }
    assert MonthStart(2024, 0) == 0 && MonthStart(2024, 2) == 60;
    assert (19723 + 4) % 7 == 1 && (19783 + 4) % 7 == 5;
  }

  /** The five choices of the time panel. */
  datatype TimeSlot = AnyTime | Morning | Afternoon | Evening | Custom

  const SlotLabels: seq<string> := ["Any time", "Morning", "Afternoon", "Evening", "Custom"]

  function Label(t: TimeSlot): (l: string)
    ensures l in SlotLabels
  {
    match t
    case AnyTime => SlotLabels[0]
    case Morning => SlotLabels[1]
    case Afternoon => SlotLabels[2]
    case Evening => SlotLabels[3]
    case Custom => SlotLabels[4]
  }

  /** Each label names one choice. */
  lemma LabelsName(a: TimeSlot, b: TimeSlot)
    ensures Label(a) == Label(b) <==> a == b
  {
    if a != b {
      var la, lb := Label(a), Label(b);
      assert la != lb by {
        assert |la| != |lb| || la[0] != lb[0];
      }
    }
  }

  /** The picker: the month on show, the selected day and the time choice. */
  datatype State = State(month: int, year: int, selected: int, slot: TimeSlot)

  predicate Valid(s: State) {
    0 <= s.month < 12
  }

  /** The picker opens on the current month with today selected and any time
      of day; the clock is a parameter. */
  function Init(nowYear: int, nowMonth: int, today: int): (s: State)
    requires 0 <= nowMonth < 12
    ensures Valid(s) && s.slot == AnyTime && Label(s.slot) == "Any time"
    ensures s.year == nowYear && s.month == nowMonth && s.selected == today
  {
    State(nowMonth, nowYear, today, AnyTime)
  }

  /** `handlePrevMonth` */
  function PrevMonth(s: State): (r: State)
    ensures Valid(s) ==> Valid(r)
    ensures Valid(s) ==> r.year * 12 + r.month == s.year * 12 + s.month - 1
    ensures r.selected == s.selected && r.slot == s.slot
  {
    if s.month == 0 then s.(month := 11, year := s.year - 1) else s.(month := s.month - 1)
  }

  /** `handleNextMonth` */
  function NextMonth(s: State): (r: State)
    ensures Valid(s) ==> Valid(r)
    ensures Valid(s) ==> r.year * 12 + r.month == s.year * 12 + s.month + 1
    ensures r.selected == s.selected && r.slot == s.slot
  {
    if s.month == 11 then s.(month := 0, year := s.year + 1) else s.(month := s.month + 1)
  }

  /** Going back a month and forward again, or forward and back, returns
      to the same month. */
  lemma PrevNextInverse(s: State)
    requires Valid(s)
    ensures NextMonth(PrevMonth(s)) == s
    ensures PrevMonth(NextMonth(s)) == s
  {
  }

  /** Moving by months follows the calendar: the month one further on is
      the first day of the next month's page. */
  lemma NextMonthStartsNext(s: State)
    requires Valid(s)
    ensures var r := NextMonth(s);
      MakeDay(FullYear(r.year), r.month, 1) == MakeDay(FullYear(s.year), s.month + 1, 1)
      || (s.year == -1 && s.month == 11)
      || (s.year == 99 && s.month == 11)
  {
    var r := NextMonth(s);
    assert r.month / 12 == 0 && r.month % 12 == r.month;
    if s.month == 11 {
      assert (s.month + 1) / 12 == 1 && (s.month + 1) % 12 == 0;
    } else {
      assert (s.month + 1) / 12 == 0 && (s.month + 1) % 12 == s.month + 1;
    }
  }

  /** `handleDateClick(day)`: the day `day` of the month on show. */
  function DateClick(s: State, day: int): (r: State)
    ensures 1 <= day <= DaysInMonth(s.year, s.month) ==>
      && MakeDay(FullYear(s.year), s.month, 1) <= r.selected < MakeDay(FullYear(s.year), s.month + 1, 1)
      && r.selected - MakeDay(FullYear(s.year), s.month, 1) == day - 1
    ensures r.month == s.month && r.year == s.year && r.slot == s.slot
  {
    DaysInMonthIsLastDate(s.year, s.month);
    s.(selected := MakeDay(FullYear(s.year), s.month, day))
  }

  /** A time-slot button. */
  function PickSlot(s: State, t: TimeSlot): (r: State)
    ensures r.slot == t && Label(r.slot) in SlotLabels
    ensures r.month == s.month && r.year == s.year && r.selected == s.selected
  {
    s.(slot := t)
  }

  /** A cell of the month grid: a blank before the first, or a day button. */
  datatype Cell = Blank(index: int) | DayButton(day: int, isSelected: bool)

  /** `renderCalendar`: `firstDay` blanks, then a button for each day of the
      month, the selected day's marked. */
  method RenderCalendar(s: State) returns (cells: seq<Cell>)
    ensures |cells| == FirstDay(s.year, s.month) + DaysInMonth(s.year, s.month)
    ensures forall i :: 0 <= i < FirstDay(s.year, s.month) ==> cells[i] == Blank(i)
    ensures forall i :: FirstDay(s.year, s.month) <= i < |cells| ==>
      var day := i - FirstDay(s.year, s.month) + 1;
      cells[i] == DayButton(day, MakeDay(FullYear(s.year), s.month, day) == s.selected)
  {
    var days := DaysInMonth(s.year, s.month);
    var firstDay := FirstDay(s.year, s.month);
    cells := [];
    var i := 0;
    while i < firstDay
      invariant 0 <= i <= firstDay
      invariant |cells| == i
      invariant forall k :: 0 <= k < i ==> cells[k] == Blank(k)
    {
      cells := cells + [Blank(i)];
      i := i + 1;
    }
    var day := 1;
    while day <= days
      invariant 1 <= day <= days + 1
      invariant |cells| == firstDay + day - 1
      invariant forall k :: 0 <= k < firstDay ==> cells[k] == Blank(k)
      invariant forall k :: firstDay <= k < |cells| ==>
        cells[k] == DayButton(k - firstDay + 1, MakeDay(FullYear(s.year), s.month, k - firstDay + 1) == s.selected)
    {
      var date := MakeDay(FullYear(s.year), s.month, day);
      cells := cells + [DayButton(day, date == s.selected)];
      day := day + 1;
    }
  }

  /** After a click on a day, that day's button is the only one marked. */
  lemma ClickMarksOneDay(s: State, day: int, other: int)
    requires 1 <= day <= DaysInMonth(s.year, s.month)
    requires 1 <= other <= DaysInMonth(s.year, s.month)
    ensures var r := DateClick(s, day);
      MakeDay(FullYear(r.year), r.month, other) == r.selected <==> other == day
  {
  }

  /** The bar is hidden on the home page. */
  predicate Visible(pathname: string)
    ensures pathname == "/" ==> !Visible(pathname)
    ensures "/" < pathname ==> Visible(pathname)
  {
    pathname != "/"
  }
}

=== FILE: service_list.dfy ===
/** The venue's service list (components/venue/service-list.tsx): category
    pills, the rows of the active category, an empty-state message, and a
    Book button that puts a copy of the service in the cart. */
module ServiceList {
  import opened Wrappers
  import opened Js

  datatype Service = Service(id: string, categoryId: string, name: string, description: string, duration: string, price: int)

  /** The category pills, in order. */
  const Categories: seq<string> := ["featured", "haircut", "beard", "combo"]

  /** The services on offer, in order (prices in ringgit). */
  const Services: seq<Service> := [
    Service("1", "featured", "Senior Barber", "Haircut with Senior Barber", "45 mins", 40),
    Service("2", "featured", "Master Barber", "Haircut with Master Barber", "45 mins", 50),
    Service("3", "haircut", "Junior Barber", "Standard haircut", "60 mins", 30),
    Service("4", "beard", "Beard Trim", "Shape up and trim", "30 mins", 25)]

  /** The pill selected when the list first renders. */
  const InitialCategory := "featured"

  /** The pseudo-category the row filter treats as "everything". */
  const All := "all"

  predicate Shown(active: string, s: Service) {
    active == s.categoryId || active == All
  }

  /** The rows: the services the filter keeps, in their original order. */
  function Rows(active: string, services: seq<Service>): (r: seq<Service>)
    ensures forall s :: s in r <==> s in services && Shown(active, s)
    ensures forall i :: 0 <= i < |r| ==> Shown(active, r[i])
    ensures |r| <= |services|
  {
    if |services| == 0 then []
    else if Shown(active, services[0]) then [services[0]] + Rows(active, services[1..])
    else Rows(active, services[1..])
  }

  /** Filtering a concatenation filters each part and keeps them in order:
      the rows are the shown services in their original order. */
  lemma {:induction false} RowsAppend(active: string, a: seq<Service>, b: seq<Service>)
    ensures Rows(active, a + b) == Rows(active, a) + Rows(active, b)
  {
    if |a| > 0 {
      assert (a + b)[1..] == a[1..] + b;
      RowsAppend(active, a[1..], b);
    } else {
      assert a + b == b;
    }
  }

  /** Under "all" every service is a row, in order. */
  lemma {:induction false} RowsAll(services: seq<Service>)
    ensures Rows(All, services) == services
  {
    if |services| > 0 {
      RowsAll(services[1..]);
      assert Shown(All, services[0]);
      assert Rows(All, services) == [services[0]] + services[1..];
    }
  }

  /** The empty-state message: no service has exactly the active category.
      Unlike the rows, this test does not treat "all" specially. */
  function MatchCount(active: string, services: seq<Service>): (n: nat)
    ensures n == 0 <==> forall s :: s in services ==> s.categoryId != active
    ensures n <= |services|
  {
    if |services| == 0 then 0
    else (if services[0].categoryId == active then 1 else 0) + MatchCount(active, services[1..])
  }

  predicate ShowsEmptyState(active: string, services: seq<Service>) {
    MatchCount(active, services) == 0
  }

  /** For a real category the message appears exactly when there are no rows. */
  lemma EmptyStateIffNoRows(active: string, services: seq<Service>)
    requires active != All
    ensures ShowsEmptyState(active, services) <==> Rows(active, services) == []
  {
    if Rows(active, services) != [] {
      assert Rows(active, services)[0] in Rows(active, services);
    }
  }

  /** No row and the message when no service is in the category. */
  lemma NoMatch(active: string, services: seq<Service>)
    requires active != All
    requires forall i :: 0 <= i < |services| ==> services[i].categoryId != active
    ensures Rows(active, services) == [] && ShowsEmptyState(active, services)
  {
  }

  /** The shipped data: the initial pill lists the two featured services. */
  lemma FeaturedRows()
    ensures Rows(InitialCategory, Services) == [Services[0], Services[1]]
  {
    var head, tail := [Services[0], Services[1]], [Services[2], Services[3]];
    assert Services == head + tail;
    RowsAppend(InitialCategory, head, tail);
    assert tail[0].categoryId[0] != 'f' && tail[1].categoryId[0] != 'f';
    NoMatch(InitialCategory, tail);
  }

  /** "combo" has no service: no rows, and the message. */
  lemma ComboIsEmpty()
    ensures Rows("combo", Services) == [] && ShowsEmptyState("combo", Services)
  {
    forall i | 0 <= i < |Services| ensures Services[i].categoryId != "combo" {
      assert Services[i].categoryId[0] != 'c';
    }
    NoMatch("combo", Services);
  }

  /** No service is in "all", so under "all" the list would show every row
      and the empty-state message together. */
  lemma AllShowsRowsAndMessage()
    ensures Rows(All, Services) == Services && ShowsEmptyState(All, Services)
  {
    RowsAll(Services);
    NoServiceInAll();
    EmptyStateOf(All, Services);
  }

  lemma NoServiceInAll()
    ensures forall i :: 0 <= i < |Services| ==> Services[i].categoryId != All
  {
    forall i | 0 <= i < |Services| ensures Services[i].categoryId != All {
      assert Services[i].categoryId[0] != 'a';
    }
  }

  lemma EmptyStateOf(active: string, services: seq<Service>)
    requires forall i :: 0 <= i < |services| ==> services[i].categoryId != active
    ensures ShowsEmptyState(active, services)
  {
  }

  /** The service as the object literal above writes it. */
  function ServiceObject(s: Service): (o: Entries<Value>)
    ensures DistinctKeys(o)
  {
    var o := [("id", Str(s.id)), ("categoryId", Str(s.categoryId)), ("name", Str(s.name)),
              ("description", Str(s.description)), ("duration", Str(s.duration)), ("price", Num(s.price))];
    assert DistinctKeys(o) by {
      forall i, j | 0 <= i < j < 6 ensures Keys(o)[i] != Keys(o)[j] {
        assert |Keys(o)[i]| != |Keys(o)[j]|;
      }
    }
    o
  }

  /** `{ ...service, quantity: 1 }`: a fresh object with the service's own
      properties, then `quantity`. */
  function CartLine(service: Entries<Value>): Entries<Value> {
    Spread(service, [("quantity", Num(1))])
  }

  /** A cart line copies every property of the service but `quantity`, and
      its `quantity` is 1 even when the service had one of its own. */
  lemma CartLineFields(service: Entries<Value>)
    requires DistinctKeys(service)
    ensures DistinctKeys(CartLine(service))
    ensures Lookup(CartLine(service), "quantity") == Some(Num(1))
    ensures forall k :: k != "quantity" ==> Lookup(CartLine(service), k) == Lookup(service, k)
    ensures forall k :: k in Keys(CartLine(service)) <==> k in Keys(service) || k == "quantity"
  {
    var one: Entries<Value> := [("quantity", Num(1))];
    SpreadLookup(service, one);
    assert Keys(one) == ["quantity"];
    forall k ensures k in Keys(CartLine(service)) <==> k in Keys(service) || k == "quantity" {
      assert Lookup(CartLine(service), k).Some? <==> k in Keys(CartLine(service));
    }
  }

  /** Book: the line added to the cart for a service. */
  function Book(s: Service): (item: Entries<Value>)
    ensures DistinctKeys(item)
    ensures Lookup(item, "quantity") == Some(Num(1))
    ensures forall k :: k != "quantity" ==> Lookup(item, k) == Lookup(ServiceObject(s), k)
    ensures Lookup(item, "id") == Some(Str(s.id)) && Lookup(item, "price") == Some(Num(s.price))
  {
    var o := ServiceObject(s);
    CartLineFields(o);
    assert "id" != "quantity" && "price" != "quantity" by {
      assert |"id"| != |"quantity"| && |"price"| != |"quantity"|;
    }
    LookupDistinct(o, 0);
    LookupDistinct(o, 5);
    CartLine(o)
  }
}

=== FILE: shop_actions.dfy ===
/** The shop server actions (app/actions/shop.ts): the requests they make
    and how they read the replies. */
module ShopActions {
  import opened Wrappers
  import opened Sorting
  import opened Js
  import Api
  import opened ActionResults

  const InvalidFormat := "Invalid response format"
  const BookingFailed := "Failed to create booking"

  // ---------------------------------------------------------------------------
  // Reading replies

  /** `fetchShopDetails`: the reply's `data` as it is. */
  function ReadDetails(response: Value): (c: Completion<ActionResult>)
    ensures c.Throw? <==> Nullish(response)
    ensures c.Normal? && Truthy(Field(response, "success")) && Truthy(Field(response, "data")) ==>
      c.value == Succeeded(Some(Field(response, "data")))
    ensures c.Normal? && !(Truthy(Field(response, "success")) && Truthy(Field(response, "data"))) ==>
      c.value == Failed(InvalidFormat)
  {
    var both :- SuccessAndData(response);
    if Truthy(both) then Normal(Succeeded(Some(both))) else Normal(Failed(InvalidFormat))
  }

  /** The list a reply's `data` holds: its own `data` when that is an array
      (a paginated envelope), otherwise `data` itself. */
  function UnwrapList(data: Value): Value {
    var inner := Field(data, "data");
    if inner.Arr? then inner else data
  }

  /** The list fetchers: categories, services and both specialist lists. */
  function ReadList(response: Value): (c: Completion<ActionResult>)
    ensures c.Throw? <==> Nullish(response)
    ensures c.Normal? && Truthy(Field(response, "success")) && Truthy(Field(response, "data")) ==>
      c.value == Succeeded(Some(UnwrapList(Field(response, "data"))))
    ensures c.Normal? && !(Truthy(Field(response, "success")) && Truthy(Field(response, "data"))) ==>
      c.value == Failed(InvalidFormat)
  {
    var both :- SuccessAndData(response);
    if !Truthy(both) then Normal(Failed(InvalidFormat))
    else
      // `both` is truthy, so reading its `data` cannot throw
      var inner := Field(both, "data");
      Normal(Succeeded(Some(if inner.Arr? then inner else both)))
  }

  /** `createBooking`: `success` alone decides, and the error text is the
      first truthy of `message`, `error.message` and the fixed fallback. */
  function ReadBooking(response: Value): (c: Completion<ActionResult>)
    ensures c.Throw? <==> Nullish(response)
    ensures c.Normal? && Truthy(Field(response, "success")) ==> c.value == Succeeded(Some(Field(response, "data")))
    ensures c.Normal? && !Truthy(Field(response, "success")) ==> c.value == Failed(FailureText(response, BookingFailed))
  {
    var success :- Get(response, "success");
    if Truthy(success) then
      // `response` was read from, so reading its `data` cannot throw
      Normal(Succeeded(Some(Field(response, "data"))))
    else Normal(Failed(FailureText(response, BookingFailed)))
  }

  /** `{ success: true, data }` as a reply object. */
  function Envelope(data: Value): Value {
    Obj([("success", Bool(true)), ("data", data)])
  }

  lemma EnvelopeFields(data: Value)
    ensures Field(Envelope(data), "success") == Bool(true)
    ensures Field(Envelope(data), "data") == data
  {
    var e: Entries<Value> := [("success", Bool(true)), ("data", data)];
    assert Lookup(e, "data") == Some(data) by {
      assert e[1..] == [("data", data)];
    }
  }

  /** A flat list and a paginated envelope around the same list read alike. */
  lemma ListEnvelopes(items: seq<Value>, page: Entries<Value>)
    requires Lookup(page, "data") == Some(Arr(items))
    ensures ReadList(Envelope(Arr(items))) == Normal(Succeeded(Some(Arr(items))))
    ensures ReadList(Envelope(Obj(page))) == Normal(Succeeded(Some(Arr(items))))
  {
    EnvelopeFields(Arr(items));
    EnvelopeFields(Obj(page));
    assert UnwrapList(Arr(items)) == Arr(items);
    assert UnwrapList(Obj(page)) == Arr(items);
  }

  /** A shop-details reply is not unwrapped, and a booking reply without
      `data` still succeeds where the list readers fail. */
  lemma ReadersDiffer(items: seq<Value>)
    ensures var page := Obj([("data", Arr(items))]);
      ReadDetails(Envelope(page)) == Normal(Succeeded(Some(page)))
    ensures ReadBooking(Obj([("success", Bool(true))])) == Normal(Succeeded(Some(Undefined)))
    ensures ReadList(Obj([("success", Bool(true))])) == Normal(Failed(InvalidFormat))
  {
    EnvelopeFields(Obj([("data", Arr(items))]));
    var bare: Entries<Value> := [("success", Bool(true))];
    assert Lookup(bare, "data") == None by {
      assert bare[1..] == [];
    }
  }

  // ---------------------------------------------------------------------------
  // Requests

  /** `category ? { params: { category } } : {}` */
  function ServicesOptions(category: Option<string>): Api.FetchOptions {
    if category.Some? && category.value != "" then
      Api.NoOptions.(params := Some([("category", Str(category.value))]))
    else Api.NoOptions
  }

  /** The services query carries `category` exactly when one is given and non-empty. */
  lemma ServicesQuery(category: Option<string>)
    ensures Api.QueryPairs(ServicesOptions(category).params) ==
      if category.Some? && category.value != "" then [("category", category.value)] else []
  {
    if category.Some? && category.value != "" {
      var e: Entries<Value> := [("category", Str(category.value))];
      assert !IsArrayIndex("category") by {
        assert !Decimal.IsDigit('c');
      }
      assert OwnKeys(["category"]) == ["category"] by {
        assert IndexKeys(["category"]) == [] by {
          assert ["category"][1..] == [];
        }
        assert NamedKeys(["category"]) == ["category"] by {
          assert ["category"][1..] == [];
        }
      }
      assert Keys(e) == ["category"];
      assert OwnEntries(e) == e by {
        assert Lookup(e, "category") == Some(Str(category.value));
      }
      assert Api.QueryOf(e) == [("category", category.value)] by {
        assert e[1..] == [];
        assert Api.QueryOf([]) == [];
        assert ToJsString(Str(category.value)) == category.value;
      }
    }
  }

  /** `{ service_id }`, with `gender` added unless it is empty or "Any". */
  function SpecialistsData(serviceId: string, gender: Option<string>): (d: Entries<Value>)
    ensures DistinctKeys(d)
    ensures Lookup(d, "service_id") == Some(Str(serviceId))
    ensures Lookup(d, "gender") ==
      if gender.Some? && gender.value != "" && gender.value != "Any" then Some(Str(gender.value)) else None
    ensures forall k :: k in Keys(d) ==> k == "service_id" || k == "gender"
  {
    var base: Entries<Value> := [("service_id", Str(serviceId))];
    assert Keys(base) == ["service_id"];
    assert "gender" != "service_id" by {
      assert |"gender"| != |"service_id"|;
    }
    if gender.Some? && gender.value != "" && gender.value != "Any" then
      PutKeys(base, "gender", Str(gender.value));
      PutLookup(base, "gender", Str(gender.value), "service_id");
      PutLookup(base, "gender", Str(gender.value), "gender");
      Put(base, "gender", Str(gender.value))
    else
      base
  }

  /** `{ service_id, specialist_id, date }` */
  function AvailabilityData(serviceId: string, specialistId: string, date: string): (d: Entries<Value>)
    ensures Keys(d) == ["service_id", "specialist_id", "date"]
    ensures DistinctKeys(d)
    ensures Lookup(d, "service_id") == Some(Str(serviceId))
    ensures Lookup(d, "specialist_id") == Some(Str(specialistId))
    ensures Lookup(d, "date") == Some(Str(date))
  {
    var d := [("service_id", Str(serviceId)), ("specialist_id", Str(specialistId)), ("date", Str(date))];
    assert d[1..][1..][1..] == [];
    assert |"service_id"| == 10 && |"specialist_id"| == 13 && |"date"| == 4;
    LookupDistinct(d, 0);
    LookupDistinct(d, 1);
    LookupDistinct(d, 2);
    d
  }

  /** The fields of the `BookingPayload` interface; `notes` and `email` are optional. */
  datatype BookingPayload = BookingPayload(
    serviceId: string, staffId: string, date: string, startTime: string,
    name: string, number: string, gender: string,
    notes: Option<string>, email: Option<string>)

  const RequiredBookingKeys: seq<string> :=
    ["service_id", "staff_id", "date", "start_time", "name", "number", "gender"]

  const OptionalBookingKeys: seq<string> := ["notes", "email"]

  /** The value the interface gives property `k` of `p`: None for a name it
      does not declare and for an optional field left out. */
  function PayloadField(p: BookingPayload, k: string): (v: Option<Value>)
    ensures v.Some? <==> k in RequiredBookingKeys || (k == "notes" && p.notes.Some?) || (k == "email" && p.email.Some?)
  {
    if k == "service_id" then Some(Str(p.serviceId))
    else if k == "staff_id" then Some(Str(p.staffId))
    else if k == "date" then Some(Str(p.date))
    else if k == "start_time" then Some(Str(p.startTime))
    else if k == "name" then Some(Str(p.name))
    else if k == "number" then Some(Str(p.number))
    else if k == "gender" then Some(Str(p.gender))
    else if k == "notes" then (if p.notes.Some? then Some(Str(p.notes.value)) else None)
    else if k == "email" then (if p.email.Some? then Some(Str(p.email.value)) else None)
    else None
  }

  /** An object a caller may pass for `p`. The interface fixes which
      properties it has and their values; it fixes no order, so the
      properties may come in any order. */
  ghost predicate Carries(o: Entries<Value>, p: BookingPayload) {
    DistinctKeys(o) && forall k :: Lookup(o, k) == PayloadField(p, k)
  }

  /** One such object: the fields in the order the interface lists them. */
  function PayloadObject(p: BookingPayload): Entries<Value> {
    RequiredEntries(p)
    + (if p.notes.Some? then [("notes", Str(p.notes.value))] else [])
    + (if p.email.Some? then [("email", Str(p.email.value))] else [])
  }

  function RequiredEntries(p: BookingPayload): Entries<Value> {
    [ ("service_id", Str(p.serviceId)), ("staff_id", Str(p.staffId)), ("date", Str(p.date)),
      ("start_time", Str(p.startTime)), ("name", Str(p.name)), ("number", Str(p.number)),
      ("gender", Str(p.gender)) ]
  }

  lemma BookingNamesDistinct()
    ensures Distinct(RequiredBookingKeys + OptionalBookingKeys)
  {
    var all := RequiredBookingKeys + OptionalBookingKeys;
    // lengths 10, 8, 4, 10, 4, 6, 6, 5, 5; equal lengths differ in a letter
    assert |all[0]| == 10 && |all[1]| == 8 && |all[2]| == 4 && |all[3]| == 10 && |all[4]| == 4;
    assert |all[5]| == 6 && |all[6]| == 6 && |all[7]| == 5 && |all[8]| == 5;
    assert all[0][1] != all[3][1];
    assert all[2][0] != all[4][0];
    assert all[5][0] != all[6][0];
    assert all[7][0] != all[8][0];
  }

  /** Which keys an optional field contributes. */
  function OptionalKey(present: bool, k: string): seq<string> {
    if present then [k] else []
  }

  lemma RequiredKeys(p: BookingPayload)
    ensures Keys(RequiredEntries(p)) == RequiredBookingKeys
  {
    var r := RequiredEntries(p);
    assert r[1..][1..][1..][1..][1..][1..][1..] == [];
  }

  lemma PayloadObjectKeys(p: BookingPayload)
    ensures Keys(PayloadObject(p)) ==
      RequiredBookingKeys + OptionalKey(p.notes.Some?, "notes") + OptionalKey(p.email.Some?, "email")
  {
    var req := RequiredEntries(p);
    var notes: Entries<Value> := if p.notes.Some? then [("notes", Str(p.notes.value))] else [];
    var email: Entries<Value> := if p.email.Some? then [("email", Str(p.email.value))] else [];
    KeysAppend(req + notes, email);
    KeysAppend(req, notes);
    RequiredKeys(p);
  }

  lemma PayloadObjectDistinct(p: BookingPayload)
    ensures DistinctKeys(PayloadObject(p))
  {
    PayloadObjectKeys(p);
    BookingNamesDistinct();
    var all := RequiredBookingKeys + OptionalBookingKeys;
    var ks := Keys(PayloadObject(p));
    forall i, j | 0 <= i < j < |ks| ensures ks[i] != ks[j] {
      var i' := if i < 7 then i else if ks[i] == "notes" then 7 else 8;
      var j' := if j < 7 then j else if ks[j] == "notes" then 7 else 8;
      assert ks[i] == all[i'] && ks[j] == all[j'];
      assert i' < j';
    }
  }

  lemma RequiredField(p: BookingPayload, i: int)
    requires 0 <= i < 7
    ensures PayloadField(p, RequiredEntries(p)[i].0) == Some(RequiredEntries(p)[i].1)
  {
    var r := RequiredEntries(p);
    if i == 0 {
    } else if i == 1 {
    } else if i == 2 {
    } else if i == 3 {
      assert r[3].0[1] != "service_id"[1];
    } else if i == 4 {
      assert r[4].0[0] != "date"[0];
    } else if i == 5 {
    } else {
      assert r[6].0[0] != "number"[0];
    }
  }

  lemma FieldAt(p: BookingPayload, i: int)
    requires 0 <= i < |PayloadObject(p)|
    ensures PayloadField(p, PayloadObject(p)[i].0) == Some(PayloadObject(p)[i].1)
  {
    var req := RequiredEntries(p);
    var notes: Entries<Value> := if p.notes.Some? then [("notes", Str(p.notes.value))] else [];
    var email: Entries<Value> := if p.email.Some? then [("email", Str(p.email.value))] else [];
    var o := PayloadObject(p);
    assert o == req + notes + email;
    if i < 7 {
      assert o[i] == req[i];
      RequiredField(p, i);
    } else {
      BookingNamesDistinct();
      var all := RequiredBookingKeys + OptionalBookingKeys;
      assert "notes" == all[7] && "email" == all[8];
      assert "notes" !in RequiredBookingKeys && "email" !in RequiredBookingKeys by {
        forall j | 0 <= j < 7 ensures RequiredBookingKeys[j] != "notes" && RequiredBookingKeys[j] != "email" {
          assert all[j] == RequiredBookingKeys[j];
        }
      }
      if i == 7 && p.notes.Some? {
        assert o[i] == ("notes", Str(p.notes.value));
      } else {
        assert o[i] == ("email", Str(p.email.value));
      }
    }
  }

  /** Every payload can be passed: the object listing its fields in the
      interface's order carries it. */
  lemma PayloadObjectCarries(p: BookingPayload)
    ensures Carries(PayloadObject(p), p)
  {
    var o := PayloadObject(p);
    PayloadObjectDistinct(p);
    PayloadObjectKeys(p);
    forall k ensures Lookup(o, k) == PayloadField(p, k) {
      if k in Keys(o) {
        var i :| 0 <= i < |o| && Keys(o)[i] == k;
        LookupDistinct(o, i);
        FieldAt(p, i);
      } else {
        assert k !in RequiredBookingKeys;
        assert !(k == "notes" && p.notes.Some?) && !(k == "email" && p.email.Some?);
      }
    }
  }

  /** An object carrying a payload has exactly the seven required keys and
      the optional ones that are given, in whatever order the caller chose. */
  lemma BookingKeys(o: Entries<Value>, p: BookingPayload)
    requires Carries(o, p)
    ensures forall k :: k in Keys(o) <==>
      k in RequiredBookingKeys || (k == "notes" && p.notes.Some?) || (k == "email" && p.email.Some?)
  {
    forall k ensures k in Keys(o) <==>
      k in RequiredBookingKeys || (k == "notes" && p.notes.Some?) || (k == "email" && p.email.Some?)
    {
      assert Lookup(o, k) == PayloadField(p, k);
    }
  }

  /** An optional field is in the object exactly when it is given. */
  lemma OptionalKeysPresent(o: Entries<Value>, p: BookingPayload)
    requires Carries(o, p)
    ensures "notes" in Keys(o) <==> p.notes.Some?
    ensures "email" in Keys(o) <==> p.email.Some?
  {
    BookingKeys(o, p);
    BookingNamesDistinct();
    var all := RequiredBookingKeys + OptionalBookingKeys;
    assert all[7] == "notes" && all[8] == "email";
    assert "notes" !in RequiredBookingKeys && "email" !in RequiredBookingKeys by {
      forall i | 0 <= i < 7 ensures RequiredBookingKeys[i] != "notes" && RequiredBookingKeys[i] != "email" {
        assert all[i] == RequiredBookingKeys[i];
      }
    }
  }

  /** `{ ...payload }`: a fresh object with the caller's own properties. */
  function BookingData(o: Entries<Value>): Entries<Value> {
    Spread([], o)
  }

  /** The booking body carries the same payload as the caller's object:
      the same fields, each once, with the same values. */
  lemma BookingDataCopies(o: Entries<Value>, p: BookingPayload)
    requires Carries(o, p)
    ensures Carries(BookingData(o), p)
  {
    SpreadLookup([], o);
    var none: Entries<Value> := [];
    assert Keys(none) == [];
  }

  // ---------------------------------------------------------------------------
  // The actions

  function DetailsCall(): Call { Call("", Api.NoOptions) }
  function CategoriesCall(): Call { Call("/categories", Api.NoOptions) }
  function ServicesCall(category: Option<string>): Call { Call("/services", ServicesOptions(category)) }
  function AllSpecialistsCall(): Call { Call("/specialists/all", Api.NoOptions) }

  function PostCall(endpoint: string, data: Entries<Value>): Call {
    Call(endpoint, Api.NoOptions.(httpMethod := Some("POST"), data := Some(data)))
  }

  function ServiceSpecialistsCall(serviceId: string, gender: Option<string>): Call {
    PostCall("/specialists", SpecialistsData(serviceId, gender))
  }

  function AvailabilityCall(serviceId: string, specialistId: string, date: string): Call {
    PostCall("/availability/timeslots", AvailabilityData(serviceId, specialistId, date))
  }

  function BookingCall(payload: Entries<Value>): Call {
    PostCall("/bookings", BookingData(payload))
  }

  function FetchShopDetails(env: Api.Env): (r: ActionResult)
    ensures Promised(env, DetailsCall(), ReadDetails, r)
    ensures Delivered(env, DetailsCall()) ==> (r.Succeeded? <==> Accepted(Answer(env, DetailsCall())))
    ensures r.Succeeded? ==> Delivered(env, DetailsCall()) && r.data == Some(Field(Answer(env, DetailsCall()), "data"))
    ensures Delivered(env, DetailsCall()) && !Nullish(Answer(env, DetailsCall())) && !Accepted(Answer(env, DetailsCall())) ==>
      r == Failed(InvalidFormat)
  {
    Perform(env, DetailsCall(), ReadDetails)
  }

  /** A list fetcher's call, performed and read as a list. */
  function ListAction(env: Api.Env, call: Call): (r: ActionResult)
    ensures Promised(env, call, ReadList, r)
    ensures Delivered(env, call) ==> (r.Succeeded? <==> Accepted(Answer(env, call)))
    ensures r.Succeeded? ==> Delivered(env, call) && r.data == Some(UnwrapList(Field(Answer(env, call), "data")))
    ensures Delivered(env, call) && !Nullish(Answer(env, call)) && !Accepted(Answer(env, call)) ==>
      r == Failed(InvalidFormat)
  {
    Perform(env, call, ReadList)
  }

  function FetchCategories(env: Api.Env): (r: ActionResult)
    ensures Promised(env, CategoriesCall(), ReadList, r)
    ensures Delivered(env, CategoriesCall()) ==> (r.Succeeded? <==> Accepted(Answer(env, CategoriesCall())))
    ensures r.Succeeded? ==> Delivered(env, CategoriesCall()) && r.data == Some(UnwrapList(Field(Answer(env, CategoriesCall()), "data")))
    ensures Delivered(env, CategoriesCall()) && !Nullish(Answer(env, CategoriesCall())) && !Accepted(Answer(env, CategoriesCall())) ==>
      r == Failed(InvalidFormat)
  {
    ListAction(env, CategoriesCall())
  }

  function FetchServices(env: Api.Env, category: Option<string>): (r: ActionResult)
    ensures Promised(env, ServicesCall(category), ReadList, r)
    ensures Delivered(env, ServicesCall(category)) ==> (r.Succeeded? <==> Accepted(Answer(env, ServicesCall(category))))
    ensures r.Succeeded? ==> Delivered(env, ServicesCall(category)) && r.data == Some(UnwrapList(Field(Answer(env, ServicesCall(category)), "data")))
    ensures Delivered(env, ServicesCall(category)) && !Nullish(Answer(env, ServicesCall(category))) && !Accepted(Answer(env, ServicesCall(category))) ==>
      r == Failed(InvalidFormat)
  {
    ListAction(env, ServicesCall(category))
  }

  function FetchAllSpecialists(env: Api.Env): (r: ActionResult)
    ensures Promised(env, AllSpecialistsCall(), ReadList, r)
    ensures Delivered(env, AllSpecialistsCall()) ==> (r.Succeeded? <==> Accepted(Answer(env, AllSpecialistsCall())))
    ensures r.Succeeded? ==> Delivered(env, AllSpecialistsCall()) && r.data == Some(UnwrapList(Field(Answer(env, AllSpecialistsCall()), "data")))
    ensures Delivered(env, AllSpecialistsCall()) && !Nullish(Answer(env, AllSpecialistsCall())) && !Accepted(Answer(env, AllSpecialistsCall())) ==>
      r == Failed(InvalidFormat)
  {
    ListAction(env, AllSpecialistsCall())
  }

  function FetchServiceSpecialists(env: Api.Env, serviceId: string, gender: Option<string>): (r: ActionResult)
    ensures Promised(env, ServiceSpecialistsCall(serviceId, gender), ReadList, r)
    ensures Delivered(env, ServiceSpecialistsCall(serviceId, gender)) ==> (r.Succeeded? <==> Accepted(Answer(env, ServiceSpecialistsCall(serviceId, gender))))
    ensures r.Succeeded? ==> Delivered(env, ServiceSpecialistsCall(serviceId, gender)) && r.data == Some(UnwrapList(Field(Answer(env, ServiceSpecialistsCall(serviceId, gender)), "data")))
    ensures Delivered(env, ServiceSpecialistsCall(serviceId, gender)) && !Nullish(Answer(env, ServiceSpecialistsCall(serviceId, gender))) && !Accepted(Answer(env, ServiceSpecialistsCall(serviceId, gender))) ==>
      r == Failed(InvalidFormat)
  {
    ListAction(env, ServiceSpecialistsCall(serviceId, gender))
  }

  function FetchAvailability(env: Api.Env, serviceId: string, specialistId: string, date: string): (r: ActionResult)
    ensures Promised(env, AvailabilityCall(serviceId, specialistId, date), ReadList, r)
    ensures Delivered(env, AvailabilityCall(serviceId, specialistId, date)) ==> (r.Succeeded? <==> Accepted(Answer(env, AvailabilityCall(serviceId, specialistId, date))))
    ensures r.Succeeded? ==> Delivered(env, AvailabilityCall(serviceId, specialistId, date)) && r.data == Some(UnwrapList(Field(Answer(env, AvailabilityCall(serviceId, specialistId, date)), "data")))
    ensures Delivered(env, AvailabilityCall(serviceId, specialistId, date)) && !Nullish(Answer(env, AvailabilityCall(serviceId, specialistId, date))) && !Accepted(Answer(env, AvailabilityCall(serviceId, specialistId, date))) ==>
      r == Failed(InvalidFormat)
  {
    ListAction(env, AvailabilityCall(serviceId, specialistId, date))
  }

  /** `createBooking(payload)` with the caller's payload object. */
  function CreateBooking(env: Api.Env, payload: Entries<Value>): (r: ActionResult)
    ensures Promised(env, BookingCall(payload), ReadBooking, r)
    ensures Delivered(env, BookingCall(payload)) ==> (r.Succeeded? <==> SuccessFlag(Answer(env, BookingCall(payload))))
    ensures r.Succeeded? ==> Delivered(env, BookingCall(payload)) && r.data == Some(Field(Answer(env, BookingCall(payload)), "data"))
    ensures Delivered(env, BookingCall(payload)) && !Nullish(Answer(env, BookingCall(payload))) && !SuccessFlag(Answer(env, BookingCall(payload))) ==>
      r == Failed(FailureText(Answer(env, BookingCall(payload)), BookingFailed))
  {
    Perform(env, BookingCall(payload), ReadBooking)
  }

  /** A reply of null reaches the `catch` as the TypeError of reading
      `success` off null, and comes back as a failed result. */
  lemma NullReply()
    ensures Run(Normal(Null), ReadList) == Failed(NullSuccessRead)
    ensures Run(Normal(Null), ReadBooking) == Failed(NullSuccessRead)
  {
    assert ReadError("null", "success").message == NullSuccessRead;
  }

  const NullSuccessRead := "Cannot read properties of null (reading 'success')"
}

=== FILE: sidebar.dfy ===
/** The merchant sidebar (components/merchant/layout/Sidebar.tsx): five
    navigation links, one of which is highlighted for the current path. */
module Sidebar {
  import opened Js

  datatype NavItem = NavItem(name: string, href: string)

  const Dashboard := "/merchant"

  /** The links, in the order shown. */
  const NavItems: seq<NavItem> := [
    NavItem("Dashboard", Dashboard),
    NavItem("Calendar", "/merchant/calendar"),
    NavItem("Bookings", "/merchant/bookings"),
    NavItem("Clients", "/merchant/clients"),
    NavItem("Settings", "/merchant/settings")]

  /** The dashboard link matches its path exactly; every other link matches
      any path that starts with its href. */
  predicate IsActive(item: NavItem, pathname: string)
    ensures IsActive(item, pathname) ==> item.href <= pathname
  {
    if item.href == Dashboard then pathname == Dashboard else StartsWith(pathname, item.href)
  }

  /** Two prefixes of one text: the shorter is a prefix of the longer. */
  lemma PrefixesNest(a: string, b: string, p: string)
    requires a <= p && b <= p && |a| <= |b|
    ensures a <= b
  {
    assert forall i :: 0 <= i < |a| ==> a[i] == p[i] == b[i];
  }

  /** No href other than the dashboard's is a prefix of another one, and
      none of them is a prefix of the dashboard's path. */
  lemma HrefsApart(i: int, j: int)
    requires 1 <= i < |NavItems| && 1 <= j < |NavItems| && i != j
    ensures !(NavItems[i].href <= NavItems[j].href)
    ensures !(NavItems[i].href <= Dashboard)
  {
    var a, b := NavItems[i].href, NavItems[j].href;
    assert |a| > |Dashboard|;
    if |a| <= |b| {
      if i == 1 || j == 1 {
        if i == 3 || j == 3 {
          assert a[11] != b[11];
        } else {
          assert a[10] != b[10];
        }
      } else {
        assert a[10] != b[10];
      }
    }
  }

  /** No path makes two links active. */
  lemma ActiveUnique(pathname: string, i: int, j: int)
    requires 0 <= i < |NavItems| && 0 <= j < |NavItems|
    requires IsActive(NavItems[i], pathname) && IsActive(NavItems[j], pathname)
    ensures i == j
  {
    if i != 0 && j != 0 && i != j {
      var a, b := NavItems[i].href, NavItems[j].href;
      HrefsApart(i, j);
      HrefsApart(j, i);
      if |a| <= |b| { PrefixesNest(a, b, pathname); } else { PrefixesNest(b, a, pathname); }
    }
  }

  /** The highlight of each link, in order. At most one link is highlighted:
      the dashboard exactly on its own path, any other on the paths under
      its href. */
  function Highlights(pathname: string): (r: seq<bool>)
    ensures |r| == |NavItems|
    ensures r[0] <==> pathname == Dashboard
    ensures forall i :: 1 <= i < |r| ==> (r[i] <==> NavItems[i].href <= pathname)
    ensures forall i, j :: 0 <= i < |r| && 0 <= j < |r| && r[i] && r[j] ==> i == j
  {
    var r := [
      IsActive(NavItems[0], pathname),
      IsActive(NavItems[1], pathname),
      IsActive(NavItems[2], pathname),
      IsActive(NavItems[3], pathname),
      IsActive(NavItems[4], pathname)];
    assert forall i :: 0 <= i < |r| ==> r[i] == IsActive(NavItems[i], pathname);
    assert forall i, j :: 0 <= i < |r| && 0 <= j < |r| && r[i] && r[j] ==> i == j by {
      forall i, j | 0 <= i < |r| && 0 <= j < |r| && r[i] && r[j] ensures i == j {
        ActiveUnique(pathname, i, j);
      }
    }
    r
  }

  /** A path below the merchant area never highlights the dashboard, and a
      path that only extends an href's text, such as "/merchant/bookings-x",
      still highlights that link. */
  lemma SubpathExamples()
    ensures !Highlights("/merchant/bookings")[0]
    ensures Highlights("/merchant/bookings-x")[2]
    ensures Highlights("/merchant/clients/7")[3]
    ensures !Highlights("/merchant/calendar")[3]
  {
    assert "/merchant/bookings" <= "/merchant/bookings-x";
    assert "/merchant/clients" <= "/merchant/clients/7";
    assert "/merchant/calendar"[11] != "/merchant/clients"[11];
  }
}

=== FILE: sorting.dfy ===
/** Insertion sort over a strict total order, and the uniqueness of strictly
    sorted sequences: the fact that makes a key-sorted serialisation
    independent of the order in which the keys were inserted. */
module Sorting {

  /** `less` is irreflexive, transitive and connected. */
  ghost predicate StrictTotalOrder<T(!new)>(less: (T, T) -> bool) {
    && (forall x :: !less(x, x))
    && (forall x, y, z :: less(x, y) && less(y, z) ==> less(x, z))
    && (forall x, y :: x != y ==> less(x, y) || less(y, x))
  }

  predicate StrictlySorted<T>(s: seq<T>, less: (T, T) -> bool) {
    forall i, j :: 0 <= i < j < |s| ==> less(s[i], s[j])
  }

  predicate Distinct<T(==)>(s: seq<T>) {
    forall i, j :: 0 <= i < j < |s| ==> s[i] != s[j]
  }

  /** Places `x` after every element of `s` that is less than it. */
  function Insert<T>(x: T, s: seq<T>, less: (T, T) -> bool): (r: seq<T>)
    ensures multiset(r) == multiset(s) + multiset{x}
  {
    if |s| == 0 || !less(s[0], x) then [x] + s
    else
      assert s == [s[0]] + s[1..];
      [s[0]] + Insert(x, s[1..], less)
  }

  function Sort<T>(s: seq<T>, less: (T, T) -> bool): (r: seq<T>)
    ensures multiset(r) == multiset(s)
    ensures |r| == |s|
  {
    if |s| == 0 then []
    else
      assert s == [s[0]] + s[1..];
      Insert(s[0], Sort(s[1..], less), less)
  }

  lemma MultisetMembers<T>(a: seq<T>, b: seq<T>)
    requires multiset(a) == multiset(b)
    ensures forall x :: x in a <==> x in b
  {
    forall x ensures x in a <==> x in b {
      assert x in a <==> x in multiset(a);
      assert x in b <==> x in multiset(b);
    }
  }

  lemma {:induction false} InsertSorted<T(!new)>(x: T, s: seq<T>, less: (T, T) -> bool)
    requires StrictTotalOrder(less)
    requires StrictlySorted(s, less)
    requires x !in s
    ensures StrictlySorted(Insert(x, s, less), less)
  {
    if |s| == 0 || !less(s[0], x) {
      if |s| > 0 {
        assert less(x, s[0]) by { assert x != s[0]; }
      }
    } else {
      var rest := Insert(x, s[1..], less);
      InsertSorted(x, s[1..], less);
      MultisetMembers(rest, s[1..] + [x]);
      var r := [s[0]] + rest;
      forall i, j | 0 <= i < j < |r| ensures less(r[i], r[j]) {
        if i == 0 {
          assert r[j] in rest;
          assert r[j] in s[1..] || r[j] == x;
        }
      }
    }
  }

  /** Sorting a duplicate-free sequence yields a strictly sorted one. */
  lemma {:induction false} SortSorted<T(!new)>(s: seq<T>, less: (T, T) -> bool)
    requires StrictTotalOrder(less)
    requires Distinct(s)
    ensures StrictlySorted(Sort(s, less), less)
  {
    if |s| > 0 {
      var rest := Sort(s[1..], less);
      SortSorted(s[1..], less);
      MultisetMembers(rest, s[1..]);
      InsertSorted(s[0], rest, less);
    }
  }

  /** Two strictly sorted sequences with the same elements are equal. */
  lemma {:induction false} SortedUnique<T(!new)>(a: seq<T>, b: seq<T>, less: (T, T) -> bool)
    requires StrictTotalOrder(less)
    requires StrictlySorted(a, less) && StrictlySorted(b, less)
    requires forall x :: x in a <==> x in b
    ensures a == b
  {
    assert forall i :: 0 <= i < |a| ==> a[i] in b;
    assert forall i :: 0 <= i < |b| ==> b[i] in a;
    assert |a| == 0 <==> |b| == 0;
    if |a| > 0 {
      var j :| 0 <= j < |b| && b[j] == a[0];
      var i :| 0 <= i < |a| && a[i] == b[0];
      assert j == 0;
      forall x ensures x in a[1..] <==> x in b[1..] {
        if x in a[1..] {
          var i :| 1 <= i < |a| && a[i] == x;
          assert less(a[0], x);
          assert x in b;
          assert x != b[0];
        }
        if x in b[1..] {
          var i :| 1 <= i < |b| && b[i] == x;
          assert less(b[0], x);
          assert x in a;
          assert x != a[0];
        }
      }
      SortedUnique(a[1..], b[1..], less);
      assert a == [a[0]] + a[1..];
      assert b == [b[0]] + b[1..];
    }
  }

  /** A strictly sorted sequence has no duplicates. */
  lemma SortedDistinct<T(!new)>(s: seq<T>, less: (T, T) -> bool)
    requires StrictTotalOrder(less)
    requires StrictlySorted(s, less)
    ensures Distinct(s)
  {
  }

  /** Sorting depends only on the set of elements of a duplicate-free input. */
  lemma SortDependsOnElementsOnly<T(!new)>(a: seq<T>, b: seq<T>, less: (T, T) -> bool)
    requires StrictTotalOrder(less)
    requires Distinct(a) && Distinct(b)
    requires forall x :: x in a <==> x in b
    ensures Sort(a, less) == Sort(b, less)
  {
    SortSorted(a, less);
    SortSorted(b, less);
    MultisetMembers(Sort(a, less), a);
    MultisetMembers(Sort(b, less), b);
    SortedUnique(Sort(a, less), Sort(b, less), less);
  }
}

=== FILE: team_list.dfy ===
/** The venue's team (components/venue/team-list.tsx): the first four
    members until the list is expanded, and a See all / See less switch that
    exists only when there is more to see. */
module TeamList {
  import Collapsible

  datatype Member = Member(id: int, name: string, role: string)

  /** The team, in order. */
  const FullTeam: seq<Member> := [
    Member(1, "Azri", "Master Barber"),
    Member(2, "Danial", "Senior Barber"),
    Member(3, "Haziq", "Barber"),
    Member(4, "Sarah", "Stylist"),
    Member(5, "Mike", "Barber"),
    Member(6, "Jenny", "Colorist"),
    Member(7, "Tom", "Junior Barber"),
    Member(8, "Lisa", "Manager")]

  /** How many members a collapsed list shows. */
  const CollapsedCount := 4

  /** The list starts collapsed. */
  const InitiallyExpanded := false

  /** The members on screen: the first `min(4, n)` in order, or all of them. */
  function Shown(team: seq<Member>, expanded: bool): (r: seq<Member>)
    ensures r <= team
    ensures expanded ==> r == team
    ensures !expanded ==> |r| == if |team| < CollapsedCount then |team| else CollapsedCount
  {
    Collapsible.Displayed(team, expanded, CollapsedCount)
  }

  /** The switch is rendered only for a team of more than four. */
  predicate HasSwitch(team: seq<Member>) {
    |team| > CollapsedCount
  }

  /** Without the switch nothing is ever hidden, so nothing is lost by not
      offering it; with it, collapsing hides someone. */
  lemma SwitchExactlyWhenHiding(team: seq<Member>)
    ensures HasSwitch(team) <==> Shown(team, false) != Shown(team, true)
  {
    Collapsible.CollapsedHides(team, CollapsedCount);
  }

  /** The shipped team: eight members, four shown at first, the switch present. */
  lemma ShippedTeam()
    ensures HasSwitch(FullTeam)
    ensures Shown(FullTeam, InitiallyExpanded) == FullTeam[..4]
  {
  }
}

=== FILE: toggles.dfy ===
/** The list toggle two screens share: the booking wizard's selected services
    (components/venue/booking/wizard.tsx) and the onboarding form's
    categories (app/merchant/onboarding/page.tsx). A present id is filtered
    out, every occurrence of it; an absent one is appended. */
module Toggles {
  import opened Sorting

  /** `xs.filter(y => y !== x)` */
  function Remove<T(==,!new)>(xs: seq<T>, x: T): (r: seq<T>)
    ensures x !in r
    ensures forall y :: y in r <==> y in xs && y != x
    ensures |r| <= |xs|
  {
    if |xs| == 0 then []
    else if xs[0] == x then Remove(xs[1..], x)
    else [xs[0]] + Remove(xs[1..], x)
  }

  /** `xs.includes(x) ? xs.filter(y => y !== x) : [...xs, x]` */
  function Toggle<T(==,!new)>(xs: seq<T>, x: T): (r: seq<T>)
    ensures x in r <==> x !in xs
    ensures forall y :: y != x ==> (y in r <==> y in xs)
    ensures x !in xs ==> r == xs + [x]
  {
    if x in xs then Remove(xs, x) else xs + [x]
  }

  /** Filtering out an absent element changes nothing. */
  lemma {:induction false} RemoveAbsent<T(!new)>(xs: seq<T>, x: T)
    requires x !in xs
    ensures Remove(xs, x) == xs
  {
    if |xs| > 0 {
      assert xs[0] != x;
      RemoveAbsent(xs[1..], x);
    }
  }

  /** Filtering keeps the order of what it keeps. */
  lemma {:induction false} RemoveAppend<T(!new)>(xs: seq<T>, ys: seq<T>, x: T)
    ensures Remove(xs + ys, x) == Remove(xs, x) + Remove(ys, x)
  {
    if |xs| > 0 {
      assert (xs + ys)[1..] == xs[1..] + ys;
      RemoveAppend(xs[1..], ys, x);
    } else {
      assert xs + ys == ys;
    }
  }

  /** Toggling an absent element twice gives back the list exactly. */
  lemma ToggleTwiceAbsent<T(!new)>(xs: seq<T>, x: T)
    requires x !in xs
    ensures Toggle(Toggle(xs, x), x) == xs
  {
    RemoveAppend(xs, [x], x);
    RemoveAbsent(xs, x);
    assert Remove([x], x) == [];
  }

  /** A list without duplicates keeps none after filtering. */
  lemma {:induction false} RemoveDistinct<T(!new)>(xs: seq<T>, x: T)
    requires Distinct(xs)
    ensures Distinct(Remove(xs, x))
  {
    if |xs| > 0 {
      assert Distinct(xs[1..]) by {
        forall i, j | 0 <= i < j < |xs[1..]| ensures xs[1..][i] != xs[1..][j] {
          assert xs[1..][i] == xs[i + 1] && xs[1..][j] == xs[j + 1];
        }
      }
      RemoveDistinct(xs[1..], x);
      var rest := Remove(xs[1..], x);
      if xs[0] != x {
        assert xs[0] !in xs[1..] by {
          forall j | 0 <= j < |xs[1..]| ensures xs[1..][j] != xs[0] {
            assert xs[1..][j] == xs[j + 1];
          }
        }
        assert xs[0] !in rest;
        var r := [xs[0]] + rest;
        forall i, j | 0 <= i < j < |r| ensures r[i] != r[j] {
          if i == 0 {
            assert r[j] == rest[j - 1];
            assert r[j] in rest;
          } else {
            assert r[i] == rest[i - 1] && r[j] == rest[j - 1];
          }
        }
      }
    }
  }

  /** Toggling keeps a list free of duplicates. */
  lemma ToggleDistinct<T(!new)>(xs: seq<T>, x: T)
    requires Distinct(xs)
    ensures Distinct(Toggle(xs, x))
  {
    if x in xs {
      RemoveDistinct(xs, x);
    } else {
      var r := xs + [x];
      forall i, j | 0 <= i < j < |r| ensures r[i] != r[j] {
        if j == |xs| {
          assert r[i] == xs[i];
        } else {
          assert r[i] == xs[i] && r[j] == xs[j];
        }
      }
    }
  }

  /** Filtering removes every copy of the element and nothing else. */
  lemma {:induction false} RemoveMultiset<T(!new)>(xs: seq<T>, x: T)
    ensures multiset(Remove(xs, x)) == multiset(xs)[x := 0]
  {
    if |xs| > 0 {
      RemoveMultiset(xs[1..], x);
      assert xs == [xs[0]] + xs[1..];
      assert multiset(xs) == multiset([xs[0]]) + multiset(xs[1..]);
    }
  }

  /** In a list without duplicates, a member occurs once. */
  lemma {:induction false} DistinctOnce<T(!new)>(xs: seq<T>, x: T)
    requires Distinct(xs)
    requires x in xs
    ensures multiset(xs)[x] == 1
  {
    assert xs == [xs[0]] + xs[1..];
    assert Distinct(xs[1..]) by {
      forall i, j | 0 <= i < j < |xs[1..]| ensures xs[1..][i] != xs[1..][j] {
        assert xs[1..][i] == xs[i + 1] && xs[1..][j] == xs[j + 1];
      }
    }
    if xs[0] == x {
      assert x !in xs[1..] by {
        forall j | 0 <= j < |xs[1..]| ensures xs[1..][j] != x {
          assert xs[1..][j] == xs[j + 1];
        }
      }
    } else {
      DistinctOnce(xs[1..], x);
    }
  }

  /** Toggling a present element twice moves it to the end: the same
      elements, in a different order unless it was already last. */
  lemma ToggleTwicePresent<T(!new)>(xs: seq<T>, x: T)
    requires Distinct(xs)
    requires x in xs
    ensures Toggle(Toggle(xs, x), x) == Remove(xs, x) + [x]
    ensures multiset(Toggle(Toggle(xs, x), x)) == multiset(xs)
  {
    RemoveMultiset(xs, x);
    DistinctOnce(xs, x);
  }
}

=== FILE: wizard.dfy ===
/** The booking wizard (components/venue/booking/wizard.tsx): four steps,
    Services, Professional, Time and Confirm, over the venue's services and
    the fixed professionals and times the screen offers. Each user action is
    an `Event`; one that the current step does not render does nothing. */
module BookingWizard {
  import opened Wrappers
  import opened Toggles
  import Decimal
  import Js

  const Steps: seq<string> := ["Services", "Professional", "Time", "Confirm"]
  const LastStep := |Steps| - 1

  /** The professionals (lib/mock-data.ts) and the times the Time step offers. */
  const StaffIds: seq<string> := ["any", "1", "2", "3", "4"]
  const Times: seq<string> := ["10:00", "10:30", "11:00", "11:30", "12:00", "12:30", "13:00", "13:30", "14:00", "15:00"]

  /** The part of a service record the wizard reads. The records are the
      shop's API records (`services: any[]`), so the id and the price are
      whatever JSON value the server sent: the mock menu has string ids and
      number prices, while the API may send number ids or string prices. */
  datatype Service = Service(id: Js.Value, price: Js.Value)

  /** The selected ids are compared with `includes` (SameValueZero) and
      filtered with `!==`. On the values of this model, which have no NaN
      and no -0, both are equality. */
  datatype State = State(
    step: int,
    selected: seq<Js.Value>,
    category: string,
    staff: Option<string>,
    time: Option<string>,
    date: Option<string>)

  /** The step names a real step. */
  predicate Valid(s: State) {
    0 <= s.step <= LastStep
  }

  /** `!!x` for a `string | null` state. */
  predicate Chosen(x: Option<string>) {
    x.Some? && x.value != ""
  }

  /** The first step, with the service the wizard was opened for (if any,
      and if its id is not empty) already selected, as a string. */
  function Init(initialServiceId: Option<string>): (s: State)
    ensures Valid(s) && s.step == 0
    ensures forall v :: v in s.selected <==> Chosen(initialServiceId) && v == Js.Str(initialServiceId.value)
    ensures |s.selected| <= 1
    ensures s.category == "featured" && s.staff == None && s.time == None && s.date == None
  {
    State(0, if Chosen(initialServiceId) then [Js.Str(initialServiceId.value)] else [], "featured", None, None, None)
  }

  // ---------------------------------------------------------------------------
  // The price total

  /** `servicesData.filter(s => selected.includes(s.id))`, in the services' order. */
  function SelectedObjects(services: seq<Service>, selected: seq<Js.Value>): (r: seq<Service>)
    ensures forall x :: x in r <==> x in services && x.id in selected
    ensures |r| <= |services|
    ensures selected == [] ==> r == []
  {
    if |services| == 0 then []
    else (if services[0].id in selected then [services[0]] else []) + SelectedObjects(services[1..], selected)
  }

  /** A value `acc` takes in the `reduce`: a number, NaN, or a string once a
      string has been added. */
  datatype Total = Number(n: int) | NaN | Text(s: string)

  /** `String(acc)`, as `+` and the template literal write it. */
  function TotalString(t: Total): string {
    match t
    case Number(n) => Decimal.IntToString(n)
    case NaN => "NaN"
    case Text(s) => s
  }

  /** A price whose primitive value is a string: a string, an array or an object. */
  predicate Textual(v: Js.Value) {
    v.Str? || v.Arr? || v.Obj?
  }

  /** ToNumber of a price that is not textual; undefined gives NaN (None). */
  function NumberOf(v: Js.Value): Option<int> {
    match v
    case Null => Some(0)
    case Bool(b) => Some(if b then 1 else 0)
    case Num(n) => Some(n)
    case _ => None
  }

  /** A price `+` adds as a number. */
  predicate Numeric(v: Js.Value) {
    NumberOf(v).Some?
  }

  /** `acc + price` (section 13.15.3 of ECMA-262): a string on either side
      makes the sum the concatenation of both written out; otherwise the
      numbers add, and NaN on either side gives NaN. */
  function Add(acc: Total, price: Js.Value): (r: Total)
    ensures r.Text? <==> acc.Text? || Textual(price)
    ensures r.Number? <==> acc.Number? && Numeric(price)
  {
    if acc.Text? || Textual(price) then Text(TotalString(acc) + Js.ToJsString(price))
    else if acc.NaN? || !Numeric(price) then NaN
    else Number(acc.n + NumberOf(price).value)
  }

  /** `objs.reduce((acc, s) => acc + s.price, acc)` */
  function Reduce(acc: Total, objs: seq<Service>): Total
    decreases |objs|
  {
    if |objs| == 0 then acc else Reduce(Add(acc, objs[0].price), objs[1..])
  }

  /** `totalAmount`: the selected service objects' prices added up from 0. */
  function TotalAmount(services: seq<Service>, selected: seq<Js.Value>): (t: Total)
    ensures selected == [] ==> t == Number(0)
  {
    Reduce(Number(0), SelectedObjects(services, selected))
  }

  /** What a service's price adds when it is a number (0 for any other price). */
  function Worth(s: Service): int {
    NumberOf(s.price).GetOr(0)
  }

  /** The arithmetic sum of the numeric prices. */
  function Sum(objs: seq<Service>): (r: int)
    ensures (forall i :: 0 <= i < |objs| ==> Worth(objs[i]) >= 0) ==> r >= 0
  {
    if |objs| == 0 then 0 else Worth(objs[0]) + Sum(objs[1..])
  }

  predicate HasTextual(objs: seq<Service>) {
    exists i :: 0 <= i < |objs| && Textual(objs[i].price)
  }

  predicate HasUndefined(objs: seq<Service>) {
    exists i :: 0 <= i < |objs| && objs[i].price.Undefined?
  }

  lemma ExistsCons(objs: seq<Service>)
    requires |objs| > 0
    ensures HasTextual(objs) <==> Textual(objs[0].price) || HasTextual(objs[1..])
    ensures HasUndefined(objs) <==> objs[0].price.Undefined? || HasUndefined(objs[1..])
  {
    if HasTextual(objs[1..]) {
      var i :| 0 <= i < |objs[1..]| && Textual(objs[1..][i].price);
      assert objs[i + 1] == objs[1..][i];
    }
    if HasUndefined(objs[1..]) {
      var i :| 0 <= i < |objs[1..]| && objs[1..][i].price.Undefined?;
      assert objs[i + 1] == objs[1..][i];
    }
    if HasTextual(objs) && !Textual(objs[0].price) {
      var i :| 0 <= i < |objs| && Textual(objs[i].price);
      assert objs[1..][i - 1] == objs[i];
    }
    if HasUndefined(objs) && !objs[0].price.Undefined? {
      var i :| 0 <= i < |objs| && objs[i].price.Undefined?;
      assert objs[1..][i - 1] == objs[i];
    }
  }

  /** Numeric prices add up as numbers. */
  lemma {:induction false} ReduceNumeric(acc: int, objs: seq<Service>)
    requires forall i :: 0 <= i < |objs| ==> Numeric(objs[i].price)
    ensures Reduce(Number(acc), objs) == Number(acc + Sum(objs))
    decreases |objs|
  {
    if |objs| > 0 {
      assert Add(Number(acc), objs[0].price) == Number(acc + Worth(objs[0]));
      ReduceNumeric(acc + Worth(objs[0]), objs[1..]);
    }
  }

  /** What kind of value the fold ends with: text once any price is
      textual, else NaN once any price is undefined, else a number. */
  lemma {:induction false} ReduceKinds(acc: Total, objs: seq<Service>)
    ensures Reduce(acc, objs).Text? <==> acc.Text? || HasTextual(objs)
    ensures Reduce(acc, objs).NaN? <==> !acc.Text? && !HasTextual(objs) && (acc.NaN? || HasUndefined(objs))
    decreases |objs|
  {
    if |objs| > 0 {
      ReduceKinds(Add(acc, objs[0].price), objs[1..]);
      ExistsCons(objs);
    }
  }

  /** With numeric prices, the total is the filter-then-reduce of the
      source: the number that sums the selected service objects' prices. */
  lemma TotalIsSumOfSelected(services: seq<Service>, selected: seq<Js.Value>)
    ensures var objs := SelectedObjects(services, selected);
      (forall i :: 0 <= i < |objs| ==> Numeric(objs[i].price)) ==>
        TotalAmount(services, selected) == Number(Sum(objs))
  {
    var objs := SelectedObjects(services, selected);
    if forall i :: 0 <= i < |objs| ==> Numeric(objs[i].price) {
      ReduceNumeric(0, objs);
    }
  }

  /** Every input's total: text exactly when some selected price is
      textual; otherwise NaN exactly when some selected price is undefined;
      otherwise the number that sums the selected prices, which is not
      negative when no price is. */
  lemma TotalKinds(services: seq<Service>, selected: seq<Js.Value>)
    ensures var objs := SelectedObjects(services, selected);
      && (TotalAmount(services, selected).Text? <==> HasTextual(objs))
      && (TotalAmount(services, selected).NaN? <==> !HasTextual(objs) && HasUndefined(objs))
      && (TotalAmount(services, selected).Number? <==> !HasTextual(objs) && !HasUndefined(objs))
      && (TotalAmount(services, selected).Number? ==> TotalAmount(services, selected).n == Sum(objs))
      && (TotalAmount(services, selected).Number? && (forall i :: 0 <= i < |services| ==> Worth(services[i]) >= 0)
          ==> TotalAmount(services, selected).n >= 0)
  {
    var objs := SelectedObjects(services, selected);
    ReduceKinds(Number(0), objs);
    if !HasTextual(objs) && !HasUndefined(objs) {
      assert forall i :: 0 <= i < |objs| ==> Numeric(objs[i].price) by {
        forall i | 0 <= i < |objs| ensures Numeric(objs[i].price) {
          assert !Textual(objs[i].price) && !objs[i].price.Undefined?;
        }
      }
      TotalIsSumOfSelected(services, selected);
      if forall i :: 0 <= i < |services| ==> Worth(services[i]) >= 0 {
        forall i | 0 <= i < |objs| ensures Worth(objs[i]) >= 0 {
          assert objs[i] in services;
        }
      }
    }
  }

  /** The prices, each through `String`, one after another. */
  function Concat(objs: seq<Service>): string {
    if |objs| == 0 then "" else Js.ToJsString(objs[0].price) + Concat(objs[1..])
  }

  lemma {:induction false} ReduceAppend(acc: Total, a: seq<Service>, b: seq<Service>)
    ensures Reduce(acc, a + b) == Reduce(Reduce(acc, a), b)
    decreases |a|
  {
    if |a| == 0 {
      assert a + b == b;
    } else {
      assert (a + b)[1..] == a[1..] + b;
      ReduceAppend(Add(acc, a[0].price), a[1..], b);
    }
  }

  /** From a string on, `+` only appends. */
  lemma {:induction false} ReduceFromText(s: string, objs: seq<Service>)
    ensures Reduce(Text(s), objs) == Text(s + Concat(objs))
    decreases |objs|
  {
    if |objs| > 0 {
      ReduceFromText(s + Js.ToJsString(objs[0].price), objs[1..]);
      assert s + Js.ToJsString(objs[0].price) + Concat(objs[1..]) == s + Concat(objs);
    }
  }

  /** At a textual selected price the total turns into text: the total of
      the services before it written out, followed by every price from it
      on, each written out. */
  lemma TextTotal(services: seq<Service>, selected: seq<Js.Value>, k: int)
    requires 0 <= k < |SelectedObjects(services, selected)|
    requires Textual(SelectedObjects(services, selected)[k].price)
    ensures var objs := SelectedObjects(services, selected);
      TotalAmount(services, selected) == Text(TotalString(Reduce(Number(0), objs[..k])) + Concat(objs[k..]))
  {
    var objs := SelectedObjects(services, selected);
    var before := Reduce(Number(0), objs[..k]);
    var rest := objs[k..];
    assert objs == objs[..k] + rest;
    ReduceAppend(Number(0), objs[..k], rest);
    TextStep(before, rest);
  }

  lemma TextStep(acc: Total, objs: seq<Service>)
    requires |objs| > 0 && Textual(objs[0].price)
    ensures Reduce(acc, objs) == Text(TotalString(acc) + Concat(objs))
  {
    ReduceFromText(TotalString(acc) + Js.ToJsString(objs[0].price), objs[1..]);
  }

  /** The sum of the numeric prices of the services with id `id`. */
  function PriceOf(services: seq<Service>, id: Js.Value): int {
    if |services| == 0 then 0
    else (if services[0].id == id then Worth(services[0]) else 0) + PriceOf(services[1..], id)
  }

  lemma {:induction false} SelectedSameMembers(services: seq<Service>, a: seq<Js.Value>, b: seq<Js.Value>)
    requires forall id :: id in a <==> id in b
    ensures SelectedObjects(services, a) == SelectedObjects(services, b)
  {
    if |services| > 0 {
      SelectedSameMembers(services[1..], a, b);
    }
  }

  /** The total depends on which ids are selected, not on their order or
      repetition, whatever the prices are. */
  lemma TotalMembersOnly(services: seq<Service>, a: seq<Js.Value>, b: seq<Js.Value>)
    requires forall id :: id in a <==> id in b
    ensures TotalAmount(services, a) == TotalAmount(services, b)
  {
    SelectedSameMembers(services, a, b);
  }

  lemma SumSelectedCons(services: seq<Service>, selected: seq<Js.Value>)
    requires |services| > 0
    ensures Sum(SelectedObjects(services, selected))
      == (if services[0].id in selected then Worth(services[0]) else 0) + Sum(SelectedObjects(services[1..], selected))
  {
    var rest := SelectedObjects(services[1..], selected);
    if services[0].id in selected {
      assert ([services[0]] + rest)[1..] == rest;
    } else {
      assert [] + rest == rest;
    }
  }

  /** An id contributes the prices of its services to the sum exactly when
      it is selected. */
  lemma {:induction false} TotalSplit(services: seq<Service>, selected: seq<Js.Value>, id: Js.Value)
    ensures Sum(SelectedObjects(services, selected))
      == Sum(SelectedObjects(services, Remove(selected, id))) + (if id in selected then PriceOf(services, id) else 0)
  {
    if |services| > 0 {
      TotalSplit(services[1..], selected, id);
      SumSelectedCons(services, selected);
      SumSelectedCons(services, Remove(selected, id));
    }
  }

  /** Every price of the list is added as a number. */
  predicate NumericPrices(services: seq<Service>) {
    forall i :: 0 <= i < |services| ==> Numeric(services[i].price)
  }

  lemma SelectedNumeric(services: seq<Service>, selected: seq<Js.Value>)
    requires NumericPrices(services)
    ensures TotalAmount(services, selected) == Number(Sum(SelectedObjects(services, selected)))
  {
    var objs := SelectedObjects(services, selected);
    forall i | 0 <= i < |objs| ensures Numeric(objs[i].price) {
      assert objs[i] in services;
    }
    TotalIsSumOfSelected(services, selected);
  }

  /** With numeric prices, selecting a service raises the total by its
      price, and deselecting it lowers the total by the same amount. */
  lemma ToggleTotal(services: seq<Service>, selected: seq<Js.Value>, id: Js.Value)
    ensures NumericPrices(services) ==>
      var before := TotalAmount(services, selected);
      var after := TotalAmount(services, Toggle(selected, id));
      && before.Number? && after.Number?
      && after.n == before.n + (if id in selected then -PriceOf(services, id) else PriceOf(services, id))
  {
    if NumericPrices(services) {
      SelectedNumeric(services, selected);
      SelectedNumeric(services, Toggle(selected, id));
      TotalSplit(services, selected, id);
      if id !in selected {
        var added := selected + [id];
        TotalSplit(services, added, id);
        SelectedSameMembers(services, Remove(added, id), selected);
      }
    }
  }

  /** The summary's total for a number: "RM n" when positive, "free" otherwise. */
  function TotalText(total: int): (t: string)
    ensures t == "free" <==> total <= 0
    ensures total > 0 ==> |t| > 3 && t[..3] == "RM " && Decimal.IsCanonical(t[3..]) && Decimal.Parse(t[3..]) == total
  {
    var digits := Decimal.IntToString(total);
    if total > 0 then
      Decimal.ParseNatToString(total);
      assert ("RM " + digits)[3..] == digits;
      "RM " + digits
    else "free"
  }

  /** A text that StringToNumber reads as an unsigned decimal: digits with
      at most one point, and at least one digit. */
  predicate DecimalLiteral(s: string) {
    && (exists i :: 0 <= i < |s| && Decimal.IsDigit(s[i]))
    && (forall i :: 0 <= i < |s| ==> Decimal.IsDigit(s[i]) || s[i] == '.')
    && (forall i, j :: 0 <= i < j < |s| && s[i] == '.' ==> s[j] != '.')
  }

  /** `totalAmount > 0`; a text total is compared as the number it reads as. */
  predicate Positive(t: Total) {
    match t
    case Number(n) => n > 0
    case NaN => false
    case Text(s) => DecimalLiteral(s) && exists i :: 0 <= i < |s| && '1' <= s[i] <= '9'
  }

  /** `totalAmount > 0 ? `RM ${totalAmount}` : 'free'` for any total. */
  function SummaryText(t: Total): (r: string)
    ensures r == "free" <==> !Positive(t)
    ensures r != "free" ==> r == "RM " + TotalString(t)
    ensures t.Number? ==> r == TotalText(t.n)
  {
    match t
    case Number(n) => TotalText(n)
    case NaN => "free"
    case Text(s) =>
      if Positive(t) then
        assert ("RM " + s)[0] != "free"[0];
        "RM " + s
      else "free"
  }

  /** Senior Barber Cut (101, RM 40) and Beard Trim (104, RM 25) from the
      barber's menu, with string ids and number prices, total RM 65. */
  lemma BarberExample()
    ensures var menu := [Service(Js.Str("101"), Js.Num(40)), Service(Js.Str("102"), Js.Num(35)),
                         Service(Js.Str("103"), Js.Num(30)), Service(Js.Str("104"), Js.Num(25))];
      TotalAmount(menu, [Js.Str("101"), Js.Str("104")]) == Number(65) && SummaryText(Number(65)) == "RM 65"
  {
    var menu := [Service(Js.Str("101"), Js.Num(40)), Service(Js.Str("102"), Js.Num(35)),
                 Service(Js.Str("103"), Js.Num(30)), Service(Js.Str("104"), Js.Num(25))];
    var sel := [Js.Str("101"), Js.Str("104")];
    assert Js.Str("102") !in sel && Js.Str("103") !in sel by {
      assert "102"[2] != "101"[2] && "102"[2] != "104"[2];
      assert "103"[2] != "101"[2] && "103"[2] != "104"[2];
    }
    assert menu[1..][1..][1..][1..] == [];
    assert SelectedObjects(menu, sel) == [menu[0], menu[3]];
    assert Decimal.IntToString(65) == "65" by {
      assert Decimal.NatToString(65) == Decimal.NatToString(6) + [Decimal.DigitChar(5)];
    }
  }

  /** A record whose id is the number 5, booked from its "Book" button,
      which opens the wizard with `String(service.id)`: "5" is selected, so
      the first step is valid, yet no record's id equals it, so the total is
      0 and the summary reads "free". Pressing the record's card then
      selects the number 5 beside the string "5", and the total becomes 40. */
  lemma NumericIdExample()
    ensures var services := [Service(Js.Num(5), Js.Num(40))];
      var s := Init(Some("5"));
      && IsStepValid(s)
      && TotalAmount(services, s.selected) == Number(0)
      && SummaryText(TotalAmount(services, s.selected)) == "free"
      && Apply(s, ToggleService(Js.Num(5))) == Open(s.(selected := [Js.Str("5"), Js.Num(5)]))
      && TotalAmount(services, [Js.Str("5"), Js.Num(5)]) == Number(40)
  {
    var services := [Service(Js.Num(5), Js.Num(40))];
    assert services[1..] == [];
  }

  /** Prices sent as the strings "40" and "25" are concatenated after the
      initial 0; the text still reads as a positive number, so the summary
      shows "RM 04025". */
  lemma StringPriceExample()
    ensures var services := [Service(Js.Str("101"), Js.Str("40")), Service(Js.Str("104"), Js.Str("25"))];
      var t := TotalAmount(services, [Js.Str("101"), Js.Str("104")]);
      t == Text("04025") && SummaryText(t) == "RM 04025"
  {
    var services := [Service(Js.Str("101"), Js.Str("40")), Service(Js.Str("104"), Js.Str("25"))];
    assert services[1..][1..] == [];
    assert Decimal.IntToString(0) == "0";
    var s := "04025";
    assert DecimalLiteral(s) by {
      assert Decimal.IsDigit(s[0]);
    }
    assert '1' <= s[1] <= '9';
  }

  /** Prices sent as "40.00" and "25.00" give the text "040.0025.00", which
      is not a number, so the summary reads "free". */
  lemma DecimalPriceExample()
    ensures var services := [Service(Js.Str("101"), Js.Str("40.00")), Service(Js.Str("104"), Js.Str("25.00"))];
      var t := TotalAmount(services, [Js.Str("101"), Js.Str("104")]);
      t == Text("040.0025.00") && SummaryText(t) == "free"
  {
    var services := [Service(Js.Str("101"), Js.Str("40.00")), Service(Js.Str("104"), Js.Str("25.00"))];
    assert services[1..][1..] == [];
    assert Decimal.IntToString(0) == "0";
    var s := "040.0025.00";
    assert s[3] == '.' && s[8] == '.';
    assert !DecimalLiteral(s);
  }

  // ---------------------------------------------------------------------------
  // Navigation

  /** The wizard after an action: still open, or closed (confirmed or not). */
  datatype Outcome = Open(state: State) | Closed(confirmed: bool)

  /** `handleNext`: the next step, or the confirmation that closes the wizard. */
  function Next(s: State): (o: Outcome)
    ensures Valid(s) && s.step < LastStep ==> o == Open(s.(step := s.step + 1)) && Valid(o.state)
    ensures s.step >= LastStep ==> o == Closed(true)
  {
    if s.step < LastStep then Open(s.(step := s.step + 1)) else Closed(true)
  }

  /** `handleBack`: the previous step, or closing from the first one. */
  function Back(s: State): (o: Outcome)
    ensures Valid(s) && s.step > 0 ==> o == Open(s.(step := s.step - 1)) && Valid(o.state)
    ensures s.step <= 0 ==> o == Closed(false)
  {
    if s.step > 0 then Open(s.(step := s.step - 1)) else Closed(false)
  }

  /** Back undoes Next and Next undoes Back, between the first and last steps. */
  lemma NextBackInverse(s: State)
    requires Valid(s)
    ensures s.step < LastStep ==> Back(Next(s).state) == Open(s)
    ensures s.step > 0 ==> Next(Back(s).state) == Open(s)
  {
  }

  /** A breadcrumb: only an earlier step can be jumped to. */
  function JumpBack(s: State, idx: nat): (r: State)
    ensures idx < s.step ==> r == s.(step := idx)
    ensures idx >= s.step ==> r == s
    ensures Valid(s) ==> Valid(r) && r.step <= s.step
  {
    if s.step > idx then s.(step := idx) else s
  }

  /** `isStepValid`, which enables the Continue buttons. */
  predicate IsStepValid(s: State)
    ensures s.step == 0 ==> (IsStepValid(s) <==> |s.selected| > 0)
    ensures s.step == 1 ==> (IsStepValid(s) <==> s.staff.Some? && s.staff.value != "")
    ensures s.step == 2 ==> (IsStepValid(s) <==> s.time.Some? && s.time.value != "")
    ensures s.step >= 3 ==> IsStepValid(s)
  {
    if s.step == 0 then |s.selected| > 0
    else if s.step == 1 then Chosen(s.staff)
    else if s.step == 2 then Chosen(s.time)
    else true
  }

  /** What the user can do. */
  datatype Event =
    | ToggleService(id: Js.Value)
    | PickCategory(categoryId: string)
    | PickStaff(staffId: string)
    | PickDate(date: string)
    | PickTime(time: string)
    | Continue
    | GoBack
    | Crumb(idx: nat)
    | Close

  /** An event the screen can produce: professionals and times come from the
      fixed lists, breadcrumbs from the four step names. */
  predicate Offered(e: Event) {
    match e
    case PickStaff(id) => id in StaffIds
    case PickTime(t) => t in Times
    case Crumb(idx) => idx < |Steps|
    case _ => true
  }

  /** One event. Services and categories can be picked on the first step,
      professionals on the second, dates and times on the third; Continue
      is disabled while the step is not valid. */
  function Apply(s: State, e: Event): (o: Outcome)
    ensures o == Closed(true) <==> e == Continue && IsStepValid(s) && s.step >= LastStep
    ensures e == Continue && s.step < LastStep ==> (o == Open(s.(step := s.step + 1)) <==> IsStepValid(s))
    ensures e == Continue && !IsStepValid(s) ==> o == Open(s)
    ensures o == Closed(false) <==> e == Close || (e == GoBack && s.step <= 0)
    ensures o.Open? && o.state.step != s.step ==> e in {Continue, GoBack} || e.Crumb?
    ensures e in {Continue, GoBack} || e.Crumb? ==> o.Open? ==> o.state == s.(step := o.state.step)
  {
    match e
    case ToggleService(id) => Open(if s.step == 0 then s.(selected := Toggle(s.selected, id)) else s)
    case PickCategory(c) => Open(if s.step == 0 then s.(category := c) else s)
    case PickStaff(id) => Open(if s.step == 1 then s.(staff := Some(id)) else s)
    case PickDate(d) => Open(if s.step == 2 then s.(date := Some(d)) else s)
    case PickTime(t) => Open(if s.step == 2 then s.(time := Some(t)) else s)
    case Continue => if IsStepValid(s) then Next(s) else Open(s)
    case GoBack => Back(s)
    case Crumb(idx) => Open(JumpBack(s, idx))
    case Close => Closed(false)
  }

  /** A sequence of events, stopping at the first that closes the wizard. */
  function Run(s: State, events: seq<Event>): Outcome
    decreases |events|
  {
    if |events| == 0 then Open(s)
    else match Apply(s, events[0])
      case Closed(c) => Closed(c)
      case Open(t) => Run(t, events[1..])
  }

  /** What the steps before the current one have established: services
      from the first, a professional from the second, a time from the third. */
  predicate Ready(s: State) {
    && Valid(s)
    && (s.step >= 1 ==> |s.selected| > 0)
    && (s.step >= 2 ==> Chosen(s.staff))
    && (s.step >= 3 ==> Chosen(s.time))
  }

  /** Every offered event keeps the wizard on a real step with its earlier
      steps complete. */
  lemma ApplyReady(s: State, e: Event)
    requires Ready(s) && Offered(e)
    ensures Apply(s, e).Open? ==> Ready(Apply(s, e).state)
  {
    match e
    case PickStaff(id) =>
      assert id != "" by {
        assert forall k :: k in StaffIds ==> |k| > 0;
      }
    case PickTime(t) =>
      assert t != "" by {
        assert forall k :: k in Times ==> |k| > 0;
      }
    case _ =>
  }

  lemma {:induction false} RunReady(s: State, events: seq<Event>)
    requires Ready(s)
    requires forall i :: 0 <= i < |events| ==> Offered(events[i])
    ensures Run(s, events).Open? ==> Ready(Run(s, events).state)
    decreases |events|
  {
    if |events| > 0 {
      ApplyReady(s, events[0]);
      if Apply(s, events[0]).Open? {
        RunReady(Apply(s, events[0]).state, events[1..]);
      }
    }
  }

  /** The state the last event of a run was applied to: the one a closing
      event closed, or the final state. */
  function LastOpen(s: State, events: seq<Event>): State
    decreases |events|
  {
    if |events| == 0 then s
    else match Apply(s, events[0])
      case Closed(_) => s
      case Open(t) => LastOpen(t, events[1..])
  }

  /** Whatever the user does, the wizard confirms only on the Confirm step
      with at least one service, a professional and a time chosen. */
  lemma {:induction false} ConfirmedIsComplete(s: State, events: seq<Event>)
    requires Ready(s)
    requires forall i :: 0 <= i < |events| ==> Offered(events[i])
    ensures Run(s, events) == Closed(true) ==>
      var t := LastOpen(s, events);
      t.step == LastStep && |t.selected| > 0 && Chosen(t.staff) && Chosen(t.time)
    decreases |events|
  {
    if |events| > 0 {
      ApplyReady(s, events[0]);
      if Apply(s, events[0]).Open? {
        ConfirmedIsComplete(Apply(s, events[0]).state, events[1..]);
      }
    }
  }
}

=== FILE: wrappers.dfy ===
/** The optional value the model uses wherever the source has `T | undefined` or `T | null`. */
module Wrappers {

  datatype Option<+T> = None | Some(value: T) {

    /** Returns the value held in Some, or `default` for None. */
    function GetOr(default: T): T {
      match this
      case Some(v) => v
      case None => default
    }
  }
}
